=== FILE: README.md ===
# Aurora: a Dafny model of the API route logic

Aurora is a Next.js streaming catalogue backed by Supabase. This project
models the logic its API route handlers and a few client helpers run in
memory, as pure Dafny functions over immutable rows:

- **Catalogue routes.** Discover, search, new releases, the genre list and
  the grouped discover page. This covers the series deduplication that four
  handlers copy inline, paging arithmetic and `hasMore`, grouping by genre
  with a per-genre cap, and the ten-genre cut.
- **The discover grid on the client.** Page merge with dedup by id, and the
  filter-reset / loading state transitions.
- **Watch history.** Progress percentage and completion, the
  create-or-update of a (user, content) row, and the "continue watching"
  query.
- **User statistics.** One pass over the joined history rows.
- **Watchlist and its membership check.** Modelled as a table of
  (user, content) pairs.
- **Content requests.** Validation and the pending-duplicate conflict.
- **Sign-in sync.** An upsert keyed by the Firebase uid.
- **Duration labels.** The "continue watching" card and the hero banner.
- **Service worker.** Request routing, what it caches, and which caches it
  deletes.
- **Streaming proxy URL rule.**

Every store call becomes data. A table is a sequence of rows, a failure is
a boolean input, and the id and clock value the store assigns are
parameters. Each handler is a function from its request and the store's
answers to its response and the table afterwards. A response is `Ok(body)`
or `Error(status)`, with `BadRequest`, `Conflict` and `ServerError` standing
for 400, 409 and 500.

The model has these modules:

- `Base`, `Text`, `OrderedMap`, `Sorting`: options, responses, `Filter` and
  `Count`, strings, and JavaScript's insertion-ordered `Map`.
- `Db`: the rows of lib/supabase.ts.
- One module per part of the system: `Dedup`, `Catalog`, `Genres`, `Grid`,
  `History`, `Stats`, `Formatting`, `Watchlist`, `Requests`, `Users`,
  `ServiceWorker`, `Proxy`.

A few points where the model follows the code rather than the written
description of the system:

- **Watch progress.** The route has no lower clamp. It also has no guard
  against reports under five seconds (that guard lives in the player page).
  So `ProgressPercent` can be negative, and every report writes.
- **Per-page dedup.** Series dedup on discover and search is per page. An
  episode of a series shown on page 1 can show again on page 2.
- **`hasMore`.** Discover and search compute it differently. The two
  disagree on an exactly full last page.
- **`isProxyConfigured`.** It tests both the proxy address and the token.
  The address falls back to a default, so this comes down to "the token is
  set".

## Model

| member | source | states |
|---|---|---|
| Dedup.DedupSeries | app/api/contents/discover/route.ts:61-76 | The deduplicated rows are input rows. Their Map keys (series key for a series, id otherwise, in one key space) are the input's distinct keys in order of first appearance, so every input key is represented exactly once. The result is no longer than the input. |
| Dedup.Fold | app/api/contents/discover/grouped/route.ts:57-66 | The Map after the loop has exactly the distinct keys of the rows, in first-seen order. Each key holds an input row stored under that row's own key. |
| Dedup.KeyInFold | app/api/contents/search/route.ts:70-79 | After n rows, the Map has a key exactly when one of those rows has that key. |
| Dedup.SeriesKeepsFirst | app/api/contents/discover/route.ts:65-69 | The first episode seen for a series key is the one kept, unless a movie id collides with that key. |
| Dedup.LaterEpisodeDropped | app/api/contents/discover/route.ts:65-69 | A later, different episode of a series that is already represented is not in the output. |
| Dedup.MovieKeepsLast | app/api/contents/discover/route.ts:70-72 | A movie survives when no later movie has its id. `Map.set` on a known key replaces the value, so for movies the last one wins. |
| Dedup.OnePerKey | app/api/contents/search/route.ts:67-82 | In a list with distinct keys, two rows with the same key are the same row: one row per series. |
| Dedup.DedupReleases | app/api/contents/new-releases/route.ts:33-46 | The Set-based loop computes exactly the reference `KeepFirstSeries`: each series episode whose key has not been seen, and every other row. |
| Dedup.ReleasesAreSubsequence | app/api/contents/new-releases/route.ts:33-46 | The new-releases output is an order-preserving subsequence of its input. |
| Dedup.ReleasesKeepAllMovies | app/api/contents/new-releases/route.ts:43-45 | Every non-series row passes through, in order. Movies are never deduplicated there. |
| Dedup.ReleasesFromInput | app/api/contents/new-releases/route.ts:36-46 | Every output row is an input row. |
| Dedup.ReleasesOnePerSeries | app/api/contents/new-releases/route.ts:37-42 | No two series episodes in the output share a series key. |
| Dedup.ReleasesCoverEverySeries | app/api/contents/new-releases/route.ts:37-42 | The set of series keys in the output equals that of the input, so no series disappears. |
| Dedup.VariantsAgree | app/api/contents/new-releases/route.ts:33-46 | When no movie id equals another movie's id or a series key, the Map variant and the Set variant of the dedup give the same list. |
| Catalog.NewestFirst | app/api/contents/discover/route.ts:42 | The same rows (a permutation), sorted by `created_at` descending. |
| Catalog.Window | app/api/contents/discover/route.ts:13-45 | `range(offset, offset+limit-1)` yields `max(0, min(limit, n - offset))` rows, and row i is input row `offset + i`. |
| Catalog.WindowsTile | app/api/contents/discover/route.ts:13-45 | Two consecutive windows of size `limit` concatenate to the window of size `2*limit`, so paging neither skips nor repeats raw rows. |
| Catalog.PageDedup | app/api/contents/discover/route.ts:58-76 | The page after dedup is no longer than the raw page. It holds raw rows whose keys are distinct, and every raw key is represented. |
| Catalog.Discover | app/api/contents/discover/route.ts:47-87 | A store failure, or a NaN page or limit, gives 500. Otherwise the contents are the deduplicated raw window of at most `limit` rows, and every raw key is represented. `totalItems` is the processed length and `total` is the match count. |
| Catalog.DiscoverHasMore | app/api/contents/discover/route.ts:85 | For a positive limit, `hasMore` holds exactly when the matching rows reach the end of this page. That is, the raw (pre-dedup) page is full. |
| Catalog.IntParamDefault | app/api/contents/discover/route.ts:10-12 | An absent or empty parameter parses as its default. |
| Catalog.IntParamGiven | app/api/contents/search/route.ts:10-11 | A parameter holding a rendered integer parses back to that integer. |
| Catalog.DiscoverDefaults | app/api/contents/discover/route.ts:10-13 | With no parameters, page is 1, limit is 50, and the window is the first 50 matching rows. |
| Catalog.SeriesRepeatsAcrossPages | app/api/contents/discover/route.ts:58-76 | Dedup is per page: two episodes of one series on pages 1 and 2 (limit 1) are each shown on their own page. |
| Catalog.OneRowPage | app/api/contents/discover/route.ts:45-87 | With limit 1, page p shows exactly the p-th matching row, and `hasMore` is true. |
| Catalog.Search | app/api/contents/search/route.ts:14-92 | An absent query, or one shorter than two UTF-16 code units once trimmed, gives empty contents with total 0 and `hasMore` false. Otherwise a failure or NaN parameter gives 500. Otherwise the contents are the deduplicated raw window and `total` is the count. |
| Catalog.ShortQueryIgnoresStore | app/api/contents/search/route.ts:15-25 | A too-short query gives the same empty answer whatever the store holds and whether or not it would fail. |
| Catalog.EmojiQuerySearched | app/api/contents/search/route.ts:15 | `length` counts UTF-16 code units, so a query of one emoji (two code units) is searched. |
| Catalog.LetterQueryTooShort | app/api/contents/search/route.ts:15 | " a ", trimmed to one letter, is too short. |
| Catalog.SearchHasMore | app/api/contents/search/route.ts:90 | Search's `hasMore` holds exactly when `offset + limit < count`. |
| Catalog.SearchHasMoreMeansFullPage | app/api/contents/search/route.ts:52-90 | When search reports more rows, the raw page is full. |
| Catalog.HasMoreDisagreesOnFullLastPage | app/api/contents/search/route.ts:90 | On a last page that is exactly full, discover reports `hasMore` and search does not. |
| Catalog.LatestRows | app/api/contents/new-releases/route.ts:18-22 | The 20 newest rows: `min(20, n)` of them, a sub-multiset of the table, newest first, and no row left out is newer than any row kept. |
| Sorting.TakeSortedIsTop | app/api/contents/new-releases/route.ts:21-22 | `.order(..., { ascending: false }).limit(n)` keeps the n largest: the kept rows are rows of the original, and every row left out has a key no larger than every row kept. |
| Catalog.NewReleases | app/api/contents/new-releases/route.ts:18-46 | A failure gives 500. Otherwise the result is the Set-dedup of the 20 newest rows: at most 20 rows, one episode per series, and all movies of those rows kept in order. |
| Genres.GenreList | app/api/contents/genres/route.ts:41-53 | The genre list is strictly ascending (sorted, no duplicates). A genre is in it exactly when some row has it as a non-empty genre. Null or non-array `generos` contribute nothing. |
| Genres.GenresRoute | app/api/contents/genres/route.ts:22-55 | A failure gives 500. Otherwise the result is the strictly sorted list of exactly the non-empty genres of the rows matching `tipo`. |
| Genres.NonEmptyGenres | app/api/contents/discover/grouped/route.ts:70-73 | The genres that pass `if (genero)` are exactly the non-empty genres visited. |
| Genres.GroupKeys | app/api/contents/discover/grouped/route.ts:75-77 | The keys of the per-genre map are the distinct non-empty genres, in order of first visit. |
| Genres.GroupMeaning | app/api/contents/discover/grouped/route.ts:69-86 | Each non-empty visited genre maps to the first `limit` rows carrying it, in visiting order. An unvisited genre has no entry. |
| Genres.TaggedIsFilter | app/api/contents/discover/grouped/route.ts:69-86 | When no row repeats a genre, the rows pushed for a genre are exactly the rows having it, in order. |
| Genres.TaggedHasGenre | app/api/contents/discover/grouped/route.ts:71-82 | Every row pushed under a genre is an input row that has that genre. |
| Genres.GroupedWindow | app/api/contents/discover/grouped/route.ts:24-32 | The 150 newest rows matching `tipo`: `min(150, m)` of them for m matching rows, a sub-multiset of those rows, newest first, and no matching row left out is newer than any row kept. |
| Genres.Grouped | app/api/contents/discover/grouped/route.ts:36-49 | A failure gives 500. No data gives an empty map and an empty genre list. |
| Genres.GroupedMeaning | app/api/contents/discover/grouped/route.ts:51-104 | `genres` is every non-empty genre of the deduplicated rows, strictly ascending and not truncated. The keys of `genreContents` are the first ten of them, inserted in that order (integer-like names are serialized first; see "## Left out"). Each holds the first `limit` deduplicated rows with that genre. |
| Genres.SelectGroupsMeaning | app/api/contents/discover/grouped/route.ts:91-99 | Copying the top genres into the filtered map gives one entry per top genre, inserted in the top genres' order, with that genre's list. |
| Genres.TopGenres | app/api/contents/discover/grouped/route.ts:89-92 | The first n sorted genres are distinct, non-empty and visited. |
| Grid.MergeById | components/discover/InfiniteContentGrid.tsx:51-53 | The merged list's ids are the distinct ids of its input, in order of first appearance, and every row is an input row. |
| Grid.MergeDistinct | components/discover/InfiniteContentGrid.tsx:51-53 | A list whose ids are already distinct is unchanged by the merge. |
| Grid.LastWins | components/discover/InfiniteContentGrid.tsx:51-53 | A row with no later row of the same id is the one kept for that id. The position is the first occurrence's; the value is the last one's. |
| Grid.ResetFilters | components/discover/InfiniteContentGrid.tsx:23-28 | A filter change empties the list, returns to page 1 with `hasMore`, and requests page 1 unless a fetch is loading. |
| Grid.BeginFetch | components/discover/InfiniteContentGrid.tsx:31-34 | A fetch while loading does nothing. Otherwise loading starts and a request is sent. |
| Grid.CompleteFetch | components/discover/InfiniteContentGrid.tsx:47-62 | Loading ends. With contents, page 1 replaces the list and a later page is appended, then both are merged by id, so ids are distinct. `hasMore` is the reply's, or false when absent. |
| Grid.ReachEnd | components/discover/InfiniteContentGrid.tsx:69-74 | The next page is requested only when more rows may exist and nothing is loading. |
| Grid.LaterPageAppends | components/discover/InfiniteContentGrid.tsx:49 | A later page of new ids is appended after the rows shown. |
| Grid.FirstPageReplaces | components/discover/InfiniteContentGrid.tsx:49 | A page-1 reply gives the same list whatever was shown before. |
| Grid.MergeKeepsEveryId | components/discover/InfiniteContentGrid.tsx:49-53 | Every id shown before, and every id of a later page, is still shown. |
| History.RoundedPercent | app/api/watch-history/route.ts:30 | `Math.round(cur/dur*100)` is the integer q with `2dur*q <= 200cur + dur < 2dur*(q+1)`. |
| History.ProgressPercent | app/api/watch-history/route.ts:29-31 | The percentage is at most 100 and is 0 when the duration is not positive. Below 100 it is the rounded ratio. It is 100 exactly when the rounded ratio reaches 100. |
| History.CompletedIffWatchedEnough | app/api/watch-history/route.ts:33 | `completed` holds exactly when at least 89.5% has been watched (the rounded percent is at least 90). |
| History.ProgressMonotone | app/api/watch-history/route.ts:29-31 | A later position never gives a lower percentage. |
| History.ProgressExamples | app/api/watch-history/route.ts:29-33 | Concrete reports: 45/100 gives 45, not complete. 91/100 gives 91, complete. 250/100 is capped at 100. -10/100 stays -10. Duration 0 gives 0. |
| History.PostProgress | app/api/watch-history/route.ts:10-107 | Missing ids give 400 and no change. Lookup or write failures give 500 and no change. Otherwise the row carries the report, percent and completion. A single existing row is updated in place, keeping its id and first-watched time, with count + 1. With no single match, a new row is appended with count 1 and first-watched = last-watched = now. |
| History.PostKeepsWellFormed | app/api/watch-history/route.ts:35-105 | A POST keeps row ids and (user, content) pairs unique, given the fresh id is unused. |
| History.UpdateTouchesOneRow | app/api/watch-history/route.ts:53-67 | Reporting a known pair changes exactly that row and leaves the others alone. |
| History.ReportTwice | app/api/watch-history/route.ts:53-92 | Two reports of a new pair insert a row with count 1, then update that same row to count 2, keeping its first-watched time. |
| History.ContinueWatching | app/api/watch-history/route.ts:118-164 | Missing `user_id` gives 400. A NaN limit or a failure gives 500. Otherwise `min(limit, n)` of the user's `n` rows that are not completed and above 0.5%, each at most as often as stored, most recently watched first; no unfinished row left out was watched later than a row returned. |
| History.ContinueWatchingIsMostRecent | app/api/watch-history/route.ts:150-154 | An unfinished row left out means the reply is full and every reply row was watched at least as recently. |
| History.ContinueWatchingComplete | app/api/watch-history/route.ts:150-154 | With a limit covering the table, every unfinished row of the user is in the reply. |
| Stats.GetUserStats | app/api/user-stats/route.ts:10-88 | Missing `userId` gives 400. A history failure gives 500. Otherwise movies and series count the distinct content ids first seen past 10%, by kind. Hours are the rounded total of minutes watched over every row with content. Saved content is the watchlist size, or 0 when that query failed. |
| Stats.Visit | app/api/user-stats/route.ts:61-79 | One row: ignored without content. Otherwise its minutes are added, and its content is counted once, by kind, when past 10% and not seen. |
| Stats.RoundHalfUp | app/api/user-stats/route.ts:82 | `Math.round`: the integer within half of x, halves up. |
| Stats.MoviesPlusSeriesBounded | app/api/user-stats/route.ts:68-72 | Movies plus series never exceed the number of counted contents. |
| Stats.CountedIdsDistinct | app/api/user-stats/route.ts:65-66 | No content id is counted twice. |
| Stats.EveryQualifyingCounted | app/api/user-stats/route.ts:65-66 | Every content id with a row past 10% (and with content) is counted. |
| Stats.CountedRowsFromInput | app/api/user-stats/route.ts:62-66 | Only rows with content and progress above 10% are counted. |
| Stats.RowsWithoutContentIgnored | app/api/user-stats/route.ts:62 | Dropping rows without content changes neither the counts nor the minutes. |
| Stats.StatsExample | app/api/user-stats/route.ts:61-82 | Two full viewings of one 90-minute movie count one movie and 3 hours. |
| Formatting.JsRem | components/home/ContinueWatching.tsx:47 | JavaScript's `%` for a positive divisor takes the sign of the dividend. It agrees with the mathematical remainder on non-negative input. |
| Formatting.FormatTime | components/home/ContinueWatching.tsx:44-52 | A non-negative number of seconds gives a label that reads back as (h, m) with m < 60 and `3600h + 60m <= s < 3600h + 60m + 60`: the time left, rounded down to the minute. A negative number never reads back as time left. Its label has a minus sign, unless it is a whole number of hours, which shows "0m restantes". |
| Formatting.FormatTimeUnderAMinute | components/home/ContinueWatching.tsx:45-52 | 59 s shows "0m restantes". |
| Formatting.FormatTimeHoursExample | components/home/ContinueWatching.tsx:49-50 | 5430 s shows "1h 30m restantes". |
| Formatting.CardLabelAsWrittenIsNaN | components/home/ContinueWatching.tsx:55 | Reading `current_time` (absent from the row) makes the card say "NaNm restantes" for every row. |
| Formatting.CardLabelCounterexample | components/home/ContinueWatching.tsx:55 | A row with 600 s left shows "NaNm restantes"; the corrected card shows "10m restantes". |
| Formatting.CardLabelMeaning | components/home/ContinueWatching.tsx:45-55 | The corrected card reads back as the time left, to the minute. |
| Formatting.CardLabels | components/home/ContinueWatching.tsx:13-26 | No items renders nothing. Otherwise there is one label per item, in order. Each is the corrected label computed from `current_t` (see "## Findings"). |
| Formatting.FormatDuration | components/home/HeroBanner.tsx:25-30 | Null or 0 gives "". Any other runtime gives a label ending in "min". |
| Formatting.DurationRoundTrip | components/home/HeroBanner.tsx:25-30 | A positive runtime's label reads back as that runtime (`60h + mins` with `mins < 60`). |
| Formatting.RuntimeSlot | components/home/HeroBanner.tsx:102-104 | The runtime shows only for a set runtime on a movie. A runtime of 0 short-circuits and renders "0". |
| Formatting.RuntimeShown | components/home/HeroBanner.tsx:102-104 | A movie's positive runtime is shown and reads back as itself. |
| Formatting.NegativeDurationExample | components/home/HeroBanner.tsx:27-29 | A negative runtime keeps JavaScript's signs: -30 gives "-1h -30min". |
| Watchlist.GetWatchlist | app/api/watchlist/route.ts:10-45 | Missing `userId` gives 400. A failure gives 500. Otherwise exactly that user's rows (as a multiset), latest added first. |
| Watchlist.AddToWatchlist | app/api/watchlist/route.ts:69-118 | Missing ids give 400. An existing pair gives 409. A failure gives 500. On success the new row is appended. Success happens exactly when the ids are present, the pair is new and the store does not fail. |
| Watchlist.RemoveFromWatchlist | app/api/watchlist/route.ts:135-168 | Missing ids give 400. A failure gives 500. Otherwise no row of the pair remains, every other row is kept, and nothing is added. |
| Watchlist.InWatchlist | app/api/watchlist/check/route.ts:11-45 | Missing ids give 400. On a well-formed table the answer is whether the pair is stored; absence is `false`, not an error. Any other error is 500. |
| Watchlist.PairsCount | app/api/watchlist/check/route.ts:30-35 | The pair is stored exactly when some row matches it. A table with unique pairs has at most one such row. |
| Watchlist.AddInsertsPair | app/api/watchlist/route.ts:91-118 | A successful add adds exactly its pair and keeps pairs unique. |
| Watchlist.RemoveDeletesPair | app/api/watchlist/route.ts:154-168 | A successful delete removes exactly its pair; other pairs are unchanged. |
| Watchlist.RemoveIdempotent | app/api/watchlist/route.ts:154-168 | Deleting twice leaves the same table as deleting once. |
| Watchlist.CheckAfterChanges | app/api/watchlist/check/route.ts:30-45 | After a delete the check answers false. After adding a new pair it answers true. |
| Requests.GetRequests | app/api/content-requests/route.ts:10-31 | Missing `userId` gives 400. A failure gives 500. Otherwise exactly that user's requests, newest first. |
| Requests.Submit | app/api/content-requests/route.ts:57-117 | Missing fields give 400, then a type other than 'filme'/'serie' gives 400. 409 happens exactly when the lookup answered and exactly one pending request of the user matches the name ignoring case. Otherwise the insert decides: 500 exactly when it fails, success exactly when it does not. Errors leave the table unchanged. Success appends a 'pendente' row with null `source_info` when absent. |
| Requests.PendingCountAtMostOne | app/api/content-requests/route.ts:83-89 | Without pending duplicates, at most one pending request matches a name. |
| Requests.SubmitKeepsNoPendingDuplicates | app/api/content-requests/route.ts:83-107 | When the lookup answers, a POST never creates a second pending request for the same user and name. |
| Requests.LookupFailureAdmitsDuplicate | app/api/content-requests/route.ts:83-96 | The lookup's error is ignored, so a failed lookup lets "DUNE" in beside a pending "Dune". |
| Requests.CaseInsensitiveConflict | app/api/content-requests/route.ts:83-96 | "DUNE" conflicts with a pending "Dune" of the same user, whatever the type. |
| Users.Updated | app/api/auth/sync-user/route.ts:39-44 | An update leaves a column alone when its field is left out of the body, writes null for null, and writes the given value otherwise. |
| Users.Inserted | app/api/auth/sync-user/route.ts:62-68 | An insert writes what an update of a null column would. |
| Users.Apply | app/api/auth/sync-user/route.ts:37-47 | A refreshed row keeps its id and uid and takes the email, name, photo and sign-in time. |
| Users.Refresh | app/api/auth/sync-user/route.ts:45 | Rows with the uid are refreshed; rows with other uids are unchanged. |
| Users.SyncUser | app/api/auth/sync-user/route.ts:9-88 | Missing uid or email gives 400. Given both, the reply is an error exactly when the lookup fails (other than "no single row") or the update or insert fails, and that error is 500. Errors change nothing. One matching row means it is refreshed in place with no preferences row. Otherwise exactly one user row is appended, plus a preferences row unless that insert failed. |
| Users.UidCountAtMostOne | app/api/auth/sync-user/route.ts:19-23 | With unique uids, at most one row matches a uid. |
| Users.KnownUserRefreshed | app/api/auth/sync-user/route.ts:35-57 | A known uid keeps its id and position. No row or preferences row is added, and other users are unchanged. |
| Users.NewUserCreated | app/api/auth/sync-user/route.ts:59-85 | An unknown uid creates exactly one row, plus a preferences row unless that insert failed, and the table stays well formed. |
| Users.SignInTwice | app/api/auth/sync-user/route.ts:35-85 | A second sign-in of a new account refreshes the row the first created and adds no preferences row. |
| ServiceWorker.AnyContains | public/sw.js:81-83 | `patterns.some(p => url.includes(p))` holds exactly when some pattern occurs in the URL. |
| ServiceWorker.Classify | public/sw.js:73-90 | Non-GET or non-http requests pass through. Otherwise a request is network-first exactly when its URL contains "/api/", "supabase" or "firebase", and cache-first otherwise. |
| ServiceWorker.NetworkFirstMeaning | public/sw.js:15-19 | For an intercepted request, network-first means one of the three patterns occurs at some position of the URL. |
| ServiceWorker.RoutingExamples | public/sw.js:73-88 | A POST and a chrome-extension request pass through; a URL under /api/ is network-first. |
| ServiceWorker.FetchAndCache | public/sw.js:124-146 | A response is stored under its URL only if it is a 200 that is not opaque. |
| ServiceWorker.CacheFirstStep | public/sw.js:93-107 | A cached response is answered. Without one, the network's response is answered, or on a network error the cached root page or a failure. The caches change only as `fetchAndCache` does. |
| ServiceWorker.NetworkFirstStep | public/sw.js:108-122 | The network's response, whatever its status. On a network error the cached response, else a failure. Nothing is stored. |
| ServiceWorker.HandleFetch | public/sw.js:69-91 | The browser handles the request exactly when it passes through. Only a cache-first request changes the caches, and only under its own URL. |
| ServiceWorker.NetworkFirstNeverCached | public/sw.js:85-90 | Starting without them, no sequence of requests ever stores an API or backend response. |
| ServiceWorker.StaleCaches | public/sw.js:43-49 | Activation deletes exactly the "aurora-" caches other than the current static and dynamic ones. |
| ServiceWorker.ClearedCaches | public/sw.js:160-170 | `CLEAR_CACHE` deletes exactly the "aurora-" caches. |
| ServiceWorker.ActivateLeavesCurrent | public/sw.js:4-6 | After activation only the current static and dynamic caches remain among "aurora-" names. Other caches are untouched and the old single cache of this version is gone. |
| ServiceWorker.ClearIncludesStale | public/sw.js:160-170 | `CLEAR_CACHE` deletes everything activation deletes, and the current caches besides. |
| Proxy.EnvOr | lib/proxy.ts:5-6 | An unset or empty variable falls back to its default. |
| Proxy.ProxiedVideoUrl | lib/proxy.ts:13-27 | The empty input gives "". An input starting with "https://" is returned unchanged. Any other input becomes the proxy's `/proxy/stream` endpoint carrying the URL and the token, when `new URL` accepts the proxy address (a rejected address makes the call throw; see "## Left out"). |
| Proxy.ProxiedIsHttps | lib/proxy.ts:13-27 | With an https proxy, the player never gets a non-https address for a non-empty input. |
| Proxy.HttpIsProxied | lib/proxy.ts:17 | The test is case-sensitive: "http://" and "HTTPS://" inputs are both proxied. |
| Proxy.IsProxyConfigured | lib/proxy.ts:32-34 | Configured exactly when the token is set, because the address always has a fallback. |

## Left out

- The Supabase query builder is not modelled. `eq`, `contains`, `ilike`, `or`, `order`, `range` and `limit` are written as `Filter`, `NewestFirst`, `Window` and `Take` over a table given as a sequence. The order of rows with equal timestamps is chosen by the store; the model fixes one.
- The `%` and `_` wildcards of `ilike` are not modelled. The pending-request lookup is case-insensitive equality, and search is case-insensitive substring matching. `Lower` folds only ASCII letters.
- The PostgREST filter-string interpolation of the search query is not modelled.
- `.single()` is modelled as "exactly one row matches". When several rows match, the store answers with the same "not a single row" error as for none, and the handlers treat both as no row. The `.single()` after an update or insert is taken to return the written row.
- `parseInt` is modelled in base ten: leading white space, an optional sign, then the longest run of digits; NaN is `None`. A `0x` prefix, which JavaScript reads as hexadecimal, reads here as 0. A NaN page or limit reaching the store is modelled as a store error (500).
- A negative `limit` is treated like `Take` (an empty reply). The store's own treatment of a negative range is not modelled.
- JavaScript object prototype keys (a genre named "constructor") are not modelled; the per-genre map and `genreContents` are insertion-ordered lists of entries.
- Genres.GroupedMeaning and Genres.SelectGroupsMeaning state the insertion order of `genreContents`, not its order in the JSON text. A plain object lists integer-like keys ("9", "10") first, in numeric order, so genres `"10"` and `"9"` are inserted as `"10"`, `"9"` but sent as `"9"`, `"10"`. The set of keys and the list under each key are as stated; `genres`, an array, keeps its sorted order.
- Watchlist.GetWatchlist does not model the joined `contents (*)` columns. Its rows are the table's rows.
- History.ContinueWatching does not model the `content:contents(*)` join of app/api/watch-history/route.ts:145-148. Its reply rows are the history rows alone, without the content each one points at. The filter, the order and the limit are modelled.
- Genres.GenreList and Genres.Grouped sort genre names character by character (`LexLe`). `Array.prototype.sort` compares UTF-16 code units. The two orders agree except when a name holds a character outside the Basic Multilingual Plane and another holds one from U+E000 to U+FFFF at the same place.
- A request body that is not a JSON object (invalid JSON, or the JSON `null`) makes each POST handler answer 500 from its catch block: app/api/watchlist/route.ts:62-65 with 119-125, app/api/content-requests/route.ts:54-55 with 120-126, app/api/sync-user/route.ts:6-7 with 89-95, and app/api/watch-history/route.ts:7-8. Watchlist.AddToWatchlist, Requests.Submit, Users.SyncUser and History.PostProgress take the body's fields as already read, so this 500 is not modelled; an absent field gives 400 as the handlers do.
- Request bodies are modelled as present or absent strings. Non-string JSON values, and `current_t` or `duration` that are absent or not numbers, are not modelled. They are integers. In user statistics `duration || 0` is the identity on them.
- Floating point is not modelled. Progress, minutes and hours are computed over exact integers and rationals. JavaScript's float rounding may differ at half-way points.
- Concurrency is not modelled. The read-then-write upserts of watch history and sign-in are single sequential calls.
- The clock, the ids the store assigns, and store failures are parameters.
- React rendering, animation and routing are not modelled, beyond the two labels and the runtime slot. This includes the card strip's rendering and the banner's null-content guard.
- PWA plumbing is not modelled: install, the update hook, `skipWaiting`, version messages, push, notifications and clients. The service worker's cache writes happen in the background; the model applies them at once and in one `Caches` map.
- ServiceWorker.Classify takes the request's protocol as given; URL parsing is not modelled.
- ServiceWorker.ActivateLeavesCurrent models cache names only, not the static pre-cache list.
- Proxy.ProxiedVideoUrl keeps the endpoint, URL and token as parts. `URL`/`URLSearchParams` encoding is not modelled. A proxy address that `new URL` rejects (one that is not an absolute URL, such as "api.aurorav2.fun") makes the call throw a TypeError; the model does not represent that throw and still answers with the endpoint.
- `testProxyConnection` is a network call and is not modelled.
- Firebase auth, the auth context, Chromecast and the mock pages are not modelled.

## Findings

| source | as written | input that shows it | evidently intended | confidence | as-written member | corrected member |
|---|---|---|---|---|---|---|
| components/home/ContinueWatching.tsx:55 | `item.duration - item.current_time`, but the history row's field is `current_t` (lib/supabase.ts:142), so the subtraction is NaN | a row with `duration` 600 and `current_t` 0 shows "NaNm restantes" | `item.duration - item.current_t`, showing "10m restantes" | not executed | Formatting.CardLabelAsWrittenIsNaN, Formatting.CardLabelCounterexample | Formatting.CardLabel, Formatting.CardLabelMeaning |

=== FILE: base.dfy ===
/** Shared vocabulary of the route handlers: optional values, the HTTP error
    taxonomy the handlers answer with, and JavaScript truthiness of request
    parameters. */
module Base {

  /** A nullable / possibly absent value. */
  datatype Option<+T> = None | Some(value: T) {
    function GetOr(default: T): T {
      match this
      case Some(v) => v
      case None => default
    }
  }

  /** The error statuses the handlers return. */
  datatype Status = BadRequest | NotFound | Conflict | ServerError

  function Code(s: Status): (code: int)
    ensures 400 <= code < 600
    ensures s == ServerError <==> code >= 500
  {
    match s
    case BadRequest => 400
    case NotFound => 404
    case Conflict => 409
    case ServerError => 500
  }

  /** A handler's answer: a JSON body, or an error status with no side effect
      on the body. */
  datatype Response<+T> = Ok(body: T) | Error(status: Status)

  /** `!x` is false for a request parameter: it was sent and is not "". */
  predicate Present(p: Option<string>) {
    p.Some? && p.value != ""
  }

  function Min(a: int, b: int): int {
    if a <= b then a else b
  }

  function Max(a: int, b: int): int {
    if a >= b then a else b
  }

  /** The first `n` elements of `s` (all of them when `n >= |s|`, none when
      `n <= 0`), as `.slice(0, n)` and a store `.limit(n)` return them. */
  function Take<T>(s: seq<T>, n: int): (r: seq<T>)
    ensures |r| == if n <= 0 then 0 else Min(n, |s|)
    ensures forall i :: 0 <= i < |r| ==> r[i] == s[i]
  {
    if n <= 0 then [] else if n >= |s| then s else s[..n]
  }

  /** `s` without its first `n` elements (all of `s` when `n <= 0`). */
  function Drop<T>(s: seq<T>, n: int): (r: seq<T>)
    ensures |r| == if n <= 0 then |s| else Max(0, |s| - n)
    ensures forall i :: 0 <= i < |r| ==> r[i] == s[Max(n, 0) + i]
  {
    if n <= 0 then s else if n >= |s| then [] else s[n..]
  }

  predicate NoDuplicates<T(==)>(s: seq<T>) {
    forall i, j :: 0 <= i < j < |s| ==> s[i] != s[j]
  }

  /** Elements of `s` satisfying `p`, in order. */
  function Filter<T>(p: T -> bool, s: seq<T>): (r: seq<T>)
    ensures |r| <= |s|
    ensures forall i :: 0 <= i < |r| ==> r[i] in s && p(r[i])
    ensures forall i :: 0 <= i < |s| && p(s[i]) ==> s[i] in r
  {
    if |s| == 0 then []
    else
      var rest := Filter(p, s[..|s| - 1]);
      var last := s[|s| - 1];
      assert s == s[..|s| - 1] + [last];
      if p(last) then rest + [last] else rest
  }

  /** Number of elements of `s` satisfying `p`. */
  function Count<T>(p: T -> bool, s: seq<T>): (n: nat)
    ensures n <= |s|
    ensures n == 0 <==> forall i :: 0 <= i < |s| ==> !p(s[i])
  {
    if |s| == 0 then 0
    else (if p(s[0]) then 1 else 0) + Count(p, s[1..])
  }

  /** What `.single()` yields on the rows a query matched: the row when
      exactly one matched; otherwise nothing (PostgREST reports PGRST116). */
  datatype Single<T> = One(row: T) | NoneOrMany

  function SingleOf<T>(p: T -> bool, s: seq<T>): (r: Single<T>)
    ensures r.One? <==> Count(p, s) == 1
    ensures r.One? ==> r.row in s && p(r.row)
  {
    if Count(p, s) == 1 then One(FirstWhere(p, s)) else NoneOrMany
  }

  function FirstWhere<T>(p: T -> bool, s: seq<T>): (x: T)
    requires Count(p, s) > 0
    ensures x in s && p(x)
  {
    if p(s[0]) then s[0] else FirstWhere(p, s[1..])
  }
}

=== FILE: catalog.dfy ===
/** The catalogue routes that page through `contents`: discover, search and
    new releases, together with the query parameters they share.

    The store is the `contents` table as a sequence. A query's filters,
    its `order('created_at', { ascending: false })` and its
    `range(from, to)` / `limit(n)` are written out as functions over that
    sequence; `fails` says whether the store answers with an error. */
module Catalog {
  import opened Base
  import opened Text
  import opened Sorting
  import opened Db
  import opened Dedup
  import opened OrderedMap

  // ---------------------------------------------------------------------
  // Query parameters and store queries

  /** The string stored in `tipo`. */
  function KindName(k: Kind): string {
    match k
    case Filme => "FILME"
    case Serie => "SERIE"
    case Unlisted(t) => t
  }

  /** `.eq('tipo', tipo)`, applied only when the parameter is truthy. */
  predicate TipoMatches(tipo: Option<string>, c: Content) {
    !Present(tipo) || KindName(c.tipo) == tipo.value
  }

  /** `.contains('generos', [genero])`, applied only when the parameter is
      truthy; a null `generos` contains nothing. */
  predicate GeneroMatches(genero: Option<string>, c: Content) {
    !Present(genero) || (c.generos.Some? && genero.value in c.generos.value)
  }

  function CreatedAt(c: Content): int {
    c.createdAt
  }

  /** `.order('created_at', { ascending: false })`: the same rows, newest
      first. Rows with equal timestamps come in an order the store chooses;
      the model fixes one. */
  function NewestFirst(rows: seq<Content>): (r: seq<Content>)
    ensures multiset(r) == multiset(rows)
    ensures SortedDesc(r, CreatedAt)
  {
    SortDesc(rows, CreatedAt)
  }

  /** `parseInt(searchParams.get(name) || fallback)`; `None` is NaN. */
  function IntParam(p: Option<string>, fallback: string): Option<int> {
    ParseIntJs(if Present(p) then p.value else fallback)
  }

  /** An absent or empty parameter reads as its default. */
  lemma IntParamDefault(p: Option<string>, d: nat)
    requires !Present(p)
    ensures IntParam(p, NatToString(d)) == Some(d)
  {
    ParseIntRoundTrip(d);
    assert IntToString(d) == NatToString(d);
  }

  /** A parameter carrying a rendered integer reads as that integer. */
  lemma IntParamGiven(i: int, fallback: string)
    ensures IntParam(Some(IntToString(i)), fallback) == Some(i)
  {
    ParseIntRoundTrip(i);
  }

  /** `.range(offset, offset + limit - 1)`: the rows from position `offset`
      on, at most `limit` of them. */
  function Window<T>(s: seq<T>, offset: int, limit: int): (r: seq<T>)
    ensures |r| == Max(0, Min(limit, |s| - Max(offset, 0)))
    ensures forall i :: 0 <= i < |r| ==> r[i] == s[Max(offset, 0) + i]
  {
    Take(Drop(s, offset), limit)
  }

  /** Two consecutive windows of the same size cover one window of twice the
      size: paging neither skips nor repeats a raw row. */
  lemma WindowsTile<T>(s: seq<T>, offset: nat, limit: nat)
    ensures Window(s, offset, limit) + Window(s, offset + limit, limit) == Window(s, offset, 2 * limit)
  {
    var a := Window(s, offset, limit);
    var b := Window(s, offset + limit, limit);
    var w := Window(s, offset, 2 * limit);
    var n := |s| - offset;
    if n <= 0 {
      assert |a| == 0 && |b| == 0 && |w| == 0;
    } else if n <= limit {
      assert |a| == n && |b| == 0 && |w| == n;
    } else if n <= 2 * limit {
      assert |a| == limit && |b| == n - limit && |w| == n;
    } else {
      assert |a| == limit && |b| == limit && |w| == 2 * limit;
    }
    forall i | 0 <= i < |w| ensures (a + b)[i] == w[i] {
      if i >= |a| {
        assert (a + b)[i] == b[i - |a|];
      }
    }
  }

  /** `(page - 1) * limit` */
  function Offset(page: int, limit: int): int {
    (page - 1) * limit
  }

  /** Rows whose shared keys are distinct: the per-page dedup of discover
      and search, which skips an empty page. */
  function PageDedup(data: seq<Content>): (r: seq<Content>)
    ensures |r| <= |data|
    ensures forall i :: 0 <= i < |r| ==> r[i] in data
    ensures NoDuplicates(MapKeys(r))
    ensures forall i :: 0 <= i < |data| ==> MapKey(data[i]) in MapKeys(r)
  {
    if |data| > 0 then DedupSeries(data) else data
  }

  // ---------------------------------------------------------------------
  // GET /api/contents/discover

  datatype DiscoverPage = DiscoverPage(
    contents: seq<Content>,
    page: Option<int>,
    limit: Option<int>,
    total: int,
    totalItems: int,
    hasMore: bool)

  /** The rows the discover query selects, in store order. */
  function DiscoverMatching(table: seq<Content>, tipo: Option<string>, genero: Option<string>): seq<Content> {
    NewestFirst(Filter((c: Content) => TipoMatches(tipo, c) && GeneroMatches(genero, c), table))
  }

  /** The handler after `page = parseInt(page || '1')` and
      `limit = parseInt(limit || '50')` (see `IntParam`). A NaN `page` or
      `limit` reaches the store as `offset=NaN`, which it rejects; the
      handler then answers 500 like any other store error. */
  function Discover(matching: seq<Content>, page: Option<int>, limit: Option<int>, fails: bool): (r: Response<DiscoverPage>)
    ensures r.Error? <==> fails || page.None? || limit.None?
    ensures r.Error? ==> r.status == ServerError
    ensures r.Ok? ==>
      var raw := Window(matching, Offset(page.value, limit.value), limit.value);
      && r.body.page == page && r.body.limit == limit
      && |r.body.contents| <= |raw| <= Max(limit.value, 0)
      && (forall i :: 0 <= i < |r.body.contents| ==> r.body.contents[i] in raw)
      && NoDuplicates(MapKeys(r.body.contents))
      && (forall i :: 0 <= i < |raw| ==> MapKey(raw[i]) in MapKeys(r.body.contents))
      && r.body.totalItems == |r.body.contents|
      && r.body.total == |matching|
  {
    if fails || page.None? || limit.None? then Error(ServerError)
    else
      var data := Window(matching, Offset(page.value, limit.value), limit.value);
      var processed := PageDedup(data);
      var count := |matching|;
      Ok(DiscoverPage(processed, page, limit, if count != 0 then count else |processed|, |processed|, |data| == limit.value))
  }

  /** Discover's `hasMore` compares the raw page with `limit`: for a
      positive `limit` it holds exactly when the matching rows reach at
      least to the end of this page. */
  lemma DiscoverHasMore(matching: seq<Content>, page: int, limit: int)
    requires limit > 0
    ensures Discover(matching, Some(page), Some(limit), false).body.hasMore
      <==> Max(Offset(page, limit), 0) + limit <= |matching|
  {
  }

  /** Absent or empty `page` and `limit` parameters read as 1 and 50, so
      discover then serves the first 50 matching rows. */
  lemma DiscoverDefaults(matching: seq<Content>, p: Option<string>, l: Option<string>)
    requires !Present(p) && !Present(l)
    ensures IntParam(p, "1") == Some(1) && IntParam(l, "50") == Some(50)
    ensures Window(matching, Offset(1, 50), 50) == Take(matching, 50)
  {
    IntParamDefault(p, 1);
    IntParamDefault(l, 50);
    DefaultStrings();
    FirstWindow(matching, 50);
  }

  lemma DefaultStrings()
    ensures NatToString(1) == "1" && NatToString(50) == "50"
  {
    assert NatToString(5) == "5";
  }

  /** Page 1 starts at the first row. */
  lemma FirstWindow<T>(s: seq<T>, limit: int)
    ensures Window(s, Offset(1, limit), limit) == Take(s, limit)
  {
    assert Drop(s, 0) == s;
  }

  /** Dedup is per page: two episodes of one series that fall on
      different pages are both shown, one on each page. */
  lemma SeriesRepeatsAcrossPages(e1: Content, e2: Content)
    requires IsSeries(e1) && IsSeries(e2) && SeriesKey(e1) == SeriesKey(e2)
    ensures Discover([e1, e2], Some(1), Some(1), false) == Ok(DiscoverPage([e1], Some(1), Some(1), 2, 1, true))
    ensures Discover([e1, e2], Some(2), Some(1), false) == Ok(DiscoverPage([e2], Some(2), Some(1), 2, 1, true))
  {
    OneRowPage([e1, e2], 1);
    OneRowPage([e1, e2], 2);
  }

  /** With `limit = 1`, page `p` shows exactly the `p`-th matching row. */
  lemma OneRowPage(matching: seq<Content>, p: int)
    requires 1 <= p <= |matching|
    ensures Discover(matching, Some(p), Some(1), false)
      == Ok(DiscoverPage([matching[p - 1]], Some(p), Some(1), |matching|, 1, true))
  {
    var c := matching[p - 1];
    var w := Window(matching, Offset(p, 1), 1);
    assert w == [c] by {
      assert Offset(p, 1) == p - 1;
    }
    SingleRowPage(c);
    var d := Discover(matching, Some(p), Some(1), false);
    assert d.Ok? && d.body.contents == [c] && d.body.total == |matching|;
  }

  lemma SingleRowPage(c: Content)
    ensures PageDedup([c]) == [c]
  {
    assert [c][..0] == [];
    assert Fold([c]) == Step([], c) == [Entry(MapKey(c), c)];
  }

  // ---------------------------------------------------------------------
  // GET /api/contents/search

  datatype SearchPage = SearchPage(
    contents: seq<Content>,
    page: Option<int>,
    limit: Option<int>,
    total: int,
    hasMore: bool)

  /** `nome.ilike.%q%,nome_serie.ilike.%q%`: the query occurs in the name or
      in the series name, ignoring case. */
  predicate NameMatches(q: string, c: Content) {
    Contains(Lower(c.nome), Lower(q))
    || (c.nomeSerie.Some? && Contains(Lower(c.nomeSerie.value), Lower(q)))
  }

  function SearchMatching(table: seq<Content>, q: string, tipo: Option<string>): seq<Content> {
    NewestFirst(Filter((c: Content) => NameMatches(q, c) && TipoMatches(tipo, c), table))
  }

  /** `searchParams.get('q') || ''` */
  function QueryText(qParam: Option<string>): string {
    if Present(qParam) then qParam.value else ""
  }

  /** `String.prototype.length`: the number of UTF-16 code units, two for
      a character outside the Basic Multilingual Plane (a Dafny `string`
      holds one element per character). */
  function Utf16Length(s: string): (n: nat)
    ensures |s| <= n <= 2 * |s|
  {
    if |s| == 0 then 0
    else (if s[0] as int > 0xFFFF then 2 else 1) + Utf16Length(s[1..])
  }

  /** The guard that answers without querying the store: `q.trim().length`
      counts UTF-16 code units. */
  predicate TooShort(q: string) {
    q == "" || Utf16Length(Trim(q)) < 2
  }

  /** One emoji is two code units long, so a query of one emoji is
      searched. */
  lemma EmojiQuerySearched()
    ensures !TooShort("\U{1F600}")
  {
    var e := "\U{1F600}";
    assert !IsJsSpace(e[0]);
    assert TrimStart(e) == e && TrimEnd(e) == e;
    assert e[1..] == "";
    assert Utf16Length(Trim(e)) == 2;
  }

  /** One letter, once trimmed, is too short. */
  lemma LetterQueryTooShort()
    ensures TooShort(" a ")
  {
    var a := " a ";
    assert |Trim(a)| == 1 by {
      assert !IsJsSpace(a[1]);
      var k :| OccursAt(a, Trim(a), k);
    }
  }

  /** The handler after `page = parseInt(page || '1')` and
      `limit = parseInt(limit || '20')`; `matching` is what the store would
      select for the query text. */
  function Search(matching: seq<Content>, q: string, page: Option<int>, limit: Option<int>, fails: bool): (r: Response<SearchPage>)
    ensures TooShort(q) ==> r == Ok(SearchPage([], page, limit, 0, false))
    ensures r.Error? <==> !TooShort(q) && (fails || page.None? || limit.None?)
    ensures r.Error? ==> r.status == ServerError
    ensures r.Ok? && !TooShort(q) ==>
      var raw := Window(matching, Offset(page.value, limit.value), limit.value);
      && r.body.page == page && r.body.limit == limit
      && |r.body.contents| <= |raw| <= Max(limit.value, 0)
      && (forall i :: 0 <= i < |r.body.contents| ==> r.body.contents[i] in raw)
      && NoDuplicates(MapKeys(r.body.contents))
      && (forall i :: 0 <= i < |raw| ==> MapKey(raw[i]) in MapKeys(r.body.contents))
      && r.body.total == |matching|
  {
    if TooShort(q) then Ok(SearchPage([], page, limit, 0, false))
    else if fails || page.None? || limit.None? then Error(ServerError)
    else
      var offset := Offset(page.value, limit.value);
      var data := Window(matching, offset, limit.value);
      var count := |matching|;
      Ok(SearchPage(PageDedup(data), page, limit, count, offset + limit.value < count))
  }

  /** A query that is absent or shorter than two characters once trimmed
      never reaches the store: the answer is the same whatever the store
      holds and whether or not it would fail. */
  lemma ShortQueryIgnoresStore(m1: seq<Content>, m2: seq<Content>, qParam: Option<string>,
                               page: Option<int>, limit: Option<int>, f1: bool, f2: bool)
    requires Utf16Length(Trim(QueryText(qParam))) < 2
    ensures Search(m1, QueryText(qParam), page, limit, f1) == Search(m2, QueryText(qParam), page, limit, f2)
    ensures Search(m1, QueryText(qParam), page, limit, f1).body.contents == []
  {
  }

  /** Search's `hasMore` counts rows beyond this page. */
  lemma SearchHasMore(matching: seq<Content>, q: string, page: int, limit: int)
    requires !TooShort(q)
    ensures Search(matching, q, Some(page), Some(limit), false).body.hasMore
      <==> Offset(page, limit) + limit < |matching|
  {
  }

  /** Search's `hasMore` implies a full raw page (for a non-negative offset
      and limit), but not conversely: on an exactly full last page it is
      false. */
  lemma SearchHasMoreMeansFullPage(matching: seq<Content>, q: string, page: int, limit: int)
    requires !TooShort(q) && Offset(page, limit) >= 0 && limit >= 0
    requires Search(matching, q, Some(page), Some(limit), false).body.hasMore
    ensures |Window(matching, Offset(page, limit), limit)| == limit
  {
    SearchHasMore(matching, q, page, limit);
    WindowFull(matching, Offset(page, limit), limit);
  }

  lemma WindowFull<T>(s: seq<T>, offset: int, limit: int)
    requires 0 <= offset && 0 <= limit && offset + limit <= |s|
    ensures |Window(s, offset, limit)| == limit
  {
  }

  /** The two routes disagree on a last page that is exactly full: discover
      reports more rows, search does not. */
  lemma HasMoreDisagreesOnFullLastPage(matching: seq<Content>, q: string, page: nat, limit: nat)
    requires page >= 1 && limit >= 1 && !TooShort(q)
    requires |matching| == page * limit
    ensures Discover(matching, Some(page), Some(limit), false).body.hasMore
    ensures !Search(matching, q, Some(page), Some(limit), false).body.hasMore
  {
    var offset := Offset(page, limit);
    assert offset + limit == page * limit;
    assert offset >= 0 by {
      assert page - 1 >= 0;
    }
    SearchHasMore(matching, q, page, limit);
    DiscoverHasMore(matching, page, limit);
  }

  // ---------------------------------------------------------------------
  // GET /api/contents/new-releases

  /** The 20 newest rows: as many as the table has up to 20, each taken
      from the table, newest first, and no row left out is newer than a row
      kept. */
  function LatestRows(table: seq<Content>): (r: seq<Content>)
    ensures |r| == Min(20, |table|)
    ensures multiset(r) <= multiset(table)
    ensures SortedDesc(r, CreatedAt)
    ensures forall i :: 0 <= i < |r| ==> r[i] in table
    ensures forall x, y :: x in multiset(table) - multiset(r) && y in r ==> x.createdAt <= y.createdAt
  {
    var sorted := NewestFirst(table);
    TakeOfPermutation(sorted, table, 20);
    TakeSortedIsTop(sorted, table, 20, CreatedAt);
    Take(sorted, 20)
  }

  method NewReleases(table: seq<Content>, fails: bool) returns (r: Response<seq<Content>>)
    ensures r.Error? <==> fails
    ensures r.Error? ==> r.status == ServerError
    ensures r.Ok? ==> r.body == KeepFirstSeries(LatestRows(table))
    ensures r.Ok? ==> |r.body| <= 20 && OneEpisodePerSeries(r.body)
    ensures r.Ok? ==> NonSeries(r.body) == NonSeries(LatestRows(table))
  {
    if fails {
      return Error(ServerError);
    }
    var data := LatestRows(table);
    var unique := DedupReleases(data);
    ReleasesOnePerSeries(data);
    ReleasesKeepAllMovies(data);
    ReleasesAreSubsequence(data);
    SubsequenceNoLonger(unique, data);
    return Ok(unique);
  }

  lemma {:induction false} SubsequenceNoLonger<T>(a: seq<T>, b: seq<T>)
    requires IsSubsequence(a, b)
    ensures |a| <= |b|
    decreases |b|
  {
    if |a| > 0 {
      if a[|a| - 1] == b[|b| - 1] && IsSubsequence(a[..|a| - 1], b[..|b| - 1]) {
        SubsequenceNoLonger(a[..|a| - 1], b[..|b| - 1]);
      } else {
        SubsequenceNoLonger(a, b[..|b| - 1]);
      }
    }
  }
}

=== FILE: db.dfy ===
/** The rows of the tables the handlers read and write, after the types in
    lib/supabase.ts. Timestamps are points of an abstract clock (`int`);
    columns no modelled operation reads are left out. */
module Db {
  import opened Base

  /** `tipo`. The declared type admits only 'FILME' and 'SERIE'; `Unlisted`
      stands for any other value the column might hold, which every handler
      treats as "not a series" and user statistics count as neither. */
  datatype Kind = Filme | Serie | Unlisted(tag: string)

  /** A `contents` row: a movie or one episode of a series. */
  datatype Content = Content(
    id: string,
    nome: string,
    slug: string,
    tipo: Kind,
    nomeSerie: Option<string>,
    temporada: Option<string>,
    episodio: Option<string>,
    duracao: Option<int>,            // minutes
    generos: Option<seq<string>>,    // None: null or not an array
    destaque: bool,
    createdAt: int)

  /** A `watchlist` row. */
  datatype WatchlistEntry = WatchlistEntry(
    id: string,
    userId: string,
    contentId: string,
    addedAt: int)

  /** A `watch_history` row. */
  datatype WatchHistory = WatchHistory(
    id: string,
    userId: string,
    contentId: string,
    currentT: int,                   // seconds
    duration: int,                   // seconds
    progressPercent: int,
    completed: bool,
    lastWatchedAt: int,
    firstWatchedAt: int,
    watchCount: int)

  /** A `users` row. */
  datatype User = User(
    id: string,
    firebaseUid: string,
    email: string,
    displayName: Option<string>,
    photoUrl: Option<string>,
    lastLogin: Option<int>)

  /** A `content_requests` row. */
  datatype ContentRequest = ContentRequest(
    id: string,
    userId: string,
    contentName: string,
    contentType: string,
    sourceInfo: Option<string>,
    status: string,
    createdAt: int)
}

=== FILE: dedup.dfy ===
/** Series deduplication: one card per series. A series episode is known by
    its series key, `nome_serie || nome` (so an empty `nome_serie` falls back
    to `nome` too); the first episode seen stands for its series.

    Two variants exist in the handlers and both are modelled:
    - the `Map` variant (discover, search, grouped discover) stores series
      under their series key and every other row under its `id`, in ONE key
      space, with `Map.set`, so a later non-series row with an existing key
      replaces that entry's value in place;
    - the `Set` variant (new releases) remembers series keys only and lets
      every non-series row through. */
module Dedup {
  import opened Base
  import opened Db
  import opened OrderedMap

  /** `content.nome_serie || content.nome` */
  function SeriesKey(c: Content): string {
    if c.nomeSerie.Some? && c.nomeSerie.value != "" then c.nomeSerie.value else c.nome
  }

  predicate IsSeries(c: Content) {
    c.tipo == Serie
  }

  /** The key a row is stored under in the handlers' shared `Map`. */
  function MapKey(c: Content): string {
    if IsSeries(c) then SeriesKey(c) else c.id
  }

  function MapKeys(rows: seq<Content>): (ks: seq<string>)
    ensures |ks| == |rows|
    ensures forall i :: 0 <= i < |rows| ==> ks[i] == MapKey(rows[i])
  {
    seq(|rows|, i requires 0 <= i < |rows| => MapKey(rows[i]))
  }

  // ---------------------------------------------------------------------
  // The Map variant

  /** One iteration of the handlers' loop body. */
  function Step(m: seq<Entry<Content>>, c: Content): seq<Entry<Content>> {
    if IsSeries(c) then
      if SeriesKey(c) in Keys(m) then m else Put(m, SeriesKey(c), c)
    else
      Put(m, c.id, c)
  }

  /** The Map after the loop has visited every row of `rows` in order. Its
      keys are the rows' keys in order of first appearance, and every entry
      holds an input row stored under that row's own key. */
  function Fold(rows: seq<Content>): (m: seq<Entry<Content>>)
    ensures Keys(m) == Distinct(MapKeys(rows))
    ensures forall i :: 0 <= i < |m| ==> m[i].key == MapKey(m[i].value)
    ensures forall i :: 0 <= i < |m| ==> m[i].value in rows
  {
    if |rows| == 0 then []
    else
      var prefix := rows[..|rows| - 1];
      var c := rows[|rows| - 1];
      assert MapKeys(rows) == MapKeys(prefix) + [MapKey(c)];
      assert rows == prefix + [c];
      var m := Fold(prefix);
      assert forall e :: e in m ==> e.key == MapKey(e.value) && e.value in rows by {
        forall e | e in m ensures e.key == MapKey(e.value) && e.value in rows {
          var i :| 0 <= i < |m| && m[i] == e;
        }
      }
      Step(m, c)
  }

  /** `Array.from(uniqueMap.values())` in discover, search and grouped
      discover. The result lists at most one row per key, keys in order of
      first appearance, each row taken from the input. */
  function DedupSeries(rows: seq<Content>): (r: seq<Content>)
    ensures |r| <= |rows|
    ensures forall i :: 0 <= i < |r| ==> r[i] in rows
    ensures MapKeys(r) == Distinct(MapKeys(rows))
    ensures NoDuplicates(MapKeys(r))
    ensures forall i :: 0 <= i < |rows| ==> MapKey(rows[i]) in MapKeys(r)
  {
    var m := Fold(rows);
    assert MapKeys(Values(m)) == Keys(m);
    Values(m)
  }

  /** The prefix of `rows` of length `n` extends the one of length `n - 1`
      by the row at `n - 1`. */
  lemma FoldPrefix(rows: seq<Content>, n: nat)
    requires 0 < n <= |rows|
    ensures Fold(rows[..n]) == Step(Fold(rows[..n - 1]), rows[n - 1])
  {
    assert rows[..n][..n - 1] == rows[..n - 1];
  }

  /** The Map holds a key after `n` rows exactly when one of them has it. */
  lemma KeyInFold(rows: seq<Content>, n: nat, k: string)
    requires n <= |rows|
    ensures k in Keys(Fold(rows[..n])) <==> exists j :: 0 <= j < n && MapKey(rows[j]) == k
  {
    var ks := MapKeys(rows[..n]);
    assert k in Keys(Fold(rows[..n])) <==> k in ks;
    if k in ks {
      var j :| 0 <= j < |ks| && ks[j] == k;
      assert MapKey(rows[j]) == k;
    }
    if exists j :: 0 <= j < n && MapKey(rows[j]) == k {
      var j :| 0 <= j < n && MapKey(rows[j]) == k;
      assert ks[j] == k;
    }
  }

  lemma {:induction false} SeriesFirstInPrefix(rows: seq<Content>, i: nat, n: nat)
    requires i < n <= |rows| && IsSeries(rows[i])
    requires forall j :: 0 <= j < i ==> MapKey(rows[j]) != MapKey(rows[i])
    requires forall j :: 0 <= j < |rows| && !IsSeries(rows[j]) ==> rows[j].id != MapKey(rows[i])
    ensures Get(Fold(rows[..n]), MapKey(rows[i])) == Some(rows[i])
    decreases n
  {
    var k := MapKey(rows[i]);
    FoldPrefix(rows, n);
    var m := Fold(rows[..n - 1]);
    var c := rows[n - 1];
    assert NoDuplicates(Keys(m));
    if n == i + 1 {
      KeyInFold(rows, i, k);
      GetAfterPut(m, k, c, k);
    } else {
      SeriesFirstInPrefix(rows, i, n - 1);
      if IsSeries(c) {
        if SeriesKey(c) !in Keys(m) {
          GetAfterPut(m, SeriesKey(c), c, k);
        }
      } else {
        GetAfterPut(m, c.id, c, k);
      }
    }
  }

  lemma GetInValues(m: seq<Entry<Content>>, k: string, v: Content)
    requires Get(m, k) == Some(v)
    ensures v in Values(m)
  {
    var i :| 0 <= i < |m| && m[i] == Entry(k, v);
    assert Values(m)[i] == v;
  }

  /** The first episode seen for a series key is the one kept, provided no
      non-series row has that key as its `id`. */
  lemma SeriesKeepsFirst(rows: seq<Content>, i: nat)
    requires i < |rows| && IsSeries(rows[i])
    requires forall j :: 0 <= j < i ==> MapKey(rows[j]) != MapKey(rows[i])
    requires forall j :: 0 <= j < |rows| && !IsSeries(rows[j]) ==> rows[j].id != MapKey(rows[i])
    ensures rows[i] in DedupSeries(rows)
  {
    SeriesFirstInPrefix(rows, i, |rows|);
    assert rows[..|rows|] == rows;
    GetInValues(Fold(rows), MapKey(rows[i]), rows[i]);
  }

  lemma {:induction false} MovieLastInPrefix(rows: seq<Content>, i: nat, n: nat)
    requires i < n <= |rows| && !IsSeries(rows[i])
    requires forall j :: i < j < |rows| && !IsSeries(rows[j]) ==> rows[j].id != rows[i].id
    ensures Get(Fold(rows[..n]), rows[i].id) == Some(rows[i])
    decreases n
  {
    var k := rows[i].id;
    FoldPrefix(rows, n);
    var m := Fold(rows[..n - 1]);
    var c := rows[n - 1];
    assert NoDuplicates(Keys(m));
    if n == i + 1 {
      GetAfterPut(m, k, c, k);
    } else {
      MovieLastInPrefix(rows, i, n - 1);
      if IsSeries(c) {
        if SeriesKey(c) !in Keys(m) {
          GetAfterPut(m, SeriesKey(c), c, k);
        }
      } else {
        GetAfterPut(m, c.id, c, k);
      }
    }
  }

  /** A non-series row survives when no later non-series row has its `id`:
      `Map.set` on a known key replaces the value, so the last one wins. */
  lemma MovieKeepsLast(rows: seq<Content>, i: nat)
    requires i < |rows| && !IsSeries(rows[i])
    requires forall j :: i < j < |rows| && !IsSeries(rows[j]) ==> rows[j].id != rows[i].id
    ensures rows[i] in DedupSeries(rows)
  {
    MovieLastInPrefix(rows, i, |rows|);
    assert rows[..|rows|] == rows;
    GetInValues(Fold(rows), rows[i].id, rows[i]);
  }

  /** A later episode of a series already represented is dropped, unless it
      is the very same row. */
  lemma LaterEpisodeDropped(rows: seq<Content>, i: nat, j: nat)
    requires i < j < |rows| && IsSeries(rows[i]) && IsSeries(rows[j])
    requires SeriesKey(rows[i]) == SeriesKey(rows[j]) && rows[i] != rows[j]
    requires forall h :: 0 <= h < i ==> MapKey(rows[h]) != MapKey(rows[i])
    requires forall h :: 0 <= h < |rows| && !IsSeries(rows[h]) ==> rows[h].id != MapKey(rows[i])
    ensures rows[j] !in DedupSeries(rows)
  {
    SeriesKeepsFirst(rows, i);
    OnePerKey(DedupSeries(rows), rows[i], rows[j]);
  }

  /** Rows of a list whose keys are distinct are told apart by their key. */
  lemma OnePerKey(r: seq<Content>, x: Content, y: Content)
    requires NoDuplicates(MapKeys(r))
    ensures x in r && y in r && MapKey(x) == MapKey(y) ==> x == y
  {
    if x in r && y in r && MapKey(x) == MapKey(y) {
      var a :| 0 <= a < |r| && r[a] == x;
      var b :| 0 <= b < |r| && r[b] == y;
      assert MapKeys(r)[a] == MapKeys(r)[b];
      assert a == b;
    }
  }

  // ---------------------------------------------------------------------
  // The Set variant

  /** Row `i` survives the new-releases loop: it is not a series episode, or
      no earlier series episode has its series key. */
  predicate FirstOfSeries(rows: seq<Content>, i: int)
    requires 0 <= i < |rows|
  {
    !IsSeries(rows[i])
    || forall j :: 0 <= j < i && IsSeries(rows[j]) ==> SeriesKey(rows[j]) != SeriesKey(rows[i])
  }

  /** The rows that survive, in input order. */
  function KeepFirstSeries(rows: seq<Content>): seq<Content> {
    if |rows| == 0 then []
    else
      KeepFirstSeries(rows[..|rows| - 1])
      + (if FirstOfSeries(rows, |rows| - 1) then [rows[|rows| - 1]] else [])
  }

  /** The series keys of the series episodes among `rows`. */
  function SeenSeries(rows: seq<Content>): set<string> {
    set j | 0 <= j < |rows| && IsSeries(rows[j]) :: SeriesKey(rows[j])
  }

  /** The new-releases loop: a `Set` of series keys already shown; a series
      episode is pushed only when its key is new, anything else always. */
  method DedupReleases(rows: seq<Content>) returns (unique: seq<Content>)
    ensures unique == KeepFirstSeries(rows)
  {
    unique := [];
    var seen: set<string> := {};
    for i := 0 to |rows|
      invariant unique == KeepFirstSeries(rows[..i])
      invariant seen == SeenSeries(rows[..i])
    {
      var c := rows[i];
      assert rows[..i + 1][..i] == rows[..i];
      assert FirstOfSeries(rows[..i + 1], i) <==> !IsSeries(c) || SeriesKey(c) !in seen by {
        if IsSeries(c) && SeriesKey(c) in seen {
          var j :| 0 <= j < i && IsSeries(rows[..i][j]) && SeriesKey(rows[..i][j]) == SeriesKey(c);
          assert rows[..i + 1][j] == rows[..i][j];
        }
      }
      if IsSeries(c) {
        var key := SeriesKey(c);
        if key !in seen {
          seen := seen + {key};
          unique := unique + [c];
        }
      } else {
        unique := unique + [c];
      }
      assert SeenSeries(rows[..i + 1]) == SeenSeries(rows[..i]) + (if IsSeries(c) then {SeriesKey(c)} else {}) by {
        assert forall j :: 0 <= j < i ==> rows[..i + 1][j] == rows[..i][j];
      }
    }
    assert rows[..|rows|] == rows;
  }

  /** `a` is `b` with some elements left out, order kept. */
  ghost predicate IsSubsequence<T>(a: seq<T>, b: seq<T>)
    decreases |b|
  {
    |a| == 0
    || (|b| > 0
        && ((a[|a| - 1] == b[|b| - 1] && IsSubsequence(a[..|a| - 1], b[..|b| - 1]))
            || IsSubsequence(a, b[..|b| - 1])))
  }

  /** New releases keep the store's order: the output is a subsequence of
      the input. */
  lemma {:induction false} ReleasesAreSubsequence(rows: seq<Content>)
    ensures IsSubsequence(KeepFirstSeries(rows), rows)
  {
    if |rows| > 0 {
      var prefix := rows[..|rows| - 1];
      ReleasesAreSubsequence(prefix);
      var r := KeepFirstSeries(rows);
      if FirstOfSeries(rows, |rows| - 1) {
        assert r[..|r| - 1] == KeepFirstSeries(prefix);
        assert r[|r| - 1] == rows[|rows| - 1];
      } else {
        assert r == KeepFirstSeries(prefix);
      }
    }
  }

  function NonSeries(rows: seq<Content>): seq<Content> {
    Filter((c: Content) => !IsSeries(c), rows)
  }

  /** Every non-series row passes: the new-releases loop never compares
      movies with each other. */
  lemma {:induction false} ReleasesKeepAllMovies(rows: seq<Content>)
    ensures NonSeries(KeepFirstSeries(rows)) == NonSeries(rows)
  {
    if |rows| > 0 {
      var prefix := rows[..|rows| - 1];
      var c := rows[|rows| - 1];
      ReleasesKeepAllMovies(prefix);
      var tail := if FirstOfSeries(rows, |rows| - 1) then [c] else [];
      FilterAppend((c: Content) => !IsSeries(c), KeepFirstSeries(prefix), tail);
    }
  }

  lemma {:induction false} FilterAppend<T>(p: T -> bool, a: seq<T>, b: seq<T>)
    requires |b| <= 1
    ensures Filter(p, a + b) == Filter(p, a) + Filter(p, b)
  {
    if |b| == 1 {
      assert (a + b)[..|a + b| - 1] == a;
      assert b[..0] == [];
    } else {
      assert a + b == a;
    }
  }

  /** Every output row is an input row. */
  lemma {:induction false} ReleasesFromInput(rows: seq<Content>)
    ensures forall x :: x in KeepFirstSeries(rows) ==> x in rows
  {
    if |rows| > 0 {
      var prefix := rows[..|rows| - 1];
      ReleasesFromInput(prefix);
      assert forall x :: x in prefix ==> x in rows;
    }
  }

  /** No two series episodes of `r` share a series key. */
  predicate OneEpisodePerSeries(r: seq<Content>) {
    forall a, b :: 0 <= a < b < |r| && IsSeries(r[a]) && IsSeries(r[b]) ==> SeriesKey(r[a]) != SeriesKey(r[b])
  }

  /** In the new-releases output, no two series episodes share a series key. */
  lemma {:induction false} ReleasesOnePerSeries(rows: seq<Content>)
    ensures OneEpisodePerSeries(KeepFirstSeries(rows))
  {
    if |rows| > 0 {
      var n := |rows|;
      var prefix := rows[..n - 1];
      ReleasesOnePerSeries(prefix);
      ReleasesFromInput(prefix);
      var r := KeepFirstSeries(rows);
      var rp := KeepFirstSeries(prefix);
      forall a, b | 0 <= a < b < |r| && IsSeries(r[a]) && IsSeries(r[b])
        ensures SeriesKey(r[a]) != SeriesKey(r[b])
      {
        assert r == rp + (if FirstOfSeries(rows, n - 1) then [rows[n - 1]] else []);
        if b < |rp| {
          assert r[a] == rp[a] && r[b] == rp[b];
          assert SeriesKey(rp[a]) != SeriesKey(rp[b]);
        } else {
          assert FirstOfSeries(rows, n - 1);
          assert r[b] == rows[n - 1];
          assert r[a] == rp[a];
          assert rp[a] in prefix;
          var j :| 0 <= j < n - 1 && prefix[j] == rp[a];
          assert rows[j] == r[a];
          assert SeriesKey(rows[j]) != SeriesKey(rows[n - 1]);
        }
      }
    }
  }

  /** Neither a movie id repeats nor does one equal a series key. */
  predicate IdsApart(rows: seq<Content>) {
    (forall i, j :: 0 <= i < j < |rows| && !IsSeries(rows[i]) && !IsSeries(rows[j]) ==> rows[i].id != rows[j].id)
    && (forall i, j :: 0 <= i < |rows| && 0 <= j < |rows| && !IsSeries(rows[i]) && IsSeries(rows[j]) ==> rows[i].id != SeriesKey(rows[j]))
  }

  /** When no movie id collides with another movie's or with a series key,
      the two variants agree. */
  lemma VariantsAgree(rows: seq<Content>)
    requires IdsApart(rows)
    ensures DedupSeries(rows) == KeepFirstSeries(rows)
  {
    VariantsAgreeOnPrefix(rows, |rows|);
    assert rows[..|rows|] == rows;
  }

  lemma {:induction false} VariantsAgreeOnPrefix(rows: seq<Content>, n: nat)
    requires n <= |rows| && IdsApart(rows)
    ensures Values(Fold(rows[..n])) == KeepFirstSeries(rows[..n])
  {
    if n > 0 {
      VariantsAgreeOnPrefix(rows, n - 1);
      FoldPrefix(rows, n);
      KeepFirstPrefix(rows, n);
      var m := Fold(rows[..n - 1]);
      var c := rows[n - 1];
      KeyInFold(rows, n - 1, MapKey(c));
      KeySeenIffNotFirst(rows, n);
      if MapKey(c) in Keys(m) {
        assert Step(m, c) == m;
      } else {
        assert Step(m, c) == m + [Entry(MapKey(c), c)];
        assert Values(m + [Entry(MapKey(c), c)]) == Values(m) + [c];
      }
    }
  }

  lemma KeepFirstPrefix(rows: seq<Content>, n: nat)
    requires 0 < n <= |rows|
    ensures KeepFirstSeries(rows[..n])
      == KeepFirstSeries(rows[..n - 1]) + (if FirstOfSeries(rows[..n], n - 1) then [rows[n - 1]] else [])
  {
    assert rows[..n][..n - 1] == rows[..n - 1];
  }

  lemma KeySeenIffNotFirst(rows: seq<Content>, n: nat)
    requires 0 < n <= |rows| && IdsApart(rows)
    ensures (exists j :: 0 <= j < n - 1 && MapKey(rows[j]) == MapKey(rows[n - 1]))
      <==> !FirstOfSeries(rows[..n], n - 1)
  {
    var c := rows[n - 1];
    if exists j :: 0 <= j < n - 1 && MapKey(rows[j]) == MapKey(c) {
      var j :| 0 <= j < n - 1 && MapKey(rows[j]) == MapKey(c);
      assert IsSeries(rows[j]) && IsSeries(c);
      assert rows[..n][j] == rows[j];
    }
    if !FirstOfSeries(rows[..n], n - 1) {
      var j :| 0 <= j < n - 1 && IsSeries(rows[..n][j]) && SeriesKey(rows[..n][j]) == SeriesKey(c);
      assert rows[..n][j] == rows[j];
      assert MapKey(rows[j]) == MapKey(c);
    }
  }

  lemma SeenSeriesAppend(a: seq<Content>, c: Content)
    ensures SeenSeries(a + [c]) == SeenSeries(a) + (if IsSeries(c) then {SeriesKey(c)} else {})
  {
    var ac := a + [c];
    assert forall j :: 0 <= j < |a| ==> ac[j] == a[j];
    assert ac[|a|] == c;
  }

  /** Every series of the input is still represented in the new-releases
      output. */
  lemma {:induction false} ReleasesCoverEverySeries(rows: seq<Content>)
    ensures SeenSeries(KeepFirstSeries(rows)) == SeenSeries(rows)
  {
    if |rows| > 0 {
      var n := |rows|;
      var prefix := rows[..n - 1];
      var c := rows[n - 1];
      ReleasesCoverEverySeries(prefix);
      assert rows == prefix + [c];
      SeenSeriesAppend(prefix, c);
      if FirstOfSeries(rows, n - 1) {
        SeenSeriesAppend(KeepFirstSeries(prefix), c);
      } else {
        var j :| 0 <= j < n - 1 && IsSeries(rows[j]) && SeriesKey(rows[j]) == SeriesKey(c);
        assert prefix[j] == rows[j];
        assert SeriesKey(c) in SeenSeries(prefix);
        assert KeepFirstSeries(rows) == KeepFirstSeries(prefix);
      }
    }
  }
}

=== FILE: formatting.dfy ===
/** The two duration labels of the home screen: the remaining time on a
    "continue watching" card (components/home/ContinueWatching.tsx) and a
    movie's runtime on the hero banner (components/home/HeroBanner.tsx).
    Each label is read back by a small parser, so that its meaning can be
    stated as a round trip. */
module Formatting {
  import opened Base
  import opened Text
  import opened Db

  /** JavaScript's `a % b` for a positive divisor: the remainder takes the
      sign of the dividend (Dafny's `%` never goes negative). */
  function JsRem(a: int, b: int): (r: int)
    requires b > 0
    ensures a >= 0 ==> 0 <= r < b
    ensures a < 0 ==> -b < r <= 0
    ensures a >= 0 ==> r == a % b
  {
    if a >= 0 then a % b else -((-a) % b)
  }

  // ---------------------------------------------------------------------
  // Remaining time on a card

  /** `formatTime(seconds)`: whole hours, then the whole minutes left over;
      the hour part only when there is at least one hour. A non-negative
      number of seconds reads back as `(h, m)` with `m < 60` and
      `3600h + 60m <= seconds < 3600h + 60m + 60`, that is, rounded down to
      the minute. A negative number never reads back as time left: its
      label has a minus sign, except for a whole number of hours, which
      shows "0m restantes". */
  function FormatTime(seconds: int): (text: string)
    ensures seconds >= 0 ==> ReadRemaining(text).Some?
    ensures seconds >= 0 ==> var (h, m) := ReadRemaining(text).value;
      m < 60 && 3600 * h + 60 * m <= seconds < 3600 * h + 60 * m + 60
    ensures seconds < 0 ==> ReadRemaining(text) == if seconds % 3600 == 0 then Some((0, 0)) else None
  {
    var hours := seconds / 3600;
    var minutes := JsRem(seconds, 3600) / 60;
    if hours > 0 then
      ReadHoursAndMinutes(hours, minutes);
      IntToString(hours) + ("h " + (IntToString(minutes) + "m restantes"))
    else
      ReadMinutesLabel(minutes);
      IntToString(minutes) + "m restantes"
  }

  /** Reads a remaining-time label back into (hours, minutes). */
  function ReadRemaining(text: string): (r: Option<(nat, nat)>)
    ensures r.Some? ==> EndsWith(text, "m restantes")
  {
    match ParseNat(text)
    case None => None
    case Some((a, rest)) =>
      if rest == "m restantes" then Some((0, a))
      else if StartsWith(rest, "h ") then
        match ParseNat(rest[2..])
        case None => None
        case Some((b, rest2)) =>
          if rest2 == "m restantes" then
            assert text[|text| - |rest2|..] == rest2;
            Some((a, b))
          else None
      else None
  }

  lemma ReadHoursAndMinutes(h: nat, m: nat)
    requires h > 0
    ensures ReadRemaining(IntToString(h) + ("h " + (IntToString(m) + "m restantes"))) == Some((h, m))
  {
    assert IntToString(h) == NatToString(h) && IntToString(m) == NatToString(m);
    var rest := "h " + (NatToString(m) + "m restantes");
    ParseNatRoundTrip(h, rest);
    assert rest[2..] == NatToString(m) + "m restantes";
    ParseNatRoundTrip(m, "m restantes");
  }

  /** A minutes-only label reads back as its minutes when they are not
      negative; a minus sign makes it unreadable. */
  lemma ReadMinutesLabel(m: int)
    ensures ReadRemaining(IntToString(m) + "m restantes") == if m >= 0 then Some((0, m)) else None
  {
    if m >= 0 {
      ParseNatRoundTrip(m, "m restantes");
    } else {
      assert !IsDigit((IntToString(m) + "m restantes")[0]);
    }
  }

  lemma FormatTimeUnderAMinute()
    ensures FormatTime(59) == "0m restantes"
  {
    assert JsRem(59, 3600) / 60 == 0;
    assert IntToString(0) == "0";
  }

  lemma FormatTimeTenMinutes()
    ensures FormatTime(600) == "10m restantes"
  {
    assert JsRem(600, 3600) / 60 == 10;
    assert IntToString(10) == "10" by {
      assert NatToString(10) == NatToString(1) + "0";
    }
  }

  lemma FormatTimeHoursExample()
    ensures FormatTime(5430) == "1h 30m restantes"
  {
    assert JsRem(5430, 3600) / 60 == 30;
    assert NatToString(30) == "30";
  }

  // ---------------------------------------------------------------------
  // The card's remaining seconds, as written and as intended

  /** A JavaScript number as far as the card's arithmetic needs it. */
  datatype JsNumber = Num(v: int) | NaN

  function Minus(a: JsNumber, b: JsNumber): (r: JsNumber)
    ensures r.NaN? <==> a.NaN? || b.NaN?
  {
    if a.NaN? || b.NaN? then NaN else Num(a.v - b.v)
  }

  /** `formatTime` on any number: on NaN every part is NaN, no hour part is
      shown, and the minutes render as "NaN". */
  function FormatTimeJs(x: JsNumber): (text: string)
    ensures x.Num? ==> text == FormatTime(x.v)
    ensures x.NaN? ==> ReadRemaining(text).None?
  {
    match x
    case Num(s) => FormatTime(s)
    case NaN => "NaNm restantes"
  }

  /** `item.current_time`: the row's column is `current_t`, so the read
      yields `undefined`, which subtraction turns into NaN. */
  function CurrentTimeAsRead(h: WatchHistory): JsNumber {
    NaN
  }

  /** `item.duration - item.current_time`, as the card computes it. */
  function RemainingAsWritten(h: WatchHistory): JsNumber {
    Minus(Num(h.duration), CurrentTimeAsRead(h))
  }

  function CardLabelAsWritten(h: WatchHistory): string {
    FormatTimeJs(RemainingAsWritten(h))
  }

  /** Whatever the row holds, the card as written shows "NaNm restantes",
      which no remaining time reads back from. */
  lemma CardLabelAsWrittenIsNaN(h: WatchHistory)
    ensures CardLabelAsWritten(h) == "NaNm restantes"
    ensures ReadRemaining(CardLabelAsWritten(h)).None?
  {
  }

  /** A row with 10 minutes left: the card as written does not say so. */
  lemma CardLabelCounterexample()
    ensures var h := WatchHistory("h", "u", "c", 0, 600, 0, false, 0, 0, 1);
      CardLabelAsWritten(h) == "NaNm restantes" && CardLabel(h) == "10m restantes"
  {
  }

  /** The remaining seconds read from the field the row has. */
  function SecondsLeft(h: WatchHistory): (r: int)
    ensures r + h.currentT == h.duration
  {
    h.duration - h.currentT
  }

  function CardLabel(h: WatchHistory): string {
    FormatTime(SecondsLeft(h))
  }

  /** The corrected card reads back as the time left to the minute. */
  lemma CardLabelMeaning(h: WatchHistory)
    requires h.currentT <= h.duration
    ensures ReadRemaining(CardLabel(h)).Some?
    ensures var (hours, m) := ReadRemaining(CardLabel(h)).value;
      3600 * hours + 60 * m <= h.duration - h.currentT < 3600 * hours + 60 * m + 60
  {
  }

  /** The card strip: nothing when there are no items, otherwise one label
      per item in order. Each label is the corrected one, computed from
      `current_t` (see `CardLabelAsWrittenIsNaN` for what the code as
      written shows). */
  function CardLabels(items: seq<WatchHistory>): (r: Option<seq<string>>)
    ensures r.None? <==> |items| == 0
    ensures r.Some? ==> |r.value| == |items| && forall i :: 0 <= i < |items| ==> r.value[i] == CardLabel(items[i])
  {
    if |items| == 0 then None
    else Some(seq(|items|, i requires 0 <= i < |items| => CardLabel(items[i])))
  }

  // ---------------------------------------------------------------------
  // Runtime on the hero banner

  /** `formatDuration(minutes)`: "" for null or 0, else whole hours and the
      minutes left over. */
  function FormatDuration(minutes: Option<int>): (text: string)
    ensures minutes.None? || minutes.value == 0 ==> text == ""
    ensures minutes.Some? && minutes.value != 0 ==> EndsWith(text, "min")
  {
    match minutes
    case None => ""
    case Some(m) =>
      if m == 0 then ""
      else
        var text := IntToString(m / 60) + ("h " + (IntToString(JsRem(m, 60)) + "min"));
        assert text[|text| - 3..] == "min";
        text
  }

  /** Reads a runtime label back into minutes. */
  function ReadDuration(text: string): (r: Option<nat>)
    ensures r.Some? ==> EndsWith(text, "min")
  {
    match ParseNat(text)
    case None => None
    case Some((h, rest)) =>
      if StartsWith(rest, "h ") then
        var r := ReadMinutes(h, rest[2..]);
        assert r.Some? ==> text[|text| - 3..] == rest[2..][|rest[2..]| - 3..];
        r
      else None
  }

  /** The part after "Nh ": "Mmin" with M below 60 gives 60N + M. */
  function ReadMinutes(h: nat, text: string): (r: Option<nat>)
    ensures r.Some? ==> EndsWith(text, "min")
  {
    match ParseNat(text)
    case None => None
    case Some((m, rest)) =>
      if rest == "min" && m < 60 then
        assert text[|text| - 3..] == rest;
        Some(h * 60 + m)
      else None
  }

  /** A positive runtime reads back exactly: `60h + m` with `m < 60`. */
  lemma DurationRoundTrip(m: int)
    requires m > 0
    ensures ReadDuration(FormatDuration(Some(m))) == Some(m)
  {
    var h := m / 60;
    var mins := m % 60;
    PositiveDurationText(m);
    ReadRuntime(h, mins);
    assert h * 60 + mins == m;
  }

  lemma PositiveDurationText(m: int)
    requires m > 0
    ensures FormatDuration(Some(m)) == NatToString(m / 60) + ("h " + (NatToString(m % 60) + "min"))
  {
    assert JsRem(m, 60) == m % 60;
    assert IntToString(m / 60) == NatToString(m / 60);
    assert IntToString(m % 60) == NatToString(m % 60);
  }

  lemma ReadRuntime(h: nat, mins: nat)
    requires mins < 60
    ensures ReadDuration(NatToString(h) + ("h " + (NatToString(mins) + "min"))) == Some(h * 60 + mins)
  {
    var rest := "h " + (NatToString(mins) + "min");
    ParseNatRoundTrip(h, rest);
    assert rest[2..] == NatToString(mins) + "min";
    ParseNatRoundTrip(mins, "min");
    ReadDurationParts(NatToString(h) + rest, h, rest, mins);
  }

  lemma ReadDurationParts(text: string, h: nat, rest: string, mins: nat)
    requires ParseNat(text) == Some((h, rest)) && StartsWith(rest, "h ")
    requires ParseNat(rest[2..]) == Some((mins, "min")) && mins < 60
    ensures ReadDuration(text) == Some(h * 60 + mins)
  {
  }

  /** The runtime slot of the banner, `{duracao && tipo === 'FILME' && …}`:
      nothing for a null runtime or a series; the label for a movie with a
      runtime. A runtime of 0 short-circuits to the number 0, which the
      page renders as the text "0". */
  function RuntimeSlot(c: Content): (r: Option<string>)
    ensures r.Some? <==> c.duracao.Some? && (c.duracao.value == 0 || c.tipo == Filme)
    ensures c.duracao == Some(0) ==> r == Some("0")
  {
    match c.duracao
    case None => None
    case Some(m) =>
      if m == 0 then Some("0")
      else if c.tipo == Filme then Some(FormatDuration(c.duracao))
      else None
  }

  /** A movie's positive runtime is shown, and reads back as that runtime. */
  lemma RuntimeShown(c: Content)
    requires c.tipo == Filme && c.duracao.Some? && c.duracao.value > 0
    ensures RuntimeSlot(c).Some? && ReadDuration(RuntimeSlot(c).value) == c.duracao
  {
    DurationRoundTrip(c.duracao.value);
  }

  /** A negative runtime keeps JavaScript's signs: the hours round down
      and the remainder is negative. */
  lemma NegativeDurationExample()
    ensures FormatDuration(Some(-30)) == "-1h -30min"
  {
    assert -30 / 60 == -1;
    assert JsRem(-30, 60) == -30;
    assert IntToString(-1) == "-1";
    assert NatToString(30) == "30";
    assert IntToString(-30) == "-30";
  }
}

=== FILE: genres.dfy ===
/** Genre listing (GET /api/contents/genres) and the grouped discover page
    (GET /api/contents/discover/grouped).

    Both walk every row and, inside, every entry of its `generos` array.
    The nested walk is flattened into one sequence of (genre, row) tags
    in visiting order, which is the order the handlers see them in. */
module Genres {
  import opened Base
  import opened Text
  import opened Sorting
  import opened OrderedMap
  import opened Db
  import opened Dedup
  import opened Catalog

  /** The row's `generos`; null or a non-array contributes nothing. */
  function GenresOf(c: Content): seq<string> {
    c.generos.GetOr([])
  }

  /** `g` is one of the row's genres and counts as one (it is truthy). */
  predicate HasGenre(c: Content, g: string) {
    g != "" && g in GenresOf(c)
  }

  /** One visit of the inner loop: genre `genre` of row `item`. */
  datatype Tag = Tag(genre: string, item: Content)

  function RowTags(c: Content): (ts: seq<Tag>)
    ensures |ts| == |GenresOf(c)|
    ensures forall k :: 0 <= k < |ts| ==> ts[k] == Tag(GenresOf(c)[k], c)
  {
    seq(|GenresOf(c)|, k requires 0 <= k < |GenresOf(c)| => Tag(GenresOf(c)[k], c))
  }

  /** All visits, row after row. */
  function Tags(rows: seq<Content>): seq<Tag> {
    if |rows| == 0 then [] else Tags(rows[..|rows| - 1]) + RowTags(rows[|rows| - 1])
  }

  /** The genres that pass `if (genero)`, in visiting order, repeats kept. */
  function NonEmptyGenres(ts: seq<Tag>): (gs: seq<string>)
    ensures forall g :: g in gs <==> g != "" && exists k :: 0 <= k < |ts| && ts[k].genre == g
  {
    if |ts| == 0 then []
    else
      var rest := NonEmptyGenres(ts[..|ts| - 1]);
      var t := ts[|ts| - 1];
      assert forall k :: 0 <= k < |ts| - 1 ==> ts[..|ts| - 1][k] == ts[k];
      if t.genre != "" then rest + [t.genre] else rest
  }

  /** A non-empty genre is visited exactly when some row has it. */
  lemma GenreVisited(rows: seq<Content>, g: string)
    requires g != ""
    ensures (exists k :: 0 <= k < |Tags(rows)| && Tags(rows)[k].genre == g)
      <==> exists i :: 0 <= i < |rows| && HasGenre(rows[i], g)
  {
    VisitedHasGenre(rows, g);
    HasGenreVisited(rows, g);
  }

  lemma {:induction false} VisitedHasGenre(rows: seq<Content>, g: string)
    requires g != ""
    ensures (exists k :: 0 <= k < |Tags(rows)| && Tags(rows)[k].genre == g)
      ==> exists i :: 0 <= i < |rows| && HasGenre(rows[i], g)
  {
    if |rows| > 0 {
      var prefix := rows[..|rows| - 1];
      var c := rows[|rows| - 1];
      var tp := Tags(prefix);
      var ts := Tags(rows);
      assert ts == tp + RowTags(c);
      if exists k :: 0 <= k < |ts| && ts[k].genre == g {
        var k :| 0 <= k < |ts| && ts[k].genre == g;
        if k < |tp| {
          assert tp[k].genre == g;
          VisitedHasGenre(prefix, g);
          var i :| 0 <= i < |prefix| && HasGenre(prefix[i], g);
          assert rows[i] == prefix[i];
        } else {
          assert RowTags(c)[k - |tp|].genre == g;
          assert HasGenre(rows[|rows| - 1], g);
        }
      }
    }
  }

  lemma HasGenreVisited(rows: seq<Content>, g: string)
    requires g != ""
    ensures (exists i :: 0 <= i < |rows| && HasGenre(rows[i], g))
      ==> exists k :: 0 <= k < |Tags(rows)| && Tags(rows)[k].genre == g
  {
    if exists i :: 0 <= i < |rows| && HasGenre(rows[i], g) {
      var i :| 0 <= i < |rows| && HasGenre(rows[i], g);
      var k := VisitOf(rows, g, i);
    }
  }

  /** A position in the visits where row `i` is visited under `g`. */
  lemma {:induction false} VisitOf(rows: seq<Content>, g: string, i: nat) returns (k: nat)
    requires i < |rows| && HasGenre(rows[i], g)
    ensures k < |Tags(rows)| && Tags(rows)[k].genre == g
  {
    var prefix := rows[..|rows| - 1];
    var c := rows[|rows| - 1];
    var tp := Tags(prefix);
    assert Tags(rows) == tp + RowTags(c);
    if i < |rows| - 1 {
      assert prefix[i] == rows[i];
      k := VisitOf(prefix, g, i);
      assert Tags(rows)[k] == tp[k];
    } else {
      var j :| 0 <= j < |GenresOf(c)| && GenresOf(c)[j] == g;
      k := |tp| + j;
      assert Tags(rows)[k] == RowTags(c)[j];
    }
  }

  // ---------------------------------------------------------------------
  // GET /api/contents/genres

  /** `Array.from(generosSet).sort()` after adding every truthy genre of
      every row: each genre some row has, once, in ascending order. */
  function GenreList(rows: seq<Content>): (r: seq<string>)
    ensures StrictlySortedLex(r)
    ensures forall g :: g in r <==> exists i :: 0 <= i < |rows| && HasGenre(rows[i], g)
  {
    var d := Distinct(NonEmptyGenres(Tags(rows)));
    var r := SortLex(d);
    assert forall g :: g in r <==> g in d by {
      forall g ensures g in r <==> g in d {
        assert g in r <==> g in multiset(r);
        assert g in d <==> g in multiset(d);
      }
    }
    forall g ensures g in r <==> exists i :: 0 <= i < |rows| && HasGenre(rows[i], g) {
      assert g in r <==> g in NonEmptyGenres(Tags(rows));
      if g != "" {
        GenreVisited(rows, g);
      }
    }
    r
  }

  function GenresRoute(table: seq<Content>, tipo: Option<string>, fails: bool): (r: Response<seq<string>>)
    ensures r.Error? <==> fails
    ensures r.Error? ==> r.status == ServerError
    ensures r.Ok? ==> StrictlySortedLex(r.body)
    ensures r.Ok? ==> forall g :: g in r.body <==>
      exists i :: 0 <= i < |table| && TipoMatches(tipo, table[i]) && HasGenre(table[i], g)
  {
    if fails then Error(ServerError)
    else
      var rows := MatchingTipo(table, tipo);
      FilteredGenres(table, tipo);
      Ok(GenreList(rows))
  }

  lemma FilteredGenres(table: seq<Content>, tipo: Option<string>)
    ensures var rows := MatchingTipo(table, tipo);
      forall g :: g in GenreList(rows) <==>
        exists i :: 0 <= i < |table| && TipoMatches(tipo, table[i]) && HasGenre(table[i], g)
  {
    var rows := MatchingTipo(table, tipo);
    forall g ensures g in GenreList(rows) <==>
        exists i :: 0 <= i < |table| && TipoMatches(tipo, table[i]) && HasGenre(table[i], g)
    {
      if exists i :: 0 <= i < |rows| && HasGenre(rows[i], g) {
        var i :| 0 <= i < |rows| && HasGenre(rows[i], g);
        var j :| 0 <= j < |table| && table[j] == rows[i];
      }
      if exists i :: 0 <= i < |table| && TipoMatches(tipo, table[i]) && HasGenre(table[i], g) {
        var i :| 0 <= i < |table| && TipoMatches(tipo, table[i]) && HasGenre(table[i], g);
        assert table[i] in rows;
        var j :| 0 <= j < |rows| && rows[j] == table[i];
      }
    }
  }

  // ---------------------------------------------------------------------
  // Grouping with a per-genre cap

  /** Every row visited under genre `g`, in visiting order. */
  function Tagged(ts: seq<Tag>, g: string): seq<Content> {
    if |ts| == 0 then []
    else Tagged(ts[..|ts| - 1], g) + (if ts[|ts| - 1].genre == g then [ts[|ts| - 1].item] else [])
  }

  /** One visit of the inner loop of the grouped handler: create the genre's
      list if missing, then push while the list is shorter than `cap`. */
  function AddTag(m: seq<Entry<seq<Content>>>, t: Tag, cap: int): seq<Entry<seq<Content>>> {
    if t.genre == "" then m
    else
      var cur := Get(m, t.genre).GetOr([]);
      Put(m, t.genre, if |cur| < cap then cur + [t.item] else cur)
  }

  function Group(ts: seq<Tag>, cap: int): seq<Entry<seq<Content>>> {
    if |ts| == 0 then [] else AddTag(Group(ts[..|ts| - 1], cap), ts[|ts| - 1], cap)
  }

  lemma TakeSnoc(x: seq<Content>, c: Content, cap: int)
    ensures Take(x + [c], cap) == if |Take(x, cap)| < cap then Take(x, cap) + [c] else Take(x, cap)
  {
    if cap > 0 && |x| < cap {
      assert Take(x, cap) == x;
    } else if cap > 0 {
      assert (x + [c])[..cap] == x[..cap];
    }
  }

  /** The grouping holds exactly the genres visited, in order of first
      visit. */
  lemma {:induction false} GroupKeys(ts: seq<Tag>, cap: int)
    ensures Keys(Group(ts, cap)) == Distinct(NonEmptyGenres(ts))
  {
    if |ts| > 0 {
      var prefix := ts[..|ts| - 1];
      var t := ts[|ts| - 1];
      GroupKeys(prefix, cap);
      var ks := NonEmptyGenres(prefix);
      assert Group(ts, cap) == AddTag(Group(prefix, cap), t, cap);
      if t.genre == "" {
        assert NonEmptyGenres(ts) == ks;
      } else {
        assert NonEmptyGenres(ts) == ks + [t.genre];
        assert (ks + [t.genre])[..|ks|] == ks;
        assert Distinct(ks + [t.genre]) == if t.genre in Distinct(ks) then Distinct(ks) else Distinct(ks) + [t.genre];
      }
    }
  }

  /** Under each genre the grouping keeps the first `cap` rows visited
      under it (none at all for a non-positive cap). */
  lemma {:induction false} GroupMeaning(ts: seq<Tag>, cap: int)
    ensures forall g :: g != "" ==>
      Get(Group(ts, cap), g) == if g in NonEmptyGenres(ts) then Some(Take(Tagged(ts, g), cap)) else None
  {
    if |ts| > 0 {
      var prefix := ts[..|ts| - 1];
      var t := ts[|ts| - 1];
      GroupMeaning(prefix, cap);
      GroupKeys(prefix, cap);
      var m := Group(prefix, cap);
      assert NoDuplicates(Keys(m));
      forall g | g != ""
        ensures Get(Group(ts, cap), g) == if g in NonEmptyGenres(ts) then Some(Take(Tagged(ts, g), cap)) else None
      {
        GroupStep(ts, cap, g);
      }
    }
  }

  lemma GroupStep(ts: seq<Tag>, cap: int, g: string)
    requires g != "" && |ts| > 0
    requires NoDuplicates(Keys(Group(ts[..|ts| - 1], cap)))
    requires Get(Group(ts[..|ts| - 1], cap), g)
      == if g in NonEmptyGenres(ts[..|ts| - 1]) then Some(Take(Tagged(ts[..|ts| - 1], g), cap)) else None
    ensures Get(Group(ts, cap), g) == if g in NonEmptyGenres(ts) then Some(Take(Tagged(ts, g), cap)) else None
  {
    var prefix := ts[..|ts| - 1];
    var t := ts[|ts| - 1];
    var m := Group(prefix, cap);
    var before := Take(Tagged(prefix, g), cap);
    assert Group(ts, cap) == AddTag(m, t, cap);
    assert Tagged(ts, g) == Tagged(prefix, g) + (if t.genre == g then [t.item] else []);
    AddTagGet(m, t, cap, g);
    var after := Get(Group(ts, cap), g);
    if t.genre == "" || t.genre != g {
      assert after == Get(m, g);
      assert Tagged(ts, g) == Tagged(prefix, g);
      assert g in NonEmptyGenres(ts) <==> g in NonEmptyGenres(prefix) by {
        if t.genre != "" {
          assert NonEmptyGenres(ts) == NonEmptyGenres(prefix) + [t.genre];
        } else {
          assert NonEmptyGenres(ts) == NonEmptyGenres(prefix);
        }
      }
    } else {
      assert NonEmptyGenres(ts) == NonEmptyGenres(prefix) + [t.genre];
      assert g in NonEmptyGenres(ts);
      var cur := Get(m, g).GetOr([]);
      assert cur == before by {
        if g !in NonEmptyGenres(prefix) {
          TaggedUnvisited(prefix, g);
        }
      }
      assert after == Some(if |cur| < cap then cur + [t.item] else cur);
      TakeSnoc(Tagged(prefix, g), t.item, cap);
      assert Tagged(ts, g) == Tagged(prefix, g) + [t.item];
    }
  }

  /** What one visit does to the list under `g`. */
  lemma AddTagGet(m: seq<Entry<seq<Content>>>, t: Tag, cap: int, g: string)
    requires NoDuplicates(Keys(m))
    ensures Get(AddTag(m, t, cap), g) ==
      if t.genre == "" || t.genre != g then Get(m, g)
      else
        var cur := Get(m, g).GetOr([]);
        Some(if |cur| < cap then cur + [t.item] else cur)
  {
    if t.genre != "" {
      var cur := Get(m, t.genre).GetOr([]);
      GetAfterPut(m, t.genre, if |cur| < cap then cur + [t.item] else cur, g);
    }
  }

  /** Nothing is listed under a genre never visited. */
  lemma {:induction false} TaggedUnvisited(ts: seq<Tag>, g: string)
    requires g != "" && g !in NonEmptyGenres(ts)
    ensures Tagged(ts, g) == []
  {
    if |ts| > 0 {
      var prefix := ts[..|ts| - 1];
      assert forall k :: 0 <= k < |prefix| ==> prefix[k] == ts[k];
      TaggedUnvisited(prefix, g);
    }
  }

  /** `filteredGenreContents`: for each genre of `top` that has a list, that
      list, in the order of `top`. */
  function SelectGroups(top: seq<string>, m: seq<Entry<seq<Content>>>): seq<Entry<seq<Content>>> {
    if |top| == 0 then []
    else
      var acc := SelectGroups(top[..|top| - 1], m);
      var g := top[|top| - 1];
      match Get(m, g)
      case Some(v) => Put(acc, g, v)
      case None => acc
  }

  /** Each genre of `top` with the list `m` holds for it. */
  function Selected(top: seq<string>, m: seq<Entry<seq<Content>>>): (r: seq<Entry<seq<Content>>>)
    ensures |r| == |top| && Keys(r) == top
    ensures forall i :: 0 <= i < |top| ==> r[i] == Entry(top[i], Get(m, top[i]).GetOr([]))
  {
    var r := seq(|top|, i requires 0 <= i < |top| => Entry(top[i], Get(m, top[i]).GetOr([])));
    assert Keys(r) == top;
    r
  }

  /** When every selected genre has a list, the selection has exactly those
      genres as keys, in order, each with its list. */
  lemma {:induction false} SelectGroupsMeaning(top: seq<string>, m: seq<Entry<seq<Content>>>)
    requires NoDuplicates(top)
    requires forall g :: g in top ==> g in Keys(m)
    ensures SelectGroups(top, m) == Selected(top, m)
  {
    if |top| > 0 {
      var prefix := top[..|top| - 1];
      var g := top[|top| - 1];
      LastNotInPrefix(top);
      assert forall x :: x in prefix ==> x in top;
      SelectGroupsMeaning(prefix, m);
      assert g in Keys(m) by {
        assert g in top;
      }
      assert g !in Keys(SelectGroups(prefix, m)) by {
        assert Keys(Selected(prefix, m)) == prefix;
      }
      SelectGroupsSnoc(top, m);
      SelectedSnoc(top, m);
    }
  }

  lemma SelectedSnoc(top: seq<string>, m: seq<Entry<seq<Content>>>)
    requires |top| > 0
    ensures Selected(top, m)
      == Selected(top[..|top| - 1], m) + [Entry(top[|top| - 1], Get(m, top[|top| - 1]).GetOr([]))]
  {
  }

  lemma SelectGroupsSnoc(top: seq<string>, m: seq<Entry<seq<Content>>>)
    requires |top| > 0 && top[|top| - 1] in Keys(m)
    requires top[|top| - 1] !in Keys(SelectGroups(top[..|top| - 1], m))
    ensures SelectGroups(top, m)
      == SelectGroups(top[..|top| - 1], m) + [Entry(top[|top| - 1], Get(m, top[|top| - 1]).GetOr([]))]
  {
  }

  /** Dropping the last element of a duplicate-free sequence keeps it
      duplicate-free and removes that element. */
  lemma LastNotInPrefix<T>(s: seq<T>)
    requires |s| > 0 && NoDuplicates(s)
    ensures NoDuplicates(s[..|s| - 1]) && s[|s| - 1] !in s[..|s| - 1]
  {
    var prefix := s[..|s| - 1];
    forall i, j | 0 <= i < j < |prefix| ensures prefix[i] != prefix[j] {
      assert prefix[i] == s[i] && prefix[j] == s[j];
    }
  }

  // ---------------------------------------------------------------------
  // GET /api/contents/discover/grouped

  datatype GroupedBody = GroupedBody(genreContents: seq<Entry<seq<Content>>>, genres: seq<string>)

  /** `genreContentsMap[g].length < limit` is false for every length when
      `limit` is NaN, so NaN caps every list at zero. */
  function Cap(limit: Option<int>): int {
    match limit
    case Some(l) => l
    case None => 0
  }

  /** The rows `.eq('tipo', tipo)` lets through, in table order. */
  function MatchingTipo(table: seq<Content>, tipo: Option<string>): seq<Content> {
    Filter((c: Content) => TipoMatches(tipo, c), table)
  }

  lemma RowsOfMatching(table: seq<Content>, tipo: Option<string>, r: seq<Content>)
    requires multiset(r) <= multiset(MatchingTipo(table, tipo))
    ensures forall i :: 0 <= i < |r| ==> r[i] in table && TipoMatches(tipo, r[i])
  {
    var matching := MatchingTipo(table, tipo);
    forall i | 0 <= i < |r| ensures r[i] in table && TipoMatches(tipo, r[i]) {
      assert r[i] in multiset(r);
      assert r[i] in matching;
    }
  }

  /** The candidate rows: the 150 newest matching `tipo`. There are as many
      as match, up to 150, each a matching row, newest first, and no
      matching row left out is newer than a row kept. */
  function GroupedWindow(table: seq<Content>, tipo: Option<string>): (r: seq<Content>)
    ensures |r| == Min(150, |MatchingTipo(table, tipo)|)
    ensures multiset(r) <= multiset(MatchingTipo(table, tipo))
    ensures SortedDesc(r, CreatedAt)
    ensures forall i :: 0 <= i < |r| ==> r[i] in table && TipoMatches(tipo, r[i])
    ensures forall x, y :: x in multiset(MatchingTipo(table, tipo)) - multiset(r) && y in r ==> x.createdAt <= y.createdAt
  {
    var matching := MatchingTipo(table, tipo);
    var sorted := NewestFirst(matching);
    var r := Take(sorted, 150);
    TakeSortedIsTop(sorted, matching, 150, CreatedAt);
    RowsOfMatching(table, tipo, r);
    r
  }

  /** The handler on the candidate rows, after
      `limit = parseInt(limit || '10')` (see `IntParam`). */
  function Grouped(data: seq<Content>, limit: Option<int>, fails: bool): (r: Response<GroupedBody>)
    ensures r.Error? <==> fails
    ensures r.Error? ==> r.status == ServerError
    ensures r.Ok? && |data| == 0 ==> r.body == GroupedBody([], [])
  {
    if fails then Error(ServerError)
    else if |data| == 0 then Ok(GroupedBody([], []))
    else
      var ts := Tags(DedupSeries(data));
      var groups := Group(ts, Cap(limit));
      var sorted := SortLex(Distinct(NonEmptyGenres(ts)));
      Ok(GroupedBody(SelectGroups(Take(sorted, 10), groups), sorted))
  }

  /** `genres` is every genre of the deduplicated rows, once, ascending and
      not truncated; `genreContents` holds exactly the first ten of them,
      in insertion order (JSON serialization of a plain object moves
      integer-like keys to the front, which is not modelled), each with the first `limit` deduplicated rows having
      that genre. */
  lemma GroupedMeaning(data: seq<Content>, limit: Option<int>)
    requires |data| > 0
    ensures var b := Grouped(data, limit, false).body;
      var uniq := DedupSeries(data);
      && StrictlySortedLex(b.genres)
      && (forall g :: g in b.genres <==> exists i :: 0 <= i < |uniq| && HasGenre(uniq[i], g))
      && Keys(b.genreContents) == Take(b.genres, 10)
      && forall i :: 0 <= i < |b.genreContents| ==>
           b.genreContents[i].value == Take(Tagged(Tags(uniq), b.genreContents[i].key), Cap(limit))
  {
    var uniq := DedupSeries(data);
    var ts := Tags(uniq);
    var cap := Cap(limit);
    var groups := Group(ts, cap);
    var sorted := SortLex(Distinct(NonEmptyGenres(ts)));
    var top := Take(sorted, 10);
    assert Grouped(data, limit, false).body == GroupedBody(SelectGroups(top, groups), sorted);
    assert sorted == GenreList(uniq);
    GroupKeys(ts, cap);
    GroupMeaning(ts, cap);
    TopGenres(ts, 10);
    SelectGroupsMeaning(top, groups);
  }

  /** The first `n` genres in ascending order are distinct visited genres. */
  lemma TopGenres(ts: seq<Tag>, n: int)
    ensures var top := Take(SortLex(Distinct(NonEmptyGenres(ts))), n);
      && NoDuplicates(top)
      && forall i :: 0 <= i < |top| ==> top[i] in NonEmptyGenres(ts) && top[i] != ""
  {
    var d := Distinct(NonEmptyGenres(ts));
    var sorted := SortLex(d);
    var top := Take(sorted, n);
    forall i | 0 <= i < |top| ensures top[i] in NonEmptyGenres(ts) && top[i] != "" {
      assert top[i] == sorted[i];
      assert sorted[i] in multiset(d);
    }
    forall i, j | 0 <= i < j < |top| ensures top[i] != top[j] {
      assert LexLt(sorted[i], sorted[j]);
    }
  }

  /** Every row listed under `g` is one of the rows and lists `g`. */
  lemma {:induction false} TaggedHasGenre(rows: seq<Content>, g: string)
    ensures forall x :: x in Tagged(Tags(rows), g) ==> x in rows && g in GenresOf(x)
  {
    if |rows| > 0 {
      var prefix := rows[..|rows| - 1];
      var c := rows[|rows| - 1];
      TaggedHasGenre(prefix, g);
      TaggedAppend(Tags(prefix), RowTags(c), g);
      TaggedRow(c, g);
      assert forall x :: x in prefix ==> x in rows;
    }
  }

  lemma {:induction false} TaggedAppend(a: seq<Tag>, b: seq<Tag>, g: string)
    ensures Tagged(a + b, g) == Tagged(a, g) + Tagged(b, g)
    decreases |b|
  {
    if |b| == 0 {
      assert a + b == a;
    } else {
      var b' := b[..|b| - 1];
      assert (a + b)[..|a + b| - 1] == a + b';
      TaggedAppend(a, b', g);
    }
  }

  /** The visits of one row put it under genre `g` once per occurrence of
      `g` in its list; for a genre listed once, exactly once. */
  lemma {:induction false} TaggedRow(c: Content, g: string)
    ensures forall x :: x in Tagged(RowTags(c), g) ==> x == c && g in GenresOf(c)
    ensures g in GenresOf(c) ==> c in Tagged(RowTags(c), g)
  {
    TaggedOfRow(RowTags(c), c, g);
  }

  lemma {:induction false} TaggedOfRow(ts: seq<Tag>, c: Content, g: string)
    requires forall k :: 0 <= k < |ts| ==> ts[k].item == c
    ensures forall x :: x in Tagged(ts, g) ==> x == c && exists k :: 0 <= k < |ts| && ts[k].genre == g
    ensures (exists k :: 0 <= k < |ts| && ts[k].genre == g) ==> c in Tagged(ts, g)
  {
    if |ts| > 0 {
      var prefix := ts[..|ts| - 1];
      TaggedOfRow(prefix, c, g);
      assert forall k :: 0 <= k < |prefix| ==> prefix[k] == ts[k];
    }
  }

  /** When no row lists a genre twice, the list under `g` is the subsequence
      of the rows having `g`: input order is kept. */
  lemma {:induction false} TaggedIsFilter(rows: seq<Content>, g: string)
    requires g != ""
    requires forall i :: 0 <= i < |rows| ==> NoDuplicates(GenresOf(rows[i]))
    ensures Tagged(Tags(rows), g) == Filter((c: Content) => HasGenre(c, g), rows)
  {
    if |rows| > 0 {
      var prefix := rows[..|rows| - 1];
      var c := rows[|rows| - 1];
      TaggedIsFilter(prefix, g);
      TaggedAppend(Tags(prefix), RowTags(c), g);
      TaggedOnce(RowTags(c), c, g);
      if g in GenresOf(c) {
        var k :| 0 <= k < |GenresOf(c)| && GenresOf(c)[k] == g;
        assert RowTags(c)[k].genre == g;
      }
    }
  }

  lemma {:induction false} TaggedOnce(ts: seq<Tag>, c: Content, g: string)
    requires forall k :: 0 <= k < |ts| ==> ts[k].item == c
    requires forall i, j :: 0 <= i < j < |ts| ==> ts[i].genre != ts[j].genre
    ensures Tagged(ts, g) == if exists k :: 0 <= k < |ts| && ts[k].genre == g then [c] else []
  {
    if |ts| > 0 {
      var prefix := ts[..|ts| - 1];
      assert forall k :: 0 <= k < |prefix| ==> prefix[k] == ts[k];
      TaggedOnce(prefix, c, g);
    }
  }
}

=== FILE: grid.dfy ===
/** The discover grid's paging state (components/discover/InfiniteContentGrid.tsx):
    what a filter change, a fetch request, a fetch reply and reaching the
    end of the list do to the list shown, the page number, the loading flag
    and `hasMore`. React's batching and the asynchrony of `fetch` are
    flattened into a sequence of these steps. */
module Grid {
  import opened Base
  import opened OrderedMap
  import opened Db

  datatype GridState = GridState(contents: seq<Content>, page: int, loading: bool, hasMore: bool)

  /** The state when the grid first mounts. */
  const Initial := GridState([], 1, false, true)

  function Ids(xs: seq<Content>): (ids: seq<string>)
    ensures |ids| == |xs|
    ensures forall i :: 0 <= i < |xs| ==> ids[i] == xs[i].id
  {
    seq(|xs|, i requires 0 <= i < |xs| => xs[i].id)
  }

  // ---------------------------------------------------------------------
  // `Array.from(new Map(list.map(item => [item.id, item])).values())`

  function IdMap(xs: seq<Content>): (m: seq<Entry<Content>>)
    ensures Keys(m) == Distinct(Ids(xs))
    ensures forall i :: 0 <= i < |m| ==> m[i].key == m[i].value.id && m[i].value in xs
  {
    if |xs| == 0 then []
    else
      var prefix := xs[..|xs| - 1];
      var x := xs[|xs| - 1];
      assert Ids(xs) == Ids(prefix) + [x.id];
      assert xs == prefix + [x];
      var m := IdMap(prefix);
      assert forall e :: e in m ==> e.key == e.value.id && e.value in xs by {
        forall e | e in m ensures e.key == e.value.id && e.value in xs {
          var i :| 0 <= i < |m| && m[i] == e;
        }
      }
      Put(m, x.id, x)
  }

  /** One row per id, ids in order of first appearance, each row taken from
      the list. */
  function MergeById(xs: seq<Content>): (r: seq<Content>)
    ensures Ids(r) == Distinct(Ids(xs))
    ensures NoDuplicates(Ids(r))
    ensures forall i :: 0 <= i < |r| ==> r[i] in xs
  {
    var m := IdMap(xs);
    assert Ids(Values(m)) == Keys(m);
    Values(m)
  }

  /** A list whose ids are already distinct passes through unchanged. */
  lemma {:induction false} MergeDistinct(xs: seq<Content>)
    requires NoDuplicates(Ids(xs))
    ensures MergeById(xs) == xs
  {
    IdMapDistinct(xs);
  }

  lemma {:induction false} IdMapDistinct(xs: seq<Content>)
    requires NoDuplicates(Ids(xs))
    ensures Values(IdMap(xs)) == xs
  {
    if |xs| > 0 {
      var prefix := xs[..|xs| - 1];
      var x := xs[|xs| - 1];
      PrefixIdsDistinct(xs);
      IdMapDistinct(prefix);
      var m := IdMap(prefix);
      assert x.id !in Keys(m) by {
        LastIdNew(xs);
      }
      assert Values(m + [Entry(x.id, x)]) == Values(m) + [x];
      assert prefix + [x] == xs;
    }
  }

  lemma PrefixIdsDistinct(xs: seq<Content>)
    requires |xs| > 0 && NoDuplicates(Ids(xs))
    ensures NoDuplicates(Ids(xs[..|xs| - 1]))
  {
    var prefix := xs[..|xs| - 1];
    forall i, j | 0 <= i < j < |prefix| ensures Ids(prefix)[i] != Ids(prefix)[j] {
      assert Ids(xs)[i] != Ids(xs)[j];
    }
  }

  lemma LastIdNew(xs: seq<Content>)
    requires |xs| > 0 && NoDuplicates(Ids(xs))
    ensures xs[|xs| - 1].id !in Ids(xs[..|xs| - 1])
  {
    var prefix := xs[..|xs| - 1];
    assert forall i :: 0 <= i < |prefix| ==> Ids(prefix)[i] == Ids(xs)[i];
  }

  lemma {:induction false} LastInPrefix(xs: seq<Content>, i: nat, n: nat)
    requires i < n <= |xs|
    requires forall j :: i < j < |xs| ==> xs[j].id != xs[i].id
    ensures Get(IdMap(xs[..n]), xs[i].id) == Some(xs[i])
    decreases n
  {
    var k := xs[i].id;
    IdMapStep(xs, n, k);
    if n > i + 1 {
      LastInPrefix(xs, i, n - 1);
      assert xs[n - 1].id != k;
    }
  }

  lemma IdMapStep(xs: seq<Content>, n: nat, k: string)
    requires 0 < n <= |xs|
    ensures Get(IdMap(xs[..n]), k) == if k == xs[n - 1].id then Some(xs[n - 1]) else Get(IdMap(xs[..n - 1]), k)
  {
    var m := IdMap(xs[..n - 1]);
    assert xs[..n][..n - 1] == xs[..n - 1];
    assert IdMap(xs[..n]) == Put(m, xs[n - 1].id, xs[n - 1]);
    assert NoDuplicates(Keys(m));
    GetAfterPut(m, xs[n - 1].id, xs[n - 1], k);
  }

  /** For an id listed several times, the row kept is the last one listed. */
  lemma LastWins(xs: seq<Content>, i: nat)
    requires i < |xs|
    requires forall j :: i < j < |xs| ==> xs[j].id != xs[i].id
    ensures xs[i] in MergeById(xs)
  {
    LastInPrefix(xs, i, |xs|);
    assert xs[..|xs|] == xs;
    var m := IdMap(xs);
    var e :| 0 <= e < |m| && m[e] == Entry(xs[i].id, xs[i]);
    assert Values(m)[e] == xs[i];
  }

  // ---------------------------------------------------------------------
  // State transitions

  /** The effect of `useEffect([tipo, genero])`: the list is emptied, paging
      restarts at page 1 with `hasMore`, and page 1 is requested. */
  function ResetFilters(g: GridState): (r: (GridState, bool))
    ensures r.0.contents == [] && r.0.page == 1 && r.0.hasMore
    ensures r.1 <==> !g.loading
    ensures r.0.loading
  {
    BeginFetch(GridState([], 1, g.loading, true))
  }

  /** `fetchContents` up to the request: nothing at all happens while a
      fetch is loading; otherwise the grid starts loading. The flag says
      whether a request is sent. */
  function BeginFetch(g: GridState): (r: (GridState, bool))
    ensures g.loading ==> r == (g, false)
    ensures !g.loading ==> r == (g.(loading := true), true)
  {
    if g.loading then (g, false) else (g.(loading := true), true)
  }

  /** The discover reply as the grid reads it: `contents`, when present,
      and `pagination.hasMore`, when present. `None` is a failed request or
      a reply without `contents`. */
  datatype Reply = Reply(contents: seq<Content>, hasMore: Option<bool>)

  /** `fetchContents(pageNum)` after the reply: page 1 replaces the list,
      any other page is appended; rows are then merged by id; `hasMore`
      is the reply's, false when absent. Loading always ends. */
  function CompleteFetch(g: GridState, pageNum: int, reply: Option<Reply>): (r: GridState)
    ensures !r.loading && r.page == g.page
    ensures reply.None? ==> r == g.(loading := false)
    ensures reply.Some? ==> r.hasMore == reply.value.hasMore.GetOr(false)
    ensures reply.Some? && pageNum == 1 ==> r.contents == MergeById(reply.value.contents)
    ensures reply.Some? && pageNum != 1 ==> r.contents == MergeById(g.contents + reply.value.contents)
    ensures reply.Some? ==> NoDuplicates(Ids(r.contents))
  {
    match reply
    case None => g.(loading := false)
    case Some(d) =>
      var merged := if pageNum == 1 then d.contents else g.contents + d.contents;
      GridState(MergeById(merged), g.page, false, d.hasMore.GetOr(false))
  }

  /** The intersection observer: when the sentinel is visible, more rows
      may exist and no fetch is loading, the next page is requested. */
  function ReachEnd(g: GridState): (r: (GridState, bool))
    ensures !(g.hasMore && !g.loading) ==> r == (g, false)
    ensures g.hasMore && !g.loading ==> r == (g.(page := g.page + 1, loading := true), true)
  {
    if g.hasMore && !g.loading then BeginFetch(g.(page := g.page + 1)) else (g, false)
  }

  /** A later page whose rows are new is appended after the rows shown. */
  lemma LaterPageAppends(g: GridState, pageNum: int, d: Reply)
    requires pageNum != 1
    requires NoDuplicates(Ids(g.contents + d.contents))
    ensures CompleteFetch(g, pageNum, Some(d)).contents == g.contents + d.contents
  {
    MergeDistinct(g.contents + d.contents);
  }

  /** A reply to page 1 replaces the rows shown, whatever they were. */
  lemma FirstPageReplaces(g1: GridState, g2: GridState, d: Reply)
    ensures CompleteFetch(g1, 1, Some(d)).contents == CompleteFetch(g2, 1, Some(d)).contents
  {
  }

  /** Every row shown came from a reply, and every id of the previous rows
      and of a later page's reply is still shown. */
  lemma MergeKeepsEveryId(g: GridState, pageNum: int, d: Reply)
    requires pageNum != 1
    ensures var r := CompleteFetch(g, pageNum, Some(d));
      forall x :: x in g.contents + d.contents ==> x.id in Ids(r.contents)
  {
    var xs := g.contents + d.contents;
    forall x | x in xs ensures x.id in Ids(MergeById(xs)) {
      var i :| 0 <= i < |xs| && xs[i] == x;
      assert Ids(xs)[i] == x.id;
    }
  }
}

=== FILE: history.dfy ===
/** Watch history (app/api/watch-history/route.ts): the progress percentage
    and completion flag of a position report, the create-or-update of the
    one row per (user, content) pair, and the "continue watching" query. */
module History {
  import opened Base
  import opened Sorting
  import opened Db

  // ---------------------------------------------------------------------
  // Progress arithmetic

  /** `Math.round(100 * cur / dur)` over exact rationals: the integer `q`
      with `q - 1/2 <= 100 * cur / dur < q + 1/2`. `Math.round` rounds
      halves up, which is `floor(x + 1/2)`. */
  function RoundedPercent(cur: int, dur: int): (q: int)
    requires dur > 0
    ensures 2 * dur * q <= 200 * cur + dur < 2 * dur * (q + 1)
  {
    (200 * cur + dur) / (2 * dur)
  }

  /** `progress_percent`: the rounded percentage capped at 100 when the
      duration is positive, 0 otherwise. Nothing bounds it from below. */
  function ProgressPercent(cur: int, dur: int): (p: int)
    ensures p <= 100
    ensures dur <= 0 ==> p == 0
    ensures dur > 0 && p < 100 ==> 2 * dur * p <= 200 * cur + dur < 2 * dur * (p + 1)
    ensures dur > 0 && p == 100 ==> 200 * cur + dur >= 200 * dur
  {
    if dur > 0 then Min(100, RoundedPercent(cur, dur)) else 0
  }

  /** `completed = progress_percent >= 90`. */
  predicate Completed(p: int) {
    p >= 90
  }

  /** A report is complete exactly when at least 89.5% of the duration has
      been watched. */
  lemma CompletedIffWatchedEnough(cur: int, dur: int)
    requires dur > 0
    ensures Completed(ProgressPercent(cur, dur)) <==> 200 * cur + dur >= 180 * dur
  {
    var q := RoundedPercent(cur, dur);
    if q >= 90 {
      MulMonotone(2 * dur, 90, q);
    } else {
      MulMonotone(2 * dur, q + 1, 90);
    }
  }

  lemma MulMonotone(k: int, a: int, b: int)
    requires k >= 0 && a <= b
    ensures k * a <= k * b
  {
  }

  /** The percentage only grows as the position moves forward. */
  lemma ProgressMonotone(c1: int, c2: int, dur: int)
    requires c1 <= c2
    ensures ProgressPercent(c1, dur) <= ProgressPercent(c2, dur)
  {
    if dur > 0 {
      var q1 := RoundedPercent(c1, dur);
      var q2 := RoundedPercent(c2, dur);
      if q1 > q2 {
        MulMonotone(2 * dur, q2 + 1, q1);
      }
    }
  }

  /** 45 s of 100 s is 45%, not complete; 91 s is complete; a position past
      the end is capped at 100; a negative position is not clamped. */
  lemma ProgressExamples()
    ensures ProgressPercent(45, 100) == 45 && !Completed(ProgressPercent(45, 100))
    ensures ProgressPercent(91, 100) == 91 && Completed(ProgressPercent(91, 100))
    ensures ProgressPercent(1, 200) == 1
    ensures ProgressPercent(250, 100) == 100
    ensures ProgressPercent(-10, 100) == -10
    ensures ProgressPercent(50, 0) == 0
  {
  }

  // ---------------------------------------------------------------------
  // POST: create or update

  /** The body of a position report. Absent or empty ids are `None` or "". */
  datatype Report = Report(userId: Option<string>, contentId: Option<string>, currentT: int, duration: int)

  /** The store failures the handler distinguishes: the lookup failing with
      anything but "no single row", and the update or insert failing. */
  datatype Faults = Faults(lookup: bool, write: bool)

  predicate IsPair(h: WatchHistory, user: string, content: string) {
    h.userId == user && h.contentId == content
  }

  /** The reply and the table afterwards. */
  datatype Posted = Posted(response: Response<WatchHistory>, table: seq<WatchHistory>)

  /** Every row with the id of `row` replaced by `row`. */
  function ReplaceById(table: seq<WatchHistory>, row: WatchHistory): (r: seq<WatchHistory>)
    ensures |r| == |table|
    ensures forall i :: 0 <= i < |r| ==> r[i] == if table[i].id == row.id then row else table[i]
  {
    seq(|table|, i requires 0 <= i < |table| => if table[i].id == row.id then row else table[i])
  }

  /** The POST handler. `now` is the clock, `freshId` the id the store
      assigns to an inserted row. A single matching row is updated (its id,
      owner and first-watched time kept, its count raised by one); with no
      single match a new row is inserted with count 1. */
  function PostProgress(table: seq<WatchHistory>, rep: Report, now: int, freshId: string, faults: Faults): (r: Posted)
    ensures !Present(rep.userId) || !Present(rep.contentId) ==> r == Posted(Error(BadRequest), table)
    ensures r.response.Error? ==> r.table == table
    ensures r.response.Error? <==> !Present(rep.userId) || !Present(rep.contentId) || faults.lookup || faults.write
    ensures r.response.Error? && r.response.status != BadRequest ==> r.response.status == ServerError
    ensures r.response.Ok? ==>
      var h := r.response.body;
      var matched := SingleOf((x: WatchHistory) => IsPair(x, rep.userId.value, rep.contentId.value), table);
      && IsPair(h, rep.userId.value, rep.contentId.value)
      && h.currentT == rep.currentT && h.duration == rep.duration
      && h.progressPercent == ProgressPercent(rep.currentT, rep.duration)
      && (h.completed <==> h.progressPercent >= 90)
      && h.lastWatchedAt == now
      && (matched.One? ==>
            && h.id == matched.row.id
            && h.watchCount == matched.row.watchCount + 1
            && h.firstWatchedAt == matched.row.firstWatchedAt
            && r.table == ReplaceById(table, h))
      && (matched.NoneOrMany? ==>
            && h.id == freshId
            && h.watchCount == 1
            && h.firstWatchedAt == now
            && r.table == table + [h])
  {
    if !Present(rep.userId) || !Present(rep.contentId) then Posted(Error(BadRequest), table)
    else
      var user := rep.userId.value;
      var content := rep.contentId.value;
      var p := ProgressPercent(rep.currentT, rep.duration);
      var done := Completed(p);
      if faults.lookup then Posted(Error(ServerError), table)
      else
        match SingleOf((x: WatchHistory) => IsPair(x, user, content), table)
        case One(e) =>
          var h := e.(currentT := rep.currentT, duration := rep.duration, progressPercent := p,
                      completed := done, watchCount := e.watchCount + 1, lastWatchedAt := now);
          if faults.write then Posted(Error(ServerError), table)
          else Posted(Ok(h), ReplaceById(table, h))
        case NoneOrMany =>
          var h := WatchHistory(freshId, user, content, rep.currentT, rep.duration, p, done, now, now, 1);
          if faults.write then Posted(Error(ServerError), table)
          else Posted(Ok(h), table + [h])
  }

  /** The table invariant: row ids are distinct and so are (user, content)
      pairs. */
  predicate WellFormed(table: seq<WatchHistory>) {
    forall i, j :: 0 <= i < j < |table| ==>
      table[i].id != table[j].id
      && !(table[i].userId == table[j].userId && table[i].contentId == table[j].contentId)
  }

  predicate IdUnused(table: seq<WatchHistory>, id: string) {
    forall i :: 0 <= i < |table| ==> table[i].id != id
  }

  /** On a well-formed table a pair matches at most one row. */
  lemma {:induction false} PairCountAtMostOne(table: seq<WatchHistory>, user: string, content: string)
    requires WellFormed(table)
    ensures Count((x: WatchHistory) => IsPair(x, user, content), table) <= 1
  {
    if |table| > 0 {
      var t := table[1..];
      assert WellFormed(t) by {
        forall i, j | 0 <= i < j < |t| ensures t[i].id != t[j].id {
          assert t[i] == table[i + 1] && t[j] == table[j + 1];
        }
        forall i, j | 0 <= i < j < |t|
          ensures !(t[i].userId == t[j].userId && t[i].contentId == t[j].contentId)
        {
          assert t[i] == table[i + 1] && t[j] == table[j + 1];
        }
      }
      PairCountAtMostOne(t, user, content);
      if IsPair(table[0], user, content) {
        forall i | 0 <= i < |t| ensures !IsPair(t[i], user, content) {
          assert t[i] == table[i + 1];
        }
      }
    }
  }

  /** With a single store, a successful report keeps the table well formed,
      provided the id given to a new row is unused. */
  lemma PostKeepsWellFormed(table: seq<WatchHistory>, rep: Report, now: int, freshId: string, faults: Faults)
    requires WellFormed(table) && IdUnused(table, freshId)
    ensures WellFormed(PostProgress(table, rep, now, freshId, faults).table)
  {
    var r := PostProgress(table, rep, now, freshId, faults);
    if r.response.Ok? {
      var user := rep.userId.value;
      var content := rep.contentId.value;
      var h := r.response.body;
      var pair := (x: WatchHistory) => IsPair(x, user, content);
      match SingleOf(pair, table)
      case One(e) =>
        var k :| 0 <= k < |table| && table[k] == e;
        forall i, j | 0 <= i < j < |r.table|
          ensures r.table[i].id != r.table[j].id
          ensures !(r.table[i].userId == r.table[j].userId && r.table[i].contentId == r.table[j].contentId)
        {
          if i == k || j == k {
            assert table[i].id != table[j].id;
          }
        }
      case NoneOrMany =>
        PairCountAtMostOne(table, user, content);
        assert Count(pair, table) == 0;
        forall i, j | 0 <= i < j < |r.table|
          ensures r.table[i].id != r.table[j].id
          ensures !(r.table[i].userId == r.table[j].userId && r.table[i].contentId == r.table[j].contentId)
        {
          if j == |table| {
            assert r.table[i] == table[i];
            assert !pair(table[i]);
          }
        }
    }
  }

  /** A report for a pair that has a row updates that row only. */
  lemma UpdateTouchesOneRow(table: seq<WatchHistory>, rep: Report, now: int, freshId: string, faults: Faults, k: nat)
    requires WellFormed(table)
    requires k < |table| && Present(rep.userId) && Present(rep.contentId)
    requires IsPair(table[k], rep.userId.value, rep.contentId.value)
    requires !faults.lookup && !faults.write
    ensures var r := PostProgress(table, rep, now, freshId, faults);
      && r.response.Ok? && |r.table| == |table|
      && r.table[k] == r.response.body
      && forall i :: 0 <= i < |table| && i != k ==> r.table[i] == table[i]
  {
    var pair := (x: WatchHistory) => IsPair(x, rep.userId.value, rep.contentId.value);
    PairCountAtMostOne(table, rep.userId.value, rep.contentId.value);
    assert Count(pair, table) != 0;
    var e := SingleOf(pair, table).row;
    var j :| 0 <= j < |table| && table[j] == e;
  }

  /** Two successful reports of the same pair on a table without that pair:
      the first inserts a row with count 1, the second updates that row to
      count 2 and keeps the time it was first watched. */
  lemma ReportTwice(table: seq<WatchHistory>, rep1: Report, rep2: Report, t1: int, t2: int, id1: string, id2: string)
    requires WellFormed(table) && IdUnused(table, id1)
    requires Present(rep1.userId) && Present(rep1.contentId)
    requires rep2.userId == rep1.userId && rep2.contentId == rep1.contentId
    requires forall i :: 0 <= i < |table| ==> !IsPair(table[i], rep1.userId.value, rep1.contentId.value)
    ensures var first := PostProgress(table, rep1, t1, id1, Faults(false, false));
      var second := PostProgress(first.table, rep2, t2, id2, Faults(false, false));
      && first.response == Ok(WatchHistory(id1, rep1.userId.value, rep1.contentId.value, rep1.currentT, rep1.duration,
           ProgressPercent(rep1.currentT, rep1.duration), Completed(ProgressPercent(rep1.currentT, rep1.duration)), t1, t1, 1))
      && second.response.Ok?
      && second.response.body.id == id1
      && second.response.body.watchCount == 2
      && second.response.body.firstWatchedAt == t1
      && second.response.body.lastWatchedAt == t2
      && |second.table| == |table| + 1
  {
    var user := rep1.userId.value;
    var content := rep1.contentId.value;
    var pair := (x: WatchHistory) => IsPair(x, user, content);
    assert Count(pair, table) == 0;
    var first := PostProgress(table, rep1, t1, id1, Faults(false, false));
    PostKeepsWellFormed(table, rep1, t1, id1, Faults(false, false));
    UpdateTouchesOneRow(first.table, rep2, t2, id2, Faults(false, false), |table|);
  }

  // ---------------------------------------------------------------------
  // GET: continue watching

  function LastWatchedAt(h: WatchHistory): int {
    h.lastWatchedAt
  }

  /** `.eq('user_id').eq('completed', false).gt('progress_percent', 0.5)`. */
  predicate InProgress(h: WatchHistory, user: string) {
    h.userId == user && !h.completed && 2 * h.progressPercent > 1
  }

  /** The rows the query selects before ordering and `.limit`. */
  function Unfinished(table: seq<WatchHistory>, user: string): seq<WatchHistory> {
    Filter((h: WatchHistory) => InProgress(h, user), table)
  }

  /** The GET handler on the whole table: 400 without `user_id`; a `limit`
      that parses to NaN or a store failure is a 500; otherwise the
      `limit` most recently watched of the user's unfinished rows (all of
      them when fewer), each once, most recent first. */
  function ContinueWatching(table: seq<WatchHistory>, userId: Option<string>, limit: Option<int>, fails: bool)
    : (r: Response<seq<WatchHistory>>)
    ensures !Present(userId) ==> r == Error(BadRequest)
    ensures r.Error? <==> !Present(userId) || limit.None? || fails
    ensures r.Error? && Present(userId) ==> r.status == ServerError
    ensures r.Ok? ==>
      && |r.body| == Min(Max(limit.value, 0), |Unfinished(table, userId.value)|)
      && multiset(r.body) <= multiset(Unfinished(table, userId.value))
      && SortedDesc(r.body, LastWatchedAt)
      && (forall i :: 0 <= i < |r.body| ==> r.body[i] in table && InProgress(r.body[i], userId.value))
      && (forall x, y :: x in multiset(Unfinished(table, userId.value)) - multiset(r.body) && y in r.body ==>
            x.lastWatchedAt <= y.lastWatchedAt)
  {
    if !Present(userId) then Error(BadRequest)
    else if limit.None? || fails then Error(ServerError)
    else
      var matching := Unfinished(table, userId.value);
      var sorted := SortDesc(matching, LastWatchedAt);
      TakeOfPermutation(sorted, matching, limit.value);
      TakeSortedIsTop(sorted, matching, limit.value, LastWatchedAt);
      UnfinishedRows(table, userId.value, Take(sorted, limit.value));
      Ok(Take(sorted, limit.value))
  }

  /** Rows drawn from `Unfinished` are unfinished rows of the table. */
  lemma UnfinishedRows(table: seq<WatchHistory>, user: string, r: seq<WatchHistory>)
    requires multiset(r) <= multiset(Unfinished(table, user))
    ensures forall i :: 0 <= i < |r| ==> r[i] in table && InProgress(r[i], user)
  {
    forall i | 0 <= i < |r| ensures r[i] in table && InProgress(r[i], user) {
      assert r[i] in multiset(r);
      assert r[i] in Unfinished(table, user);
    }
  }

  /** No unfinished row left out of the reply was watched more recently than
      any row in it: the reply is the most recent `limit` rows. */
  lemma ContinueWatchingIsMostRecent(table: seq<WatchHistory>, user: string, limit: int, h: WatchHistory)
    requires user != ""
    requires h in table && InProgress(h, user)
    ensures var r := ContinueWatching(table, Some(user), Some(limit), false).body;
      h !in r ==> |r| == Max(limit, 0) && forall x :: x in r ==> x.lastWatchedAt >= h.lastWatchedAt
  {
    var matching := Unfinished(table, user);
    var sorted := SortDesc(matching, LastWatchedAt);
    var r := Take(sorted, limit);
    assert h in matching;
    assert h in multiset(sorted);
    var j :| 0 <= j < |sorted| && sorted[j] == h;
    if h !in r {
      assert j >= |r|;
      forall x | x in r ensures x.lastWatchedAt >= h.lastWatchedAt {
        var k :| 0 <= k < |r| && r[k] == x;
        assert sorted[k] == x;
      }
    }
  }

  /** Every unfinished row of the user is in the reply when the limit
      covers them all. */
  lemma ContinueWatchingComplete(table: seq<WatchHistory>, user: string, limit: int, h: WatchHistory)
    requires user != ""
    requires h in table && InProgress(h, user)
    requires limit >= |table|
    ensures h in ContinueWatching(table, Some(user), Some(limit), false).body
  {
    var matching := Unfinished(table, user);
    var sorted := SortDesc(matching, LastWatchedAt);
    assert h in matching;
    assert h in multiset(sorted);
    assert |sorted| == |matching|;
  }
}

=== FILE: ordered_map.dfy ===
/** JavaScript's `Map` as the handlers use it: an insertion-ordered table
    from string keys to values. `set` on a key already present replaces the
    value where it stands; on a new key it appends. `values()` lists the
    values in key-insertion order. */
module OrderedMap {
  import opened Base

  datatype Entry<V> = Entry(key: string, value: V)

  function Keys<V>(m: seq<Entry<V>>): (ks: seq<string>)
    ensures |ks| == |m|
    ensures forall i :: 0 <= i < |m| ==> ks[i] == m[i].key
  {
    seq(|m|, i requires 0 <= i < |m| => m[i].key)
  }

  /** `Array.from(map.values())` */
  function Values<V>(m: seq<Entry<V>>): (vs: seq<V>)
    ensures |vs| == |m|
    ensures forall i :: 0 <= i < |m| ==> vs[i] == m[i].value
  {
    seq(|m|, i requires 0 <= i < |m| => m[i].value)
  }

  /** `map.get(k)`: the value stored under `k`, if any. */
  function Get<V>(m: seq<Entry<V>>, k: string): (r: Option<V>)
    ensures r.Some? <==> k in Keys(m)
    ensures r.Some? ==> exists i :: 0 <= i < |m| && m[i] == Entry(k, r.value)
    ensures NoDuplicates(Keys(m)) ==>
      forall i :: 0 <= i < |m| && m[i].key == k ==> r == Some(m[i].value)
  {
    if |m| == 0 then None
    else if m[0].key == k then Some(m[0].value)
    else
      var r := Get(m[1..], k);
      assert Keys(m) == [m[0].key] + Keys(m[1..]);
      assert r.Some? ==> exists i :: 0 <= i < |m| && m[i] == Entry(k, r.value) by {
        if r.Some? {
          var i :| 0 <= i < |m[1..]| && m[1..][i] == Entry(k, r.value);
          assert m[i + 1] == Entry(k, r.value);
        }
      }
      r
  }

  /** `map.set(k, v)` */
  function Put<V>(m: seq<Entry<V>>, k: string, v: V): (r: seq<Entry<V>>)
    ensures k in Keys(m) ==> Keys(r) == Keys(m)
    ensures k !in Keys(m) ==> Keys(r) == Keys(m) + [k] && r == m + [Entry(k, v)]
    ensures forall e :: e in r ==> e in m || e == Entry(k, v)
  {
    if |m| == 0 then [Entry(k, v)]
    else if m[0].key == k then
      assert Keys([Entry(k, v)] + m[1..]) == Keys(m);
      [Entry(k, v)] + m[1..]
    else
      var r' := Put(m[1..], k, v);
      assert Keys(m) == [m[0].key] + Keys(m[1..]);
      assert Keys([m[0]] + r') == [m[0].key] + Keys(r');
      assert forall e :: e in m[1..] ==> e in m;
      [m[0]] + r'
  }

  /** `set` keeps the keys distinct. */
  lemma PutKeepsKeysDistinct<V>(m: seq<Entry<V>>, k: string, v: V)
    requires NoDuplicates(Keys(m))
    ensures NoDuplicates(Keys(Put(m, k, v)))
  {
  }

  /** After `set(k, v)`, `get(k)` is `v` and every other key reads as
      before. */
  lemma {:induction false} GetAfterPut<V>(m: seq<Entry<V>>, k: string, v: V, k': string)
    requires NoDuplicates(Keys(m))
    ensures Get(Put(m, k, v), k') == if k' == k then Some(v) else Get(m, k')
  {
    if |m| > 0 && m[0].key != k {
      assert Keys(m) == [m[0].key] + Keys(m[1..]);
      assert NoDuplicates(Keys(m[1..])) by {
        forall i, j | 0 <= i < j < |m[1..]| ensures Keys(m[1..])[i] != Keys(m[1..])[j] {
          assert Keys(m[1..])[i] == Keys(m)[i + 1] && Keys(m[1..])[j] == Keys(m)[j + 1];
        }
      }
      GetAfterPut(m[1..], k, v, k');
      var r := Put(m, k, v);
      assert r == [m[0]] + Put(m[1..], k, v);
      assert r[1..] == Put(m[1..], k, v);
    } else if |m| > 0 {
      var r := Put(m, k, v);
      assert r[1..] == m[1..];
      if k' != k {
        assert Get(r, k') == Get(r[1..], k');
      }
    }
  }

  /** The distinct elements of `ks`, each where it first appears. */
  function Distinct(ks: seq<string>): (d: seq<string>)
    ensures NoDuplicates(d)
    ensures forall k :: k in d <==> k in ks
    ensures |d| <= |ks|
  {
    if |ks| == 0 then []
    else
      var d := Distinct(ks[..|ks| - 1]);
      var k := ks[|ks| - 1];
      assert ks == ks[..|ks| - 1] + [k];
      if k in d then d else d + [k]
  }
}

=== FILE: proxy.dfy ===
/** The streaming proxy helper (lib/proxy.ts): plain-http video URLs are
    routed through an https proxy so the player is not blocked as mixed
    content. The two environment variables are parameters. */
module Proxy {
  import opened Base
  import opened Text

  const DefaultProxyUrl := "https://api.aurorav2.fun"

  /** `process.env.X || fallback`: an unset or empty variable falls back. */
  function EnvOr(env: Option<string>, fallback: string): (r: string)
    ensures Present(env) ==> r == env.value
    ensures !Present(env) ==> r == fallback
  {
    if Present(env) then env.value else fallback
  }

  datatype Env = Env(proxyUrl: Option<string>, proxyToken: Option<string>)

  function ProxyUrl(env: Env): (r: string)
    ensures r != ""
  {
    EnvOr(env.proxyUrl, DefaultProxyUrl)
  }

  function ProxyToken(env: Env): string {
    EnvOr(env.proxyToken, "")
  }

  /** The URL the player is given: nothing, the input itself, or the
      proxy's stream endpoint with the original URL and the token as query
      parameters. */
  datatype VideoUrl = Empty | Direct(url: string) | Proxied(endpoint: string, url: string, token: string)

  /** `getProxiedVideoUrl`. The `https://` test is case-sensitive. */
  function ProxiedVideoUrl(env: Env, videoUrl: string): (r: VideoUrl)
    ensures r.Empty? <==> videoUrl == ""
    ensures r.Direct? <==> StartsWith(videoUrl, "https://")
    ensures r.Direct? ==> r.url == videoUrl
    ensures r.Proxied? ==>
      && r.url == videoUrl && r.token == ProxyToken(env)
      && StartsWith(r.endpoint, ProxyUrl(env)) && r.endpoint == ProxyUrl(env) + "/proxy/stream"
  {
    if videoUrl == "" then Empty
    else if StartsWith(videoUrl, "https://") then Direct(videoUrl)
    else Proxied(ProxyUrl(env) + "/proxy/stream", videoUrl, ProxyToken(env))
  }

  /** The player never receives a non-https URL from a non-empty input
      when the proxy address is https: a direct URL already is, and a
      proxied one points at the proxy. */
  lemma ProxiedIsHttps(env: Env, videoUrl: string)
    requires videoUrl != "" && StartsWith(ProxyUrl(env), "https://")
    ensures var r := ProxiedVideoUrl(env, videoUrl);
      (r.Direct? && StartsWith(r.url, "https://")) || (r.Proxied? && StartsWith(r.endpoint, "https://"))
  {
    var r := ProxiedVideoUrl(env, videoUrl);
    if r.Proxied? {
      var base := ProxyUrl(env);
      assert r.endpoint[..|base|] == base;
      assert r.endpoint[..8] == base[..8];
    }
  }

  /** Plain http is always proxied, and so is an upper-case `HTTPS://`. */
  lemma HttpIsProxied(env: Env)
    ensures ProxiedVideoUrl(env, "http://cdn/v.mp4").Proxied?
    ensures ProxiedVideoUrl(env, "HTTPS://cdn/v.mp4").Proxied?
  {
    assert "http://cdn/v.mp4"[..8] != "https://" by { assert "http://cdn/v.mp4"[4] == ':'; }
    assert "HTTPS://cdn/v.mp4"[..8] != "https://" by { assert "HTTPS://cdn/v.mp4"[0] == 'H'; }
  }

  /** `isProxyConfigured`: both the address and the token are non-empty.
      Because the address falls back to a default, that is exactly when a
      token is set. */
  function IsProxyConfigured(env: Env): (r: bool)
    ensures r <==> Present(env.proxyToken)
  {
    ProxyUrl(env) != "" && ProxyToken(env) != ""
  }
}

=== FILE: requests.dfy ===
/** Content requests (app/api/content-requests/route.ts): a user asks for a
    movie or series to be added; a request stays 'pendente' until handled,
    and a user may not have two pending requests for the same name. */
module Requests {
  import opened Base
  import opened Text
  import opened Sorting
  import opened Db

  const Pending := "pendente"

  function CreatedAt(q: ContentRequest): int {
    q.createdAt
  }

  /** GET: 400 without `userId`, 500 on a store failure, otherwise the
      user's requests, newest first. */
  function GetRequests(table: seq<ContentRequest>, userId: Option<string>, fails: bool)
    : (r: Response<seq<ContentRequest>>)
    ensures !Present(userId) ==> r == Error(BadRequest)
    ensures Present(userId) && fails ==> r == Error(ServerError)
    ensures Present(userId) && !fails ==>
      && r.Ok?
      && multiset(r.body) == multiset(Filter((q: ContentRequest) => q.userId == userId.value, table))
      && SortedDesc(r.body, CreatedAt)
  {
    if !Present(userId) then Error(BadRequest)
    else if fails then Error(ServerError)
    else Ok(SortDesc(Filter((q: ContentRequest) => q.userId == userId.value, table), CreatedAt))
  }

  /** The body of a POST. */
  datatype Submission = Submission(
    userId: Option<string>,
    contentName: Option<string>,
    contentType: Option<string>,
    sourceInfo: Option<string>)

  /** `['filme', 'serie'].includes(contentType)`. */
  predicate ValidType(t: string) {
    t == "filme" || t == "serie"
  }

  /** A pending request of `user` whose name matches `name` ignoring case
      (the `ilike` lookup without wildcards). */
  predicate PendingMatch(q: ContentRequest, user: string, name: string) {
    q.userId == user && EqualsIgnoringCase(q.contentName, name) && q.status == Pending
  }

  /** The store's part in a POST: whether the pending lookup failed (its
      error is ignored), whether the insert failed, and the id and time the
      store gives a new row. */
  datatype StoreCall = StoreCall(lookupFails: bool, insertFails: bool, freshId: string, now: int)

  datatype Submitted = Submitted(response: Response<ContentRequest>, table: seq<ContentRequest>)

  /** POST. Checks run in order: the three required fields, the type, the
      pending duplicate (`.single()`: a conflict only when exactly one
      pending request matches; a failed lookup finds none), then the
      insert. */
  function Submit(table: seq<ContentRequest>, s: Submission, call: StoreCall): (r: Submitted)
    ensures r.response.Error? ==> r.table == table
    ensures r.response.Ok? <==>
      && Present(s.userId) && Present(s.contentName) && Present(s.contentType)
      && ValidType(s.contentType.value)
      && (call.lookupFails || Count((q: ContentRequest) => PendingMatch(q, s.userId.value, s.contentName.value), table) != 1)
      && !call.insertFails
    ensures r.response == Error(ServerError) <==>
      && Present(s.userId) && Present(s.contentName) && Present(s.contentType)
      && ValidType(s.contentType.value)
      && (call.lookupFails || Count((q: ContentRequest) => PendingMatch(q, s.userId.value, s.contentName.value), table) != 1)
      && call.insertFails
    ensures !Present(s.userId) || !Present(s.contentName) || !Present(s.contentType) ==>
      r.response == Error(BadRequest)
    ensures Present(s.contentType) && !ValidType(s.contentType.value) ==> r.response == Error(BadRequest)
    ensures r.response == Error(Conflict) <==>
      && Present(s.userId) && Present(s.contentName) && Present(s.contentType)
      && ValidType(s.contentType.value)
      && !call.lookupFails
      && Count((q: ContentRequest) => PendingMatch(q, s.userId.value, s.contentName.value), table) == 1
    ensures r.response.Ok? ==>
      && r.table == table + [r.response.body]
      && r.response.body == ContentRequest(call.freshId, s.userId.value, s.contentName.value,
           s.contentType.value, if Present(s.sourceInfo) then s.sourceInfo else None, Pending, call.now)
  {
    if !Present(s.userId) || !Present(s.contentName) || !Present(s.contentType) then
      Submitted(Error(BadRequest), table)
    else if !ValidType(s.contentType.value) then
      Submitted(Error(BadRequest), table)
    else
      var user := s.userId.value;
      var name := s.contentName.value;
      var existing := if call.lookupFails then NoneOrMany
        else SingleOf((q: ContentRequest) => PendingMatch(q, user, name), table);
      if existing.One? then Submitted(Error(Conflict), table)
      else if call.insertFails then Submitted(Error(ServerError), table)
      else
        var q := ContentRequest(call.freshId, user, name, s.contentType.value,
                                if Present(s.sourceInfo) then s.sourceInfo else None, Pending, call.now);
        Submitted(Ok(q), table + [q])
  }

  /** The table invariant the conflict check maintains: no user has two
      pending requests whose names match ignoring case. */
  predicate NoPendingDuplicates(table: seq<ContentRequest>) {
    forall i, j :: 0 <= i < j < |table| ==>
      !(table[i].status == Pending && PendingMatch(table[j], table[i].userId, table[i].contentName))
  }

  lemma {:induction false} PendingCountAtMostOne(table: seq<ContentRequest>, user: string, name: string)
    requires NoPendingDuplicates(table)
    ensures Count((q: ContentRequest) => PendingMatch(q, user, name), table) <= 1
  {
    var p := (q: ContentRequest) => PendingMatch(q, user, name);
    if |table| > 0 {
      var t := table[1..];
      assert NoPendingDuplicates(t) by {
        forall i, j | 0 <= i < j < |t|
          ensures !(t[i].status == Pending && PendingMatch(t[j], t[i].userId, t[i].contentName))
        {
          assert t[i] == table[i + 1] && t[j] == table[j + 1];
        }
      }
      PendingCountAtMostOne(t, user, name);
      if p(table[0]) {
        forall i | 0 <= i < |t| ensures !p(t[i]) {
          assert t[i] == table[i + 1];
          assert !(table[0].status == Pending && PendingMatch(table[i + 1], table[0].userId, table[0].contentName));
        }
      }
    }
  }

  /** When the lookup answers, a POST never creates a second pending
      request for the same user and name: a match is a conflict. */
  lemma SubmitKeepsNoPendingDuplicates(table: seq<ContentRequest>, s: Submission, call: StoreCall)
    requires NoPendingDuplicates(table) && !call.lookupFails
    ensures NoPendingDuplicates(Submit(table, s, call).table)
  {
    var r := Submit(table, s, call);
    if r.response.Ok? {
      var user := s.userId.value;
      var name := s.contentName.value;
      var p := (q: ContentRequest) => PendingMatch(q, user, name);
      PendingCountAtMostOne(table, user, name);
      assert Count(p, table) == 0;
      var t := r.table;
      forall i, j | 0 <= i < j < |t|
        ensures !(t[i].status == Pending && PendingMatch(t[j], t[i].userId, t[i].contentName))
      {
        if j == |table| {
          assert t[i] == table[i];
          assert !p(table[i]);
        }
      }
    }
  }

  /** A failed lookup lets a duplicate pending request in. */
  lemma LookupFailureAdmitsDuplicate()
    ensures var q := ContentRequest("r1", "u", "Dune", "filme", None, Pending, 0);
      var s := Submission(Some("u"), Some("DUNE"), Some("filme"), None);
      var r := Submit([q], s, StoreCall(true, false, "r2", 1));
      r.response.Ok? && !NoPendingDuplicates(r.table)
  {
    var q := ContentRequest("r1", "u", "Dune", "filme", None, Pending, 0);
    assert Lower("Dune") == "dune";
    assert Lower("DUNE") == "dune";
    var r := Submit([q], Submission(Some("u"), Some("DUNE"), Some("filme"), None), StoreCall(true, false, "r2", 1));
    assert r.table[0] == q;
    assert PendingMatch(r.table[1], q.userId, q.contentName);
  }

  /** The same name in another case, by the same user, while the first is
      pending, is a conflict. */
  lemma CaseInsensitiveConflict()
    ensures var q := ContentRequest("r1", "u", "Dune", "filme", None, Pending, 0);
      var s := Submission(Some("u"), Some("DUNE"), Some("serie"), None);
      Submit([q], s, StoreCall(false, false, "r2", 1)) == Submitted(Error(Conflict), [q])
  {
    var q := ContentRequest("r1", "u", "Dune", "filme", None, Pending, 0);
    assert Lower("Dune") == "dune";
    assert Lower("DUNE") == "dune";
    assert PendingMatch(q, "u", "DUNE");
  }
}

=== FILE: service_worker.dfy ===
/** The offline layer (public/sw.js): which requests the service worker
    answers and how, what it stores, and which caches it deletes on
    activation and on a `CLEAR_CACHE` message. The Cache API is a map from
    request URL to response; the network's answer is an input. */
module ServiceWorker {
  import opened Base
  import opened Text

  const Version := "1.1.3"
  /** The single cache of earlier versions, deleted on activation. */
  const LegacyCache := "aurora-cache-v" + Version
  const StaticCache := "aurora-static-v" + Version
  const DynamicCache := "aurora-dynamic-v" + Version

  const NetworkFirstPatterns: seq<string> := ["/api/", "supabase", "firebase"]

  // ---------------------------------------------------------------------
  // Routing

  /** A request as the fetch handler sees it: its HTTP method, the parsed
      URL's scheme with its colon ("https:"), and the full URL. */
  datatype Request = Request(verb: string, protocol: string, url: string)

  datatype Route = PassThrough | NetworkFirst | CacheFirst

  /** `patterns.some(p => url.includes(p))` */
  function AnyContains(url: string, patterns: seq<string>): (r: bool)
    ensures r <==> exists i :: 0 <= i < |patterns| && Contains(url, patterns[i])
  {
    if |patterns| == 0 then false
    else Contains(url, patterns[0]) || AnyContains(url, patterns[1..])
  }

  /** The fetch handler's decision: non-GET requests and non-http
      protocols are left to the browser; URLs naming the API or a backend
      go to the network first; everything else is served from the cache
      first. */
  function Classify(req: Request): (route: Route)
    ensures route == PassThrough <==> req.verb != "GET" || !StartsWith(req.protocol, "http")
    ensures route == NetworkFirst <==>
      && req.verb == "GET" && StartsWith(req.protocol, "http")
      && (Contains(req.url, "/api/") || Contains(req.url, "supabase") || Contains(req.url, "firebase"))
  {
    if req.verb != "GET" then PassThrough
    else if !StartsWith(req.protocol, "http") then PassThrough
    else
      PatternsUnrolled(req.url);
      if AnyContains(req.url, NetworkFirstPatterns) then NetworkFirst else CacheFirst
  }

  lemma PatternsUnrolled(url: string)
    ensures AnyContains(url, NetworkFirstPatterns) <==>
      Contains(url, "/api/") || Contains(url, "supabase") || Contains(url, "firebase")
  {
    var ps := NetworkFirstPatterns;
    assert ps[0] == "/api/" && ps[1..][0] == "supabase" && ps[1..][1..][0] == "firebase";
    assert ps[1..][1..][1..] == [];
    assert AnyContains(url, ps[1..][1..]) == Contains(url, "firebase");
    assert AnyContains(url, ps[1..]) == (Contains(url, "supabase") || Contains(url, "firebase"));
  }

  /** A request is network-first exactly when one of the three patterns
      occurs somewhere in its URL. */
  lemma NetworkFirstMeaning(req: Request)
    requires req.verb == "GET" && StartsWith(req.protocol, "http")
    ensures Classify(req) == NetworkFirst <==>
      exists p, i :: p in NetworkFirstPatterns && OccursAt(req.url, p, i)
  {
    ContainsIffOccurs(req.url, "/api/");
    ContainsIffOccurs(req.url, "supabase");
    ContainsIffOccurs(req.url, "firebase");
    if exists p, i :: p in NetworkFirstPatterns && OccursAt(req.url, p, i) {
      var p, i :| p in NetworkFirstPatterns && OccursAt(req.url, p, i);
      assert p == "/api/" || p == "supabase" || p == "firebase";
    }
  }

  lemma RoutingExamples()
    ensures Classify(Request("POST", "https:", "https://aurora.app/home")) == PassThrough
    ensures Classify(Request("GET", "chrome-extension:", "chrome-extension://x/a.js")) == PassThrough
    ensures Classify(Request("GET", "https:", "https://a/api/x")) == NetworkFirst
  {
    assert "chrome-extension:"[..4] != "http" by { assert "chrome-extension:"[0] == 'c'; }
    var url := "https://a/api/x";
    assert OccursAt(url, "/api/", 9);
    ContainsIffOccurs(url, "/api/");
  }

  // ---------------------------------------------------------------------
  // Answering a request

  datatype Response = Response(status: int, isOpaque: bool, body: string)

  /** What the network does with a request. */
  datatype Network = Fetched(response: Response) | NetworkError

  type Caches = map<string, Response>

  /** How the page's request ends: left to the browser, answered with a
      response, or failed (the promise rejects or yields no response). */
  datatype Answer = Browser | Served(response: Response) | Failed

  datatype Step = Step(answer: Answer, caches: Caches)

  /** `fetchAndCache` keeps a response only if it is a 200 that is not
      opaque. */
  predicate ShouldStore(r: Response) {
    r.status == 200 && !r.isOpaque
  }

  /** The caches after `fetchAndCache(url)`: the response is put under its
      URL when it may be stored; a network error stores nothing. */
  function FetchAndCache(url: string, net: Network, caches: Caches): (r: Caches)
    ensures net.Fetched? && ShouldStore(net.response) ==> r == caches[url := net.response]
    ensures !(net.Fetched? && ShouldStore(net.response)) ==> r == caches
  {
    if net.Fetched? && ShouldStore(net.response) then caches[url := net.response] else caches
  }

  function Lookup(caches: Caches, url: string): Option<Response> {
    if url in caches then Some(caches[url]) else None
  }

  /** `cacheFirst`: a cached response is answered at once and refreshed in
      the background; otherwise the network's response is answered (and
      stored when it may be); if the network fails, the cached root page. */
  function CacheFirstStep(url: string, net: Network, caches: Caches, rootUrl: string): (s: Step)
    ensures url in caches ==> s.answer == Served(caches[url])
    ensures url !in caches && net.Fetched? ==> s.answer == Served(net.response)
    ensures url !in caches && net.NetworkError? ==>
      s.answer == (if rootUrl in caches then Served(caches[rootUrl]) else Failed)
    ensures s.caches == FetchAndCache(url, net, caches)
  {
    match Lookup(caches, url)
    case Some(cached) => Step(Served(cached), FetchAndCache(url, net, caches))
    case None =>
      match net
      case Fetched(r) => Step(Served(r), FetchAndCache(url, net, caches))
      case NetworkError =>
        match Lookup(caches, rootUrl)
        case Some(root) => Step(Served(root), caches)
        case None => Step(Failed, caches)
  }

  /** `networkFirst`: the network's response whatever its status; on a
      network error the cached response, else the error propagates. Nothing
      is stored. */
  function NetworkFirstStep(url: string, net: Network, caches: Caches): (s: Step)
    ensures s.caches == caches
    ensures net.Fetched? ==> s.answer == Served(net.response)
    ensures net.NetworkError? ==> (s.answer.Served? <==> url in caches)
    ensures s.answer.Served? && net.NetworkError? ==> s.answer.response == caches[url]
  {
    match net
    case Fetched(r) => Step(Served(r), caches)
    case NetworkError =>
      match Lookup(caches, url)
      case Some(cached) => Step(Served(cached), caches)
      case None => Step(Failed, caches)
  }

  /** The fetch handler. */
  function HandleFetch(req: Request, net: Network, caches: Caches, rootUrl: string): (s: Step)
    ensures s.answer == Browser <==> Classify(req) == PassThrough
    ensures Classify(req) != CacheFirst ==> s.caches == caches
    ensures forall u :: u in s.caches && u !in caches ==> u == req.url && Classify(req) == CacheFirst
  {
    match Classify(req)
    case PassThrough => Step(Browser, caches)
    case NetworkFirst => NetworkFirstStep(req.url, net, caches)
    case CacheFirst => CacheFirstStep(req.url, net, caches, rootUrl)
  }

  /** No cached response is for a network-first URL. */
  predicate NoNetworkFirstEntries(caches: Caches) {
    forall u :: u in caches ==> !AnyContains(u, NetworkFirstPatterns)
  }

  datatype Event = Event(req: Request, net: Network)

  /** The caches after handling `events` in order. */
  function Replay(events: seq<Event>, caches: Caches, rootUrl: string): (r: Caches)
    decreases |events|
  {
    if |events| == 0 then caches
    else Replay(events[1..], HandleFetch(events[0].req, events[0].net, caches, rootUrl).caches, rootUrl)
  }

  /** API and backend responses are never written to the cache, so a
      network-first request can only fall back to an entry that was there
      before: starting without such entries, none ever appears. */
  lemma {:induction false} NetworkFirstNeverCached(events: seq<Event>, caches: Caches, rootUrl: string)
    requires NoNetworkFirstEntries(caches)
    ensures NoNetworkFirstEntries(Replay(events, caches, rootUrl))
    decreases |events|
  {
    if |events| > 0 {
      var next := HandleFetch(events[0].req, events[0].net, caches, rootUrl).caches;
      forall u | u in next ensures !AnyContains(u, NetworkFirstPatterns) {
        if u !in caches {
          assert u == events[0].req.url && Classify(events[0].req) == CacheFirst;
        }
      }
      NetworkFirstNeverCached(events[1..], next, rootUrl);
    }
  }

  // ---------------------------------------------------------------------
  // Cache names

  /** The caches `activate` deletes: every `aurora-` cache other than the
      current static and dynamic ones. */
  function StaleCaches(names: seq<string>): (r: seq<string>)
    ensures forall n :: n in r <==> n in names && StartsWith(n, "aurora-") && n != StaticCache && n != DynamicCache
  {
    Filter((n: string) => StartsWith(n, "aurora-") && n != StaticCache && n != DynamicCache, names)
  }

  /** The caches `CLEAR_CACHE` deletes: every `aurora-` cache. */
  function ClearedCaches(names: seq<string>): (r: seq<string>)
    ensures forall n :: n in r <==> n in names && StartsWith(n, "aurora-")
  {
    Filter((n: string) => StartsWith(n, "aurora-"), names)
  }

  /** The names left after deleting `deleted`. */
  function Remaining(names: seq<string>, deleted: seq<string>): (r: seq<string>)
    ensures forall n :: n in r <==> n in names && n !in deleted
  {
    Filter((n: string) => n !in deleted, names)
  }

  /** After activation the only `aurora-` caches left are the current
      static and dynamic ones, every other cache is untouched, and the
      legacy cache of this version is gone. */
  lemma ActivateLeavesCurrent(names: seq<string>)
    ensures var left := Remaining(names, StaleCaches(names));
      && (forall n :: n in left && StartsWith(n, "aurora-") ==> n == StaticCache || n == DynamicCache)
      && (forall n :: n in names && !StartsWith(n, "aurora-") ==> n in left)
      && (StaticCache in names ==> StaticCache in left)
      && (DynamicCache in names ==> DynamicCache in left)
      && LegacyCache !in left
  {
    assert StartsWith(LegacyCache, "aurora-");
    assert LegacyCache != StaticCache && LegacyCache != DynamicCache by {
      assert LegacyCache[7] == 'c' && StaticCache[7] == 's' && DynamicCache[7] == 'd';
    }
  }

  /** `CLEAR_CACHE` deletes everything activation deletes, and the current
      caches besides. */
  lemma ClearIncludesStale(names: seq<string>)
    ensures forall n :: n in StaleCaches(names) ==> n in ClearedCaches(names)
    ensures forall n :: n in Remaining(names, ClearedCaches(names)) ==> !StartsWith(n, "aurora-")
    ensures StaticCache in names ==> StaticCache in ClearedCaches(names)
  {
    assert StartsWith(StaticCache, "aurora-");
  }
}

=== FILE: sorting.dfy ===
/** The two orders the handlers ask for: `Array.prototype.sort()` on genre
    names, and "newest first" on a timestamp column. Both are insertion
    sorts on sequences, specified by sortedness and permutation. */
module Sorting {
  import opened Base
  import opened Text

  predicate SortedLex(s: seq<string>) {
    forall i, j :: 0 <= i < j < |s| ==> LexLe(s[i], s[j])
  }

  predicate StrictlySortedLex(s: seq<string>) {
    forall i, j :: 0 <= i < j < |s| ==> LexLt(s[i], s[j])
  }

  function InsertLex(s: seq<string>, x: string): (r: seq<string>)
    requires SortedLex(s)
    ensures multiset(r) == multiset(s) + multiset{x}
    ensures SortedLex(r)
    ensures StrictlySortedLex(s) && x !in s ==> StrictlySortedLex(r)
  {
    if |s| == 0 then [x]
    else if LexLe(x, s[0]) then
      InsertFrontSorted(s, x);
      [x] + s
    else
      var r' := InsertLex(s[1..], x);
      InsertLaterSorted(s, x, r');
      assert s == [s[0]] + s[1..];
      [s[0]] + r'
  }

  lemma InsertFrontSorted(s: seq<string>, x: string)
    requires SortedLex(s) && |s| > 0 && LexLe(x, s[0])
    ensures SortedLex([x] + s)
    ensures StrictlySortedLex(s) && x !in s ==> StrictlySortedLex([x] + s)
  {
    var r := [x] + s;
    forall i, j | 0 <= i < j < |r|
      ensures LexLe(r[i], r[j])
      ensures StrictlySortedLex(s) && x !in s ==> LexLt(r[i], r[j])
    {
      if i == 0 && j > 1 {
        LexLeTransitive(x, s[0], s[j - 1]);
        assert r[j] == s[j - 1];
      }
    }
  }

  lemma InsertLaterSorted(s: seq<string>, x: string, r': seq<string>)
    requires SortedLex(s) && |s| > 0 && !LexLe(x, s[0])
    requires multiset(r') == multiset(s[1..]) + multiset{x}
    requires SortedLex(r')
    requires StrictlySortedLex(s[1..]) && x !in s[1..] ==> StrictlySortedLex(r')
    ensures SortedLex([s[0]] + r')
    ensures StrictlySortedLex(s) && x !in s ==> StrictlySortedLex([s[0]] + r')
  {
    LexLeTotal(x, s[0]);
    var r := [s[0]] + r';
    forall i, j | 0 <= i < j < |r|
      ensures LexLe(r[i], r[j])
      ensures StrictlySortedLex(s) && x !in s ==> LexLt(r[i], r[j])
    {
      if i == 0 {
        var y := r'[j - 1];
        assert y in multiset(r');
        assert y == x || y in s[1..];
        if y != x {
          var k :| 0 <= k < |s[1..]| && s[1..][k] == y;
          assert s[k + 1] == y;
        }
      }
    }
    if StrictlySortedLex(s) && x !in s {
      assert StrictlySortedLex(s[1..]) by {
        forall i, j | 0 <= i < j < |s[1..]| ensures LexLt(s[1..][i], s[1..][j]) {
          assert s[1..][i] == s[i + 1] && s[1..][j] == s[j + 1];
        }
      }
    }
  }

  /** `Array.from(set).sort()`: the same strings in ascending order, with no
      two equal neighbours when the input had no duplicates. */
  function SortLex(xs: seq<string>): (r: seq<string>)
    ensures multiset(r) == multiset(xs)
    ensures SortedLex(r)
    ensures NoDuplicates(xs) ==> StrictlySortedLex(r)
  {
    if |xs| == 0 then []
    else
      var rest := SortLex(xs[1..]);
      assert xs == [xs[0]] + xs[1..];
      NoDuplicatesTail(xs);
      assert xs[0] in rest <==> xs[0] in multiset(xs[1..]);
      InsertLex(rest, xs[0])
  }

  lemma NoDuplicatesTail<T>(xs: seq<T>)
    requires |xs| > 0
    ensures NoDuplicates(xs) ==> xs[0] !in xs[1..] && NoDuplicates(xs[1..])
  {
    if NoDuplicates(xs) {
      forall k | 0 <= k < |xs[1..]| ensures xs[1..][k] != xs[0] {
        assert xs[1..][k] == xs[k + 1];
      }
      forall i, j | 0 <= i < j < |xs[1..]| ensures xs[1..][i] != xs[1..][j] {
        assert xs[1..][i] == xs[i + 1] && xs[1..][j] == xs[j + 1];
      }
    }
  }

  // ---------------------------------------------------------------------
  // Newest first

  predicate SortedDesc<T>(s: seq<T>, key: T -> int) {
    forall i, j :: 0 <= i < j < |s| ==> key(s[i]) >= key(s[j])
  }

  function InsertDesc<T(==)>(s: seq<T>, x: T, key: T -> int): (r: seq<T>)
    requires SortedDesc(s, key)
    ensures multiset(r) == multiset(s) + multiset{x}
    ensures SortedDesc(r, key)
  {
    if |s| == 0 then [x]
    else if key(x) >= key(s[0]) then [x] + s
    else
      var r' := InsertDesc(s[1..], x, key);
      assert s == [s[0]] + s[1..];
      HeadDominates(s, x, key, r');
      [s[0]] + r'
  }

  lemma HeadDominates<T>(s: seq<T>, x: T, key: T -> int, r: seq<T>)
    requires |s| > 0 && SortedDesc(s, key) && key(x) < key(s[0])
    requires multiset(r) == multiset(s[1..]) + multiset{x}
    ensures forall k :: 0 <= k < |r| ==> key(s[0]) >= key(r[k])
  {
    forall k | 0 <= k < |r| ensures key(s[0]) >= key(r[k]) {
      assert r[k] in multiset(r);
      if r[k] != x {
        assert r[k] in multiset(s[1..]);
        var j :| 0 <= j < |s[1..]| && s[1..][j] == r[k];
        assert s[j + 1] == r[k];
      }
    }
  }

  /** A `.limit(n)` of a reordering takes rows of the original. */
  lemma TakeOfPermutation<T>(s: seq<T>, t: seq<T>, n: int)
    requires multiset(s) == multiset(t)
    ensures forall i :: 0 <= i < |Take(s, n)| ==> Take(s, n)[i] in t
  {
    forall i | 0 <= i < |Take(s, n)| ensures Take(s, n)[i] in t {
      assert s[i] in multiset(s);
    }
  }

  /** A `.limit(n)` of a list sorted largest key first keeps the `n`
      largest: the rows it keeps are rows of the original, and every row it
      leaves out has a key no larger than any row it keeps. */
  lemma TakeSortedIsTop<T>(s: seq<T>, t: seq<T>, n: int, key: T -> int)
    requires multiset(s) == multiset(t) && SortedDesc(s, key)
    ensures multiset(Take(s, n)) <= multiset(t)
    ensures forall x, y :: x in multiset(t) - multiset(Take(s, n)) && y in Take(s, n) ==> key(x) <= key(y)
  {
    var r := Take(s, n);
    var k := |r|;
    assert r == s[..k];
    assert s == r + s[k..];
    assert multiset(s) == multiset(r) + multiset(s[k..]);
    forall x, y | x in multiset(t) - multiset(r) && y in r ensures key(x) <= key(y) {
      assert x in multiset(s[k..]);
      var i :| 0 <= i < |s[k..]| && s[k..][i] == x;
      var j :| 0 <= j < |r| && r[j] == y;
      assert s[k + i] == x && s[j] == y;
    }
  }

  /** `.order(column, { ascending: false })`: a permutation, largest key
      first. */
  function SortDesc<T(==)>(xs: seq<T>, key: T -> int): (r: seq<T>)
    ensures multiset(r) == multiset(xs)
    ensures SortedDesc(r, key)
  {
    if |xs| == 0 then []
    else
      assert xs == [xs[0]] + xs[1..];
      InsertDesc(SortDesc(xs[1..], key), xs[0], key)
  }
}

=== FILE: stats.dfy ===
/** User statistics (app/api/user-stats/route.ts): one pass over the user's
    history rows joined with their content, counting distinct contents
    watched past 10% by kind, and summing watched minutes. */
module Stats {
  import opened Base
  import opened Db

  /** A history row with the `tipo` of its joined content; `None` when the
      join found no content. */
  datatype Joined = Joined(history: WatchHistory, content: Option<Kind>)

  datatype UserStats = UserStats(moviesWatched: nat, seriesWatched: nat, totalHours: int, savedContent: nat)

  predicate HasContent(j: Joined) {
    j.content.Some?
  }

  /** A row that counts its content as watched. */
  predicate Qualifies(j: Joined) {
    j.content.Some? && j.history.progressPercent > 10
  }

  predicate IsMovieRow(j: Joined) {
    j.content == Some(Filme)
  }

  predicate IsSeriesRow(j: Joined) {
    j.content == Some(Serie)
  }

  /** The content ids some qualifying row of `rows` names. */
  function CountedIds(rows: seq<Joined>): set<string> {
    set k | 0 <= k < |rows| && Qualifies(rows[k]) :: rows[k].history.contentId
  }

  /** The qualifying rows whose content id no earlier qualifying row named. */
  function CountedRows(rows: seq<Joined>): seq<Joined> {
    if |rows| == 0 then []
    else
      var prefix := rows[..|rows| - 1];
      var j := rows[|rows| - 1];
      CountedRows(prefix) + (if Qualifies(j) && j.history.contentId !in CountedIds(prefix) then [j] else [])
  }

  /** The minutes one row adds: `duration * (progress / 100) / 60`. */
  function RowMinutes(j: Joined): real {
    j.history.duration as real * (j.history.progressPercent as real / 100.0) / 60.0
  }

  /** Watched minutes summed over every row that has content, whatever its
      progress. */
  function TotalMinutes(rows: seq<Joined>): real {
    if |rows| == 0 then 0.0
    else
      var j := rows[|rows| - 1];
      TotalMinutes(rows[..|rows| - 1]) + (if HasContent(j) then RowMinutes(j) else 0.0)
  }

  /** `Math.round` over exact rationals: the nearest integer, halves up. */
  function RoundHalfUp(x: real): (n: int)
    ensures n as real - 0.5 <= x < n as real + 0.5
  {
    (x + 0.5).Floor
  }

  /** The GET handler. `history` is the joined query's rows, `historyFails`
      its failure; `watchlist` is the number of watchlist rows, `None` when
      that query failed, which is not an error. */
  method GetUserStats(userId: Option<string>, history: seq<Joined>, historyFails: bool, watchlist: Option<nat>)
    returns (r: Response<UserStats>)
    ensures !Present(userId) ==> r == Error(BadRequest)
    ensures Present(userId) && historyFails ==> r == Error(ServerError)
    ensures Present(userId) && !historyFails ==> r.Ok?
    ensures r.Ok? ==>
      && r.body.moviesWatched == Count(IsMovieRow, CountedRows(history))
      && r.body.seriesWatched == Count(IsSeriesRow, CountedRows(history))
      && r.body.totalHours == RoundHalfUp(TotalMinutes(history) / 60.0)
      && r.body.savedContent == watchlist.GetOr(0)
  {
    if !Present(userId) {
      return Error(BadRequest);
    }
    if historyFails {
      return Error(ServerError);
    }
    var movies: nat := 0;
    var series: nat := 0;
    var minutes: real := 0.0;
    var seen: set<string> := {};
    for i := 0 to |history|
      invariant seen == CountedIds(history[..i])
      invariant movies == Count(IsMovieRow, CountedRows(history[..i]))
      invariant series == Count(IsSeriesRow, CountedRows(history[..i]))
      invariant minutes == TotalMinutes(history[..i])
    {
      StatsStep(history, i);
      seen, movies, series, minutes := Visit(history[i], seen, movies, series, minutes);
    }
    assert history[..|history|] == history;
    return Ok(UserStats(movies, series, RoundHalfUp(minutes / 60.0), watchlist.GetOr(0)));
  }

  /** The loop body: a row with content adds its minutes; it is counted
      once its progress passes 10% and its content id is new. */
  method Visit(j: Joined, seen: set<string>, movies: nat, series: nat, minutes: real)
    returns (seen': set<string>, movies': nat, series': nat, minutes': real)
    ensures seen' == seen + (if Qualifies(j) then {j.history.contentId} else {})
    ensures movies' == movies + (if Qualifies(j) && j.history.contentId !in seen && IsMovieRow(j) then 1 else 0)
    ensures series' == series + (if Qualifies(j) && j.history.contentId !in seen && IsSeriesRow(j) then 1 else 0)
    ensures minutes' == minutes + (if HasContent(j) then RowMinutes(j) else 0.0)
  {
    seen', movies', series', minutes' := seen, movies, series, minutes;
    if j.content.Some? {
      if j.history.progressPercent > 10 && j.history.contentId !in seen {
        seen' := seen + {j.history.contentId};
        if j.content.value == Filme {
          movies' := movies + 1;
        } else if j.content.value == Serie {
          series' := series + 1;
        }
      }
      minutes' := minutes + RowMinutes(j);
    }
  }

  /** What one row adds to each quantity the handler accumulates. */
  lemma StatsStep(rows: seq<Joined>, i: nat)
    requires i < |rows|
    ensures var j := rows[i];
      var counted := Qualifies(j) && j.history.contentId !in CountedIds(rows[..i]);
      && CountedIds(rows[..i + 1]) == CountedIds(rows[..i]) + (if Qualifies(j) then {j.history.contentId} else {})
      && Count(IsMovieRow, CountedRows(rows[..i + 1])) == Count(IsMovieRow, CountedRows(rows[..i])) + (if counted && IsMovieRow(j) then 1 else 0)
      && Count(IsSeriesRow, CountedRows(rows[..i + 1])) == Count(IsSeriesRow, CountedRows(rows[..i])) + (if counted && IsSeriesRow(j) then 1 else 0)
      && TotalMinutes(rows[..i + 1]) == TotalMinutes(rows[..i]) + (if HasContent(j) then RowMinutes(j) else 0.0)
  {
    var j := rows[i];
    CountedRowsSnoc(rows, i);
    CountedIdsSnoc(rows[..i], j);
    assert rows[..i] + [j] == rows[..i + 1];
    var c := CountedRows(rows[..i]);
    CountSnoc(IsMovieRow, c, j);
    CountSnoc(IsSeriesRow, c, j);
    assert c + [] == c;
  }

  lemma CountedRowsSnoc(rows: seq<Joined>, i: nat)
    requires i < |rows|
    ensures CountedRows(rows[..i + 1]) == CountedRows(rows[..i])
      + (if Qualifies(rows[i]) && rows[i].history.contentId !in CountedIds(rows[..i]) then [rows[i]] else [])
    ensures TotalMinutes(rows[..i + 1]) == TotalMinutes(rows[..i]) + (if HasContent(rows[i]) then RowMinutes(rows[i]) else 0.0)
  {
    assert rows[..i + 1][..i] == rows[..i];
  }

  lemma CountedIdsSnoc(rows: seq<Joined>, j: Joined)
    ensures CountedIds(rows + [j]) == CountedIds(rows) + (if Qualifies(j) then {j.history.contentId} else {})
  {
    var rj := rows + [j];
    assert forall k :: 0 <= k < |rows| ==> rj[k] == rows[k];
    assert rj[|rows|] == j;
  }

  lemma {:induction false} CountSnoc<T>(p: T -> bool, s: seq<T>, x: T)
    ensures Count(p, s + [x]) == Count(p, s) + (if p(x) then 1 else 0)
  {
    if |s| > 0 {
      assert (s + [x])[1..] == s[1..] + [x];
      CountSnoc(p, s[1..], x);
    }
  }

  // ---------------------------------------------------------------------
  // What the counts mean

  /** A counted content is a movie, a series, or neither, so the two counts
      together never exceed the number of contents counted. */
  lemma MoviesPlusSeriesBounded(rows: seq<Joined>)
    ensures Count(IsMovieRow, CountedRows(rows)) + Count(IsSeriesRow, CountedRows(rows)) <= |CountedRows(rows)|
  {
    DisjointCounts(CountedRows(rows));
  }

  lemma {:induction false} DisjointCounts(s: seq<Joined>)
    ensures Count(IsMovieRow, s) + Count(IsSeriesRow, s) <= |s|
  {
    if |s| > 0 {
      DisjointCounts(s[1..]);
    }
  }

  /** Counted rows are qualifying rows of the input. */
  lemma CountedRowsFromInput(rows: seq<Joined>)
    ensures forall k :: 0 <= k < |CountedRows(rows)| ==> CountedRows(rows)[k] in rows && Qualifies(CountedRows(rows)[k])
  {
    forall k | 0 <= k < |CountedRows(rows)| ensures CountedRows(rows)[k] in rows && Qualifies(CountedRows(rows)[k]) {
      CountedRowFromInput(rows, k);
    }
  }

  /** No content id is counted twice. */
  lemma {:induction false} CountedIdsDistinct(rows: seq<Joined>)
    ensures forall a, b :: 0 <= a < b < |CountedRows(rows)| ==>
      CountedRows(rows)[a].history.contentId != CountedRows(rows)[b].history.contentId
  {
    if |rows| > 0 {
      var prefix := rows[..|rows| - 1];
      CountedIdsDistinct(prefix);
      CountedIdsCovered(prefix);
      var cp := CountedRows(prefix);
      var c := CountedRows(rows);
      forall a, b | 0 <= a < b < |c| ensures c[a].history.contentId != c[b].history.contentId {
        assert c[a] == cp[a];
        if b < |cp| {
          assert c[b] == cp[b];
        }
      }
    }
  }

  /** Every content id a qualifying row names is counted. */
  lemma {:induction false} EveryQualifyingCounted(rows: seq<Joined>, k: nat)
    requires k < |rows| && Qualifies(rows[k])
    ensures exists m :: 0 <= m < |CountedRows(rows)| && CountedRows(rows)[m].history.contentId == rows[k].history.contentId
  {
    var prefix := rows[..|rows| - 1];
    var j := rows[|rows| - 1];
    var cp := CountedRows(prefix);
    var c := CountedRows(rows);
    if k < |rows| - 1 {
      assert prefix[k] == rows[k];
      EveryQualifyingCounted(prefix, k);
      var m :| 0 <= m < |cp| && cp[m].history.contentId == prefix[k].history.contentId;
      assert c[m] == cp[m];
    } else if j.history.contentId in CountedIds(prefix) {
      var q :| 0 <= q < |prefix| && Qualifies(prefix[q]) && prefix[q].history.contentId == j.history.contentId;
      EveryQualifyingCounted(prefix, q);
      var m :| 0 <= m < |cp| && cp[m].history.contentId == prefix[q].history.contentId;
      assert c[m] == cp[m];
    } else {
      assert c[|c| - 1] == j;
    }
  }

  /** The ids of the counted rows are exactly the ids some earlier qualifying
      row named. */
  lemma CountedIdsCovered(rows: seq<Joined>)
    ensures forall k :: 0 <= k < |CountedRows(rows)| ==> CountedRows(rows)[k].history.contentId in CountedIds(rows)
  {
    forall k | 0 <= k < |CountedRows(rows)| ensures CountedRows(rows)[k].history.contentId in CountedIds(rows) {
      CountedRowFromInput(rows, k);
    }
  }

  lemma {:induction false} CountedRowFromInput(rows: seq<Joined>, k: nat)
    requires k < |CountedRows(rows)|
    ensures exists q :: 0 <= q < |rows| && Qualifies(rows[q]) && rows[q] == CountedRows(rows)[k]
  {
    var prefix := rows[..|rows| - 1];
    var cp := CountedRows(prefix);
    if k < |cp| {
      CountedRowFromInput(prefix, k);
      var q :| 0 <= q < |prefix| && Qualifies(prefix[q]) && prefix[q] == cp[k];
      assert rows[q] == prefix[q];
    } else {
      assert CountedRows(rows)[k] == rows[|rows| - 1];
    }
  }

  /** Rows without joined content change neither the counts nor the minutes. */
  lemma {:induction false} RowsWithoutContentIgnored(rows: seq<Joined>)
    ensures CountedRows(Filter(HasContent, rows)) == CountedRows(rows)
    ensures CountedIds(Filter(HasContent, rows)) == CountedIds(rows)
    ensures TotalMinutes(Filter(HasContent, rows)) == TotalMinutes(rows)
  {
    if |rows| > 0 {
      var prefix := rows[..|rows| - 1];
      var j := rows[|rows| - 1];
      RowsWithoutContentIgnored(prefix);
      var fp := Filter(HasContent, prefix);
      assert rows == prefix + [j];
      if HasContent(j) {
        assert Filter(HasContent, rows) == fp + [j];
        assert (fp + [j])[..|fp|] == fp;
        CountedIdsSnoc(fp, j);
      } else {
        assert Filter(HasContent, rows) == fp;
      }
      CountedIdsSnoc(prefix, j);
    }
  }

  /** Two full viewings of the same 90-minute movie count one movie, while
      both add to the time watched: 180 minutes, 3 hours. */
  lemma StatsExample(h: WatchHistory)
    requires h.duration == 5400 && h.progressPercent == 100
    ensures var rows := [Joined(h, Some(Filme)), Joined(h, Some(Filme))];
      && Count(IsMovieRow, CountedRows(rows)) == 1
      && Count(IsSeriesRow, CountedRows(rows)) == 0
      && RoundHalfUp(TotalMinutes(rows) / 60.0) == 3
  {
    var j := Joined(h, Some(Filme));
    var rows := [j, j];
    assert rows[..1] == [j];
    assert rows[..1][..0] == [];
    CountedIdsSnoc([], j);
    assert [] + [j] == [j];
    assert CountedIds(rows[..1]) == {h.contentId};
    assert CountedRows(rows[..1]) == [Joined(h, Some(Filme))];
    assert CountedRows(rows) == [Joined(h, Some(Filme))];
    assert TotalMinutes(rows[..1]) == 90.0;
    assert TotalMinutes(rows) == 180.0;
  }
}

=== FILE: text.dfy ===
/** String operations the handlers and components rely on, with JavaScript's
    meaning: prefix and substring tests, the order used by
    `Array.prototype.sort` (compared character by character, which is its
    UTF-16 code-unit order for text inside the Basic Multilingual Plane),
    `String.prototype.trim`, ASCII case folding, and decimal rendering of
    integers as template literals print them. */
module Text {
  import opened Base

  // ---------------------------------------------------------------------
  // Prefix and substring tests

  /** `s.startsWith(p)` */
  predicate StartsWith(s: string, p: string) {
    |p| <= |s| && s[..|p|] == p
  }

  /** `s.endsWith(p)` */
  predicate EndsWith(s: string, p: string) {
    |p| <= |s| && s[|s| - |p|..] == p
  }

  /** `s.includes(p)`, scanning left to right. */
  predicate Contains(s: string, p: string)
    decreases |s|
  {
    StartsWith(s, p) || (|s| > 0 && Contains(s[1..], p))
  }

  /** `p` occurs in `s` starting at index `i`. */
  predicate OccursAt(s: string, p: string, i: int) {
    0 <= i <= |s| - |p| && s[i..i + |p|] == p
  }

  /** `Contains` finds exactly the occurrences at some position. */
  lemma {:induction false} ContainsIffOccurs(s: string, p: string)
    ensures Contains(s, p) <==> exists i :: OccursAt(s, p, i)
    decreases |s|
  {
    if StartsWith(s, p) {
      assert OccursAt(s, p, 0);
    } else if |s| == 0 {
      assert forall i :: !OccursAt(s, p, i);
    } else {
      ContainsIffOccurs(s[1..], p);
      if exists i :: OccursAt(s, p, i) {
        var i :| OccursAt(s, p, i);
        assert i != 0;
        assert s[1..][i - 1..i - 1 + |p|] == s[i..i + |p|];
        assert OccursAt(s[1..], p, i - 1);
      }
      if Contains(s[1..], p) {
        var j :| OccursAt(s[1..], p, j);
        assert s[1..][j..j + |p|] == s[j + 1..j + 1 + |p|];
        assert OccursAt(s, p, j + 1);
      }
    }
  }

  // ---------------------------------------------------------------------
  // The order of `Array.prototype.sort()` on strings

  /** `a` sorts no later than `b`: lexicographic comparison of characters,
      a proper prefix first. */
  predicate LexLe(a: string, b: string)
    decreases |a|
  {
    |a| == 0 || (|b| > 0 && (a[0] < b[0] || (a[0] == b[0] && LexLe(a[1..], b[1..]))))
  }

  predicate LexLt(a: string, b: string) {
    LexLe(a, b) && a != b
  }

  lemma {:induction false} LexLeReflexive(a: string)
    ensures LexLe(a, a)
    decreases |a|
  {
    if |a| > 0 {
      LexLeReflexive(a[1..]);
    }
  }

  lemma {:induction false} LexLeTotal(a: string, b: string)
    ensures LexLe(a, b) || LexLe(b, a)
    decreases |a|
  {
    if |a| > 0 && |b| > 0 && a[0] == b[0] {
      LexLeTotal(a[1..], b[1..]);
    }
  }

  lemma {:induction false} LexLeAntisymmetric(a: string, b: string)
    requires LexLe(a, b) && LexLe(b, a)
    ensures a == b
    decreases |a|
  {
    if |a| > 0 {
      LexLeAntisymmetric(a[1..], b[1..]);
      assert a == [a[0]] + a[1..];
      assert b == [b[0]] + b[1..];
    }
  }

  lemma {:induction false} LexLeTransitive(a: string, b: string, c: string)
    requires LexLe(a, b) && LexLe(b, c)
    ensures LexLe(a, c)
    decreases |a|
  {
    if |a| > 0 && a[0] == b[0] && b[0] == c[0] {
      LexLeTransitive(a[1..], b[1..], c[1..]);
    }
  }

  // ---------------------------------------------------------------------
  // `String.prototype.trim`

  /** The characters `trim` removes: ECMAScript WhiteSpace and LineTerminator. */
  predicate IsJsSpace(c: char) {
    || c == ' ' || c == '\t' || c == '\n' || c == '\r'
    || c == '\U{000B}' || c == '\U{000C}' || c == '\U{00A0}' || c == '\U{1680}'
    || ('\U{2000}' <= c <= '\U{200A}')
    || c == '\U{2028}' || c == '\U{2029}' || c == '\U{202F}' || c == '\U{205F}'
    || c == '\U{3000}' || c == '\U{FEFF}'
  }

  function TrimStart(s: string): (r: string)
    ensures |r| <= |s| && r == s[|s| - |r|..]
    ensures |r| > 0 ==> !IsJsSpace(r[0])
    ensures forall i :: 0 <= i < |s| - |r| ==> IsJsSpace(s[i])
  {
    if |s| > 0 && IsJsSpace(s[0]) then TrimStart(s[1..]) else s
  }

  function TrimEnd(s: string): (r: string)
    ensures |r| <= |s| && r == s[..|r|]
    ensures |r| > 0 ==> !IsJsSpace(r[|r| - 1])
    ensures forall i :: |r| <= i < |s| ==> IsJsSpace(s[i])
  {
    if |s| > 0 && IsJsSpace(s[|s| - 1]) then TrimEnd(s[..|s| - 1]) else s
  }

  /** `s.trim()`: the longest slice of `s` that neither starts nor ends with
      white space; everything cut off is white space. */
  function Trim(s: string): (r: string)
    ensures |r| <= |s|
    ensures exists k :: OccursAt(s, r, k)
    ensures |r| > 0 ==> !IsJsSpace(r[0]) && !IsJsSpace(r[|r| - 1])
    ensures |r| == 0 <==> forall i :: 0 <= i < |s| ==> IsJsSpace(s[i])
  {
    var a := TrimStart(s);
    var r := TrimEnd(a);
    TrimParts(s, a, r);
    r
  }

  /** Cutting white space off both ends leaves a slice of `s`, and nothing
      at all only when `s` was all white space. */
  lemma TrimParts(s: string, a: string, r: string)
    requires |a| <= |s| && a == s[|s| - |a|..]
    requires forall i :: 0 <= i < |s| - |a| ==> IsJsSpace(s[i])
    requires |r| <= |a| && r == a[..|r|]
    requires forall i :: |r| <= i < |a| ==> IsJsSpace(a[i])
    ensures OccursAt(s, r, |s| - |a|)
    ensures |r| == 0 ==> forall i :: 0 <= i < |s| ==> IsJsSpace(s[i])
  {
    var k := |s| - |a|;
    assert s[k..k + |r|] == a[..|r|];
    if |r| == 0 {
      forall i | 0 <= i < |s|
        ensures IsJsSpace(s[i])
      {
        if i >= k {
          assert s[i] == a[i - k];
        }
      }
    }
  }

  // ---------------------------------------------------------------------
  // Case folding used for case-insensitive name comparison

  function LowerChar(c: char): char {
    if 'A' <= c <= 'Z' then (c as int + 32) as char else c
  }

  function Lower(s: string): (r: string)
    ensures |r| == |s|
    ensures forall i :: 0 <= i < |s| ==> r[i] == LowerChar(s[i])
  {
    seq(|s|, i requires 0 <= i < |s| => LowerChar(s[i]))
  }

  predicate EqualsIgnoringCase(a: string, b: string) {
    Lower(a) == Lower(b)
  }

  // ---------------------------------------------------------------------
  // Decimal numerals, as `${n}` renders an integer

  predicate IsDigit(c: char) {
    '0' <= c <= '9'
  }

  predicate AllDigits(s: string) {
    forall i :: 0 <= i < |s| ==> IsDigit(s[i])
  }

  function DigitChar(d: nat): (c: char)
    requires d < 10
    ensures IsDigit(c)
  {
    ('0' as int + d) as char
  }

  function DigitValue(c: char): (d: nat)
    requires IsDigit(c)
    ensures d < 10
  {
    c as int - '0' as int
  }

  /** The numeral's value, read most significant digit first. */
  function DigitsValue(s: string): nat
    requires AllDigits(s)
  {
    if |s| == 0 then 0 else DigitsValue(s[..|s| - 1]) * 10 + DigitValue(s[|s| - 1])
  }

  function NatToString(n: nat): (s: string)
    ensures |s| > 0 && AllDigits(s)
  {
    if n < 10 then [DigitChar(n)] else NatToString(n / 10) + [DigitChar(n % 10)]
  }

  function IntToString(i: int): (s: string)
    ensures |s| > 0
  {
    if i < 0 then "-" + NatToString(-i) else NatToString(i)
  }

  /** Reading the numeral back gives the number it was rendered from. */
  lemma {:induction false} NatToStringValue(n: nat)
    ensures DigitsValue(NatToString(n)) == n
  {
    if n >= 10 {
      NatToStringValue(n / 10);
      var s := NatToString(n);
      assert s[..|s| - 1] == NatToString(n / 10);
    }
  }

  /** Length of the run of digits that starts `s`. */
  function DigitRun(s: string): (k: nat)
    ensures k <= |s| && AllDigits(s[..k])
    ensures k < |s| ==> !IsDigit(s[k])
  {
    if |s| > 0 && IsDigit(s[0]) then
      var k := 1 + DigitRun(s[1..]);
      assert s[..k] == [s[0]] + s[1..][..k - 1];
      k
    else 0
  }

  /** Reads a non-negative decimal numeral at the start of `s`; returns its
      value and what follows it. */
  function ParseNat(s: string): (r: Option<(nat, string)>)
    ensures r.Some? ==> |r.value.1| < |s|
  {
    var k := DigitRun(s);
    if k == 0 then None else Some((DigitsValue(s[..k]), s[k..]))
  }

  lemma {:induction false} DigitRunOfNumeral(ds: string, rest: string)
    requires AllDigits(ds)
    requires |rest| == 0 || !IsDigit(rest[0])
    ensures DigitRun(ds + rest) == |ds|
    decreases |ds|
  {
    if |ds| > 0 {
      assert (ds + rest)[1..] == ds[1..] + rest;
      DigitRunOfNumeral(ds[1..], rest);
    }
  }

  /** Parsing a rendered number followed by a non-digit gives the number
      back and leaves the rest untouched. */
  lemma ParseNatRoundTrip(n: nat, rest: string)
    requires |rest| == 0 || !IsDigit(rest[0])
    ensures ParseNat(NatToString(n) + rest) == Some((n, rest))
  {
    var s := NatToString(n) + rest;
    DigitRunOfNumeral(NatToString(n), rest);
    assert s[..|NatToString(n)|] == NatToString(n);
    assert s[|NatToString(n)|..] == rest;
    NatToStringValue(n);
  }

  // ---------------------------------------------------------------------
  // `parseInt` in base ten

  /** `parseInt(s)`: leading white space skipped, an optional sign, then the
      longest run of decimal digits; `None` stands for NaN (no digit at all). */
  function ParseIntJs(s: string): (r: Option<int>)
    ensures r.None? <==> DigitRun(Unsigned(TrimStart(s))) == 0
  {
    var t := TrimStart(s);
    match ParseNat(Unsigned(t))
    case None => None
    case Some((n, _)) =>
      var v: int := if |t| > 0 && t[0] == '-' then 0 - n as int else n;
      Some(v)
  }

  /** `t` without its leading sign, if it has one. */
  function Unsigned(t: string): (u: string)
    ensures |u| <= |t|
  {
    if |t| > 0 && (t[0] == '-' || t[0] == '+') then t[1..] else t
  }

  /** Reading back a rendered integer gives that integer. */
  lemma ParseIntRoundTrip(i: int)
    ensures ParseIntJs(IntToString(i)) == Some(i)
  {
    var n := if i < 0 then -i else i;
    RenderedIntParts(i);
    ParseNatRoundTrip(n, "");
    assert NatToString(n) + "" == NatToString(n);
  }

  /** A rendered integer has no leading white space, and without its sign
      it is the numeral of its magnitude. */
  lemma RenderedIntParts(i: int)
    ensures TrimStart(IntToString(i)) == IntToString(i)
    ensures Unsigned(IntToString(i)) == NatToString(if i < 0 then -i else i)
    ensures |IntToString(i)| > 0 && (IntToString(i)[0] == '-' <==> i < 0)
  {
    var s := IntToString(i);
    assert !IsJsSpace(s[0]);
    if i >= 0 {
      assert IsDigit(s[0]);
    }
  }
}

=== FILE: users.dfy ===
/** Signing in (app/api/auth/sync-user/route.ts): the user row of a
    Firebase account is created on first sign-in and refreshed afterwards;
    a new user also gets a preferences row. */
module Users {
  import opened Base
  import opened Db

  /** An optional body field: left out of the JSON, sent as null, or given.
      An update leaves a column alone when its field is left out; an insert
      stores null for it. */
  datatype Field = Absent | Null | Given(s: string)

  /** The body of a sync. */
  datatype Profile = Profile(firebaseUid: Option<string>, email: Option<string>,
                             displayName: Field, photoUrl: Field)

  /** The column value an update writes, given the column's current value. */
  function Updated(f: Field, current: Option<string>): (r: Option<string>)
    ensures f.Absent? ==> r == current
    ensures f.Null? ==> r.None?
    ensures f.Given? ==> r == Some(f.s)
  {
    match f
    case Absent => current
    case Null => None
    case Given(s) => Some(s)
  }

  /** The column value an insert writes. */
  function Inserted(f: Field): (r: Option<string>)
    ensures r == Updated(f, None)
  {
    if f.Given? then Some(f.s) else None
  }

  /** A row after a sign-in: the profile's email, name and photo and the
      sign-in time; id and uid are kept. */
  function Apply(u: User, email: string, p: Profile, now: int): (r: User)
    ensures r.id == u.id && r.firebaseUid == u.firebaseUid && r.email == email && r.lastLogin == Some(now)
    ensures r.displayName == Updated(p.displayName, u.displayName)
    ensures r.photoUrl == Updated(p.photoUrl, u.photoUrl)
  {
    u.(email := email, displayName := Updated(p.displayName, u.displayName),
       photoUrl := Updated(p.photoUrl, u.photoUrl), lastLogin := Some(now))
  }

  /** What the handler may touch: the users table and the user ids that
      have a preferences row. */
  datatype Accounts = Accounts(users: seq<User>, preferences: seq<string>)

  /** The store's part in a sync: a lookup failure other than "no single
      row", an update or insert failure, a failure of the preferences
      insert (whose result is not checked), and the id and time the store
      assigns. */
  datatype StoreCall = StoreCall(lookupFails: bool, writeFails: bool, preferencesFail: bool,
                                 freshId: string, now: int)

  datatype Synced = Synced(response: Response<User>, accounts: Accounts)

  predicate HasUid(u: User, uid: string) {
    u.firebaseUid == uid
  }

  /** The update `.eq('firebase_uid', uid)`: every row with `uid` is
      refreshed; other rows are kept. */
  function Refresh(users: seq<User>, uid: string, email: string, p: Profile, now: int): (r: seq<User>)
    ensures |r| == |users|
    ensures forall i :: 0 <= i < |users| && !HasUid(users[i], uid) ==> r[i] == users[i]
    ensures forall i :: 0 <= i < |users| && HasUid(users[i], uid) ==> r[i] == Apply(users[i], email, p, now)
  {
    seq(|users|, i requires 0 <= i < |users| =>
      if HasUid(users[i], uid) then Apply(users[i], email, p, now) else users[i])
  }

  lemma RefreshContains(users: seq<User>, uid: string, email: string, p: Profile, now: int, u: User)
    requires u in users && HasUid(u, uid)
    ensures Apply(u, email, p, now) in Refresh(users, uid, email, p, now)
  {
    var j :| 0 <= j < |users| && users[j] == u;
    assert Refresh(users, uid, email, p, now)[j] == Apply(u, email, p, now);
  }

  /** The POST handler. */
  function SyncUser(a: Accounts, p: Profile, call: StoreCall): (r: Synced)
    ensures !Present(p.firebaseUid) || !Present(p.email) ==> r == Synced(Error(BadRequest), a)
    ensures r.response.Error? ==> r.accounts == a
    ensures r.response.Error? && r.response.status != BadRequest ==> r.response.status == ServerError
    ensures Present(p.firebaseUid) && Present(p.email) ==>
      (r.response.Error? <==> call.lookupFails || call.writeFails)
    ensures r.response.Ok? ==>
      var uid := p.firebaseUid.value;
      var u := r.response.body;
      && HasUid(u, uid) && u.email == p.email.value && u.lastLogin == Some(call.now)
      && (Count((x: User) => HasUid(x, uid), a.users) == 1 ==>
            && u in r.accounts.users
            && r.accounts.users == Refresh(a.users, uid, p.email.value, p, call.now)
            && r.accounts.preferences == a.preferences)
      && (Count((x: User) => HasUid(x, uid), a.users) != 1 ==>
            && u == User(call.freshId, uid, p.email.value, Inserted(p.displayName), Inserted(p.photoUrl), Some(call.now))
            && r.accounts.users == a.users + [u]
            && r.accounts.preferences == a.preferences + (if call.preferencesFail then [] else [u.id]))
  {
    if !Present(p.firebaseUid) || !Present(p.email) then Synced(Error(BadRequest), a)
    else if call.lookupFails then Synced(Error(ServerError), a)
    else
      var uid := p.firebaseUid.value;
      var email := p.email.value;
      match SingleOf((x: User) => HasUid(x, uid), a.users)
      case One(existing) =>
        if call.writeFails then Synced(Error(ServerError), a)
        else
          RefreshContains(a.users, uid, email, p, call.now, existing);
          Synced(Ok(Apply(existing, email, p, call.now)), a.(users := Refresh(a.users, uid, email, p, call.now)))
      case NoneOrMany =>
        if call.writeFails then Synced(Error(ServerError), a)
        else
          var u := User(call.freshId, uid, email, Inserted(p.displayName), Inserted(p.photoUrl), Some(call.now));
          var prefs := if call.preferencesFail then a.preferences else a.preferences + [u.id];
          Synced(Ok(u), Accounts(a.users + [u], prefs))
  }

  /** The table invariant: no two users share a Firebase uid or an id. */
  predicate WellFormed(users: seq<User>) {
    forall i, j :: 0 <= i < j < |users| ==> users[i].firebaseUid != users[j].firebaseUid && users[i].id != users[j].id
  }

  predicate IdUnused(users: seq<User>, id: string) {
    forall i :: 0 <= i < |users| ==> users[i].id != id
  }

  lemma {:induction false} UidCountAtMostOne(users: seq<User>, uid: string)
    requires WellFormed(users)
    ensures Count((x: User) => HasUid(x, uid), users) <= 1
  {
    if |users| > 0 {
      var t := users[1..];
      assert WellFormed(t) by {
        forall i, j | 0 <= i < j < |t| ensures t[i].firebaseUid != t[j].firebaseUid && t[i].id != t[j].id {
          assert t[i] == users[i + 1] && t[j] == users[j + 1];
        }
      }
      UidCountAtMostOne(t, uid);
      if HasUid(users[0], uid) {
        forall i | 0 <= i < |t| ensures !HasUid(t[i], uid) {
          assert t[i] == users[i + 1];
        }
      }
    }
  }

  /** A known uid: its row is refreshed in place, no row is added, no
      preferences row is created, and every other user is unchanged. */
  lemma KnownUserRefreshed(a: Accounts, p: Profile, call: StoreCall, k: nat)
    requires WellFormed(a.users) && k < |a.users|
    requires Present(p.firebaseUid) && Present(p.email) && a.users[k].firebaseUid == p.firebaseUid.value
    requires !call.lookupFails && !call.writeFails
    ensures var r := SyncUser(a, p, call);
      && r.response.Ok? && r.response.body.id == a.users[k].id
      && |r.accounts.users| == |a.users|
      && r.accounts.users[k] == r.response.body
      && (forall i :: 0 <= i < |a.users| && i != k ==> r.accounts.users[i] == a.users[i])
      && r.accounts.preferences == a.preferences
  {
    var uid := p.firebaseUid.value;
    var pr := (x: User) => HasUid(x, uid);
    UidCountAtMostOne(a.users, uid);
    assert Count(pr, a.users) != 0;
    var e := SingleOf(pr, a.users).row;
    var j :| 0 <= j < |a.users| && a.users[j] == e;
    forall i | 0 <= i < |a.users| && i != k ensures !HasUid(a.users[i], uid) {
      assert a.users[i].firebaseUid != a.users[k].firebaseUid;
    }
  }

  /** An unknown uid: exactly one row is added, and with it one
      preferences row unless that insert failed; the table stays well
      formed when the new id is unused. */
  lemma NewUserCreated(a: Accounts, p: Profile, call: StoreCall)
    requires WellFormed(a.users) && IdUnused(a.users, call.freshId)
    requires Present(p.firebaseUid) && Present(p.email)
    requires forall i :: 0 <= i < |a.users| ==> a.users[i].firebaseUid != p.firebaseUid.value
    requires !call.lookupFails && !call.writeFails
    ensures var r := SyncUser(a, p, call);
      && r.response.Ok?
      && r.accounts.users == a.users + [r.response.body]
      && r.accounts.preferences == a.preferences + (if call.preferencesFail then [] else [call.freshId])
      && WellFormed(r.accounts.users)
  {
    var uid := p.firebaseUid.value;
    assert Count((x: User) => HasUid(x, uid), a.users) == 0;
    var r := SyncUser(a, p, call);
    var t := r.accounts.users;
    forall i, j | 0 <= i < j < |t| ensures t[i].firebaseUid != t[j].firebaseUid && t[i].id != t[j].id {
      if j == |a.users| {
        assert t[i] == a.users[i];
      }
    }
  }

  /** A second sign-in of a new account refreshes the row the first one
      created and adds no preferences row. */
  lemma SignInTwice(a: Accounts, p: Profile, c1: StoreCall, c2: StoreCall)
    requires WellFormed(a.users) && IdUnused(a.users, c1.freshId)
    requires Present(p.firebaseUid) && Present(p.email)
    requires forall i :: 0 <= i < |a.users| ==> a.users[i].firebaseUid != p.firebaseUid.value
    requires !c1.lookupFails && !c1.writeFails && !c2.lookupFails && !c2.writeFails
    ensures var first := SyncUser(a, p, c1);
      var second := SyncUser(first.accounts, p, c2);
      && second.response.Ok?
      && second.response.body.id == c1.freshId
      && |second.accounts.users| == |a.users| + 1
      && second.accounts.preferences == first.accounts.preferences
  {
    NewUserCreated(a, p, c1);
    var first := SyncUser(a, p, c1);
    KnownUserRefreshed(first.accounts, p, c2, |a.users|);
  }
}

=== FILE: watchlist.dfy ===
/** The watchlist (app/api/watchlist/route.ts and
    app/api/watchlist/check/route.ts): a table of (user, content) rows with
    a unique constraint on the pair, read newest first, added to, removed
    from and queried for membership. */
module Watchlist {
  import opened Base
  import opened Sorting
  import opened Db

  predicate IsPair(e: WatchlistEntry, user: string, content: string) {
    e.userId == user && e.contentId == content
  }

  /** The pairs the table holds. */
  function Pairs(table: seq<WatchlistEntry>): set<(string, string)> {
    set i | 0 <= i < |table| :: (table[i].userId, table[i].contentId)
  }

  /** The unique constraint on (user_id, content_id). */
  predicate WellFormed(table: seq<WatchlistEntry>) {
    forall i, j :: 0 <= i < j < |table| ==>
      !(table[i].userId == table[j].userId && table[i].contentId == table[j].contentId)
  }

  function AddedAt(e: WatchlistEntry): int {
    e.addedAt
  }

  /** GET: 400 without `userId`, 500 on a store failure, otherwise the
      user's rows, most recently added first. */
  function GetWatchlist(table: seq<WatchlistEntry>, userId: Option<string>, fails: bool)
    : (r: Response<seq<WatchlistEntry>>)
    ensures !Present(userId) ==> r == Error(BadRequest)
    ensures Present(userId) && fails ==> r == Error(ServerError)
    ensures Present(userId) && !fails ==>
      && r.Ok?
      && multiset(r.body) == multiset(Filter((e: WatchlistEntry) => e.userId == userId.value, table))
      && SortedDesc(r.body, AddedAt)
  {
    if !Present(userId) then Error(BadRequest)
    else if fails then Error(ServerError)
    else Ok(SortDesc(Filter((e: WatchlistEntry) => e.userId == userId.value, table), AddedAt))
  }

  /** The reply and the table afterwards. */
  datatype Changed<T> = Changed(response: Response<T>, table: seq<WatchlistEntry>)

  /** POST: 400 without both ids; an existing pair violates the unique
      constraint and is a 409; any other store failure is a 500; otherwise
      the row is inserted with the id and time the store assigns. */
  function AddToWatchlist(table: seq<WatchlistEntry>, userId: Option<string>, contentId: Option<string>,
                          freshId: string, now: int, fails: bool): (r: Changed<WatchlistEntry>)
    ensures r.response.Error? ==> r.table == table
    ensures !Present(userId) || !Present(contentId) ==> r.response == Error(BadRequest)
    ensures Present(userId) && Present(contentId) ==>
      ((userId.value, contentId.value) in Pairs(table) <==> r.response == Error(Conflict))
    ensures r.response.Ok? ==>
      && r.table == table + [r.response.body]
      && r.response.body == WatchlistEntry(freshId, userId.value, contentId.value, now)
    ensures r.response.Ok? <==>
      Present(userId) && Present(contentId) && (userId.value, contentId.value) !in Pairs(table) && !fails
  {
    if !Present(userId) || !Present(contentId) then Changed(Error(BadRequest), table)
    else if (userId.value, contentId.value) in Pairs(table) then Changed(Error(Conflict), table)
    else if fails then Changed(Error(ServerError), table)
    else
      var e := WatchlistEntry(freshId, userId.value, contentId.value, now);
      Changed(Ok(e), table + [e])
  }

  /** DELETE: 400 without both ids, 500 on a store failure, otherwise every
      row of the pair is removed, whether there was one or not. */
  function RemoveFromWatchlist(table: seq<WatchlistEntry>, userId: Option<string>, contentId: Option<string>,
                               fails: bool): (r: Changed<()>)
    ensures r.response.Error? ==> r.table == table
    ensures !Present(userId) || !Present(contentId) ==> r.response == Error(BadRequest)
    ensures r.response.Ok? <==> Present(userId) && Present(contentId) && !fails
    ensures r.response.Ok? ==> forall i :: 0 <= i < |r.table| ==> !IsPair(r.table[i], userId.value, contentId.value)
    ensures r.response.Ok? ==> forall e :: e in table && !IsPair(e, userId.value, contentId.value) ==> e in r.table
    ensures forall e :: e in r.table ==> e in table
  {
    if !Present(userId) || !Present(contentId) then Changed(Error(BadRequest), table)
    else if fails then Changed(Error(ServerError), table)
    else Changed(Ok(()), Filter((e: WatchlistEntry) => !IsPair(e, userId.value, contentId.value), table))
  }

  /** The membership check. `maybeSingle` answers "no row" with null and
      more than one row with an error. */
  function InWatchlist(table: seq<WatchlistEntry>, userId: Option<string>, contentId: Option<string>, fails: bool)
    : (r: Response<bool>)
    ensures !Present(userId) || !Present(contentId) ==> r == Error(BadRequest)
    ensures Present(userId) && Present(contentId) && !fails && WellFormed(table) ==>
      r == Ok((userId.value, contentId.value) in Pairs(table))
    ensures r.Error? && Present(userId) && Present(contentId) ==> r.status == ServerError
  {
    if !Present(userId) || !Present(contentId) then Error(BadRequest)
    else if fails then Error(ServerError)
    else
      var n := Count((e: WatchlistEntry) => IsPair(e, userId.value, contentId.value), table);
      PairsCount(table, userId.value, contentId.value);
      if n >= 2 then Error(ServerError) else Ok(n == 1)
  }

  /** The pair is in the table exactly when some row matches it, and a
      well-formed table has at most one such row. */
  lemma {:induction false} PairsCount(table: seq<WatchlistEntry>, user: string, content: string)
    ensures (user, content) in Pairs(table) <==> Count((e: WatchlistEntry) => IsPair(e, user, content), table) > 0
    ensures WellFormed(table) ==> Count((e: WatchlistEntry) => IsPair(e, user, content), table) <= 1
  {
    var p := (e: WatchlistEntry) => IsPair(e, user, content);
    if (user, content) in Pairs(table) {
      var i :| 0 <= i < |table| && (table[i].userId, table[i].contentId) == (user, content);
      assert p(table[i]);
    }
    if |table| > 0 {
      var t := table[1..];
      assert WellFormed(table) ==> WellFormed(t) by {
        if WellFormed(table) {
          forall i, j | 0 <= i < j < |t| ensures !(t[i].userId == t[j].userId && t[i].contentId == t[j].contentId) {
            assert t[i] == table[i + 1] && t[j] == table[j + 1];
          }
        }
      }
      PairsCount(t, user, content);
      if WellFormed(table) && p(table[0]) {
        forall i | 0 <= i < |t| ensures !p(t[i]) {
          assert t[i] == table[i + 1];
        }
      }
    }
  }

  // ---------------------------------------------------------------------
  // The table as a set of pairs

  /** A successful POST adds exactly its pair and keeps the pairs unique. */
  lemma AddInsertsPair(table: seq<WatchlistEntry>, user: string, content: string, freshId: string, now: int)
    requires WellFormed(table) && user != "" && content != ""
    requires (user, content) !in Pairs(table)
    ensures var r := AddToWatchlist(table, Some(user), Some(content), freshId, now, false);
      && r.response.Ok?
      && Pairs(r.table) == Pairs(table) + {(user, content)}
      && WellFormed(r.table)
  {
    var r := AddToWatchlist(table, Some(user), Some(content), freshId, now, false);
    var t := r.table;
    assert forall i :: 0 <= i < |table| ==> t[i] == table[i];
    assert t[|table|].userId == user && t[|table|].contentId == content;
    forall x | x in Pairs(t) ensures x in Pairs(table) + {(user, content)} {
      var i :| 0 <= i < |t| && x == (t[i].userId, t[i].contentId);
      if i < |table| {
        assert x == (table[i].userId, table[i].contentId);
      }
    }
    forall x | x in Pairs(table) ensures x in Pairs(t) {
      var i :| 0 <= i < |table| && x == (table[i].userId, table[i].contentId);
      assert x == (t[i].userId, t[i].contentId);
    }
    assert (user, content) == (t[|table|].userId, t[|table|].contentId);
    forall i, j | 0 <= i < j < |t| ensures !(t[i].userId == t[j].userId && t[i].contentId == t[j].contentId) {
      if j == |table| {
        assert (t[i].userId, t[i].contentId) in Pairs(table);
      }
    }
  }

  /** A successful DELETE removes exactly its pair. */
  lemma RemoveDeletesPair(table: seq<WatchlistEntry>, user: string, content: string)
    requires user != "" && content != ""
    ensures var r := RemoveFromWatchlist(table, Some(user), Some(content), false);
      Pairs(r.table) == Pairs(table) - {(user, content)}
  {
    var r := RemoveFromWatchlist(table, Some(user), Some(content), false);
    var t := r.table;
    forall x | x in Pairs(t) ensures x in Pairs(table) - {(user, content)} {
      var i :| 0 <= i < |t| && x == (t[i].userId, t[i].contentId);
      assert !IsPair(t[i], user, content);
      var k :| 0 <= k < |table| && table[k] == t[i];
    }
    forall x | x in Pairs(table) - {(user, content)} ensures x in Pairs(t) {
      var i :| 0 <= i < |table| && x == (table[i].userId, table[i].contentId);
      assert table[i] in t;
      var k :| 0 <= k < |t| && t[k] == table[i];
    }
  }

  /** Removing twice leaves the same table as removing once. */
  lemma RemoveIdempotent(table: seq<WatchlistEntry>, user: string, content: string)
    requires user != "" && content != ""
    ensures var once := RemoveFromWatchlist(table, Some(user), Some(content), false).table;
      RemoveFromWatchlist(once, Some(user), Some(content), false).table == once
  {
    var once := RemoveFromWatchlist(table, Some(user), Some(content), false).table;
    FilterKeepsAll((e: WatchlistEntry) => !IsPair(e, user, content), once);
  }

  lemma {:induction false} FilterKeepsAll<T>(p: T -> bool, s: seq<T>)
    requires forall i :: 0 <= i < |s| ==> p(s[i])
    ensures Filter(p, s) == s
  {
    if |s| > 0 {
      FilterKeepsAll(p, s[..|s| - 1]);
      assert s == s[..|s| - 1] + [s[|s| - 1]];
    }
  }

  /** After a successful POST the check answers true; after a successful
      DELETE it answers false. */
  lemma CheckAfterChanges(table: seq<WatchlistEntry>, user: string, content: string, freshId: string, now: int)
    requires WellFormed(table) && user != "" && content != ""
    ensures var removed := RemoveFromWatchlist(table, Some(user), Some(content), false).table;
      InWatchlist(removed, Some(user), Some(content), false) == Ok(false)
    ensures (user, content) !in Pairs(table) ==>
      var added := AddToWatchlist(table, Some(user), Some(content), freshId, now, false).table;
      InWatchlist(added, Some(user), Some(content), false) == Ok(true)
  {
    var removed := RemoveFromWatchlist(table, Some(user), Some(content), false).table;
    RemoveDeletesPair(table, user, content);
    PairsCount(removed, user, content);
    if (user, content) !in Pairs(table) {
      AddInsertsPair(table, user, content, freshId, now);
    }
  }
}
